=== FILE: README.md ===
# scrapechecker in Dafny

A model of the change-detection core of scrapechecker, a small framework that
scrapes a web page on a schedule, compares the result with the previous run,
and sends a Telegram alert when something relevant changed. The model covers:

- the scraped **records** (Python dicts of scalars, kept as association lists
  so that insertion order, which Python dicts preserve, is part of the model);
- the **change finder**, which keys two snapshots and reports new, removed and
  changed records, plus the narrowing of a diff to a tracked "target";
- the typed contest participant `ContestItem` and its dict conversions;
- the three **scrapers**:
  - the typed contest scraper;
  - the older dict-based contest scraper;
  - the example CSS-selector and product scrapers.

  The browser is a parameter: what the page's elements yield, or that they
  failed.
- the three **formatters**, which turn a diff into the alert text:
  - the contest formatter, with focused rankings and threatening competitors;
  - the older generic formatter;
  - the plain-text example formatter.
- the **site monitor**, as pure transitions over the contents of its JSON data
  file:
  - load;
  - save, with one generation of history;
  - the monitor run;
  - the status check;
  - the replay of the last change.

  The alert gate is the rule that only a message containing "Key Change" is
  sent.

Python behaviour is modelled explicitly where it matters:

- `None` is modelled as Python `None`.
- Truthiness: `rank or 0`, `if content:`, `self.target_item and ...`.
- `==` between bool and int (`True == 1`).
- `str()` of values.
- `rstrip()`/`strip()`.
- Stable `list.sort`.
- Dict updates that keep key positions.

A Python exception that the source lets escape is an `Option` result whose
`None` means "raises". An exception the source catches is modelled as the
branch that catches it.

Modules, one per file:

| module | file | models |
|---|---|---|
| `Wrappers`, `Seqs`, `Text`, `Dicts` | wrappers.dfy, seqs.dfy, text.dfy, dicts.dfy | Option, list and string operations, dicts |
| `Records` | records.dfy | scalar values, `str()`, truthiness, `==`, record fields |
| `Sorting` | sorting.dfy | stable sort by an integer key |
| `Types` | types.dfy | types.py |
| `ChangeFinder` | change_finder.dfy | change_finder.py |
| `ContestTypes` | contest_types.dfy | contest/contest_types.py |
| `ContestScraper` | contest_scraper.dfy | contest/contest_scraper.py |
| `Encoding`, `DictContestScraper` | encoding.dfy, dict_contest_scraper.dfy | scrapers/contest_scraper.py |
| `SimpleScraper` | simple_scraper.dfy | scrapers/simple_scraper.py |
| `Render` | render.dfy | the section and message layout all formatters share |
| `ContestFormatter` | contest_formatter.dfy | contest/contest_formatter.py |
| `GenericFormatter` | generic_formatter.dfy | formatter.py |
| `SimpleFormatter` | simple_formatter.dfy | example/simple_formatter.py |
| `SiteMonitor` | site_monitor.dfy | site_monitor.py |

## Model

| member | source | states |
|---|---|---|
| ChangeFinder.Index | src/scrapechecker/change_finder.py:48-51 | the keyed dict of a snapshot is a well-formed dict in which every record sits under its own key |
| ChangeFinder.LastWithKey | src/scrapechecker/change_finder.py:48-51 | the record a later write leaves under a key: none exactly when no record has the key, otherwise a record with that key after which no record has it |
| ChangeFinder.IndexGet | src/scrapechecker/change_finder.py:48-51 | when two records share a key the later one wins; the dict has exactly the keys that occur in the snapshot |
| ChangeFinder.IndexOrder | src/scrapechecker/change_finder.py:48-51 | the dict lists its keys in the order of their first appearance in the snapshot |
| ChangeFinder.FieldChanges | src/scrapechecker/change_finder.py:86-96 | a field is reported exactly when it is in both records, its values differ under Python `==`, and it is not `is_target`; each change carries `str()` of both values under the field's name; a field only in the new record is never reported |
| ChangeFinder.FieldChangesOrder | src/scrapechecker/change_finder.py:90-95 | the reported fields come in the old record's field order, each once: its keys filtered by the reporting test |
| ChangeFinder.FieldChangesSelf | src/scrapechecker/change_finder.py:86-96 | a record compared with itself has no field changes |
| ChangeFinder.ChangedItemsMap | src/scrapechecker/change_finder.py:70-84 | the changed items are, in the current dict's order, the changes of the entries whose key is in the previous dict and whose field changes are non-empty |
| ChangeFinder.ChangedItemsEntries | src/scrapechecker/change_finder.py:70-84 | each changed item holds the previous record of its key, the current record and their non-empty field changes |
| ChangeFinder.FindChangesAddedRemoved | src/scrapechecker/change_finder.py:48-58 | a record is new exactly when it is the last current record with its key and the key does not occur in the previous snapshot; removed records are the mirror image |
| ChangeFinder.FindChangesChangedSound | src/scrapechecker/change_finder.py:70-84 | every reported change belongs to a key on both sides; it holds the last records of that key and their non-empty changes |
| ChangeFinder.FindChangesChangedComplete | src/scrapechecker/change_finder.py:70-84 | every key on both sides whose last records differ in a compared field is reported |
| ChangeFinder.KeysOf | src/scrapechecker/change_finder.py:48-51 | computing every record's key raises exactly when some record's key raises; otherwise it gives each record's key in order |
| ChangeFinder.FindChangesOrRaise | src/scrapechecker/change_finder.py:48-51 | `find_changes` raises exactly when a current or a previous record has no key; otherwise it reports what the key computes |
| ChangeFinder.FindChangesOrRaiseKeys | src/scrapechecker/change_finder.py:48-51 | when `find_changes` does not raise, the key it files records under is the scraper's key of every current and previous record |
| ChangeFinder.FindChangesSelf | src/scrapechecker/change_finder.py:30-68 | a snapshot compared with itself gives nothing new, removed or changed |
| ChangeFinder.FindChangesAddedOrder | src/scrapechecker/change_finder.py:53-55 | new records are listed in the order their keys first appear in the current snapshot, and no key twice |
| ChangeFinder.FindChangesChangedOrder | src/scrapechecker/change_finder.py:75-84 | changes are listed in the order their keys first appear in the current snapshot, and no key twice |
| ChangeFinder.FilterToTargetOnly | src/scrapechecker/change_finder.py:98-129 | without a target the diff is returned unchanged; with one, each list keeps exactly its records whose name contains the lower-cased target, judging a change by its new record, in their order and each once |
| ChangeFinder.FilterToTargetOnlyIdempotent | src/scrapechecker/change_finder.py:117-129 | narrowing to the target twice is narrowing once |
| Records.PyEqFacts | src/scrapechecker/change_finder.py:92 | the `==` used to detect changes is an equivalence, but it treats `1` and `True` as equal even though their `str()` differs |
| Types.GetChange | src/scrapechecker/types.py:34-40 | `get_change(f)` finds a change exactly when `has_change(f)` holds, and it finds the one stored under `f` |
| Types.FormatChangesLines | src/scrapechecker/types.py:17-45 | `format_changes` gives one line per change, in the dict's order, each the indent followed by `field: old → new`; no changes give "" |
| ContestTypes.FromDict | src/scrapechecker/contest/contest_types.py:19-28 | a missing name reads as "", missing or null rank and votes read as None, a missing marker reads as False, and the record is kept as raw data |
| ContestTypes.PutField | src/scrapechecker/contest/contest_types.py:37-40 | `result[k] = v` stores `v` under `k`, leaves other fields alone, and appends `k` only when it is new |
| ContestTypes.Merge | src/scrapechecker/contest/contest_types.py:42-46 | the raw-data loop adds each raw field not already written, and leaves the written fields' values alone |
| ContestTypes.MergeKeepsOrder | src/scrapechecker/contest/contest_types.py:42-46 | the raw-data loop never moves the fields already written |
| ContestTypes.ToDict | src/scrapechecker/contest/contest_types.py:30-48 | `to_dict` starts with name and marker; rank and votes appear when set; every other field comes from the raw data |
| ContestTypes.ToDictFromDict | src/scrapechecker/contest/contest_types.py:19-48 | record → item → dict gives back the same fields, except that a missing name or marker is filled with its default; with both present it is the same dict |
| ContestTypes.FromDictToDict | src/scrapechecker/contest/contest_types.py:19-48 | item → dict → item keeps name, rank, votes and marker for an item built without raw data |
| ContestTypes.FromDictIdempotent | src/scrapechecker/contest/contest_types.py:19-48 | reading an item back from its own dict gives the same typed fields |
| ContestScraper.ItemOf | src/scrapechecker/contest/contest_scraper.py:52-72 | a parsed element becomes an item with the stripped name, its rank and votes, no raw data, and the marker set exactly when the name equals the target ignoring case |
| ContestScraper.ParseAllMembers | src/scrapechecker/contest/contest_scraper.py:48-76 | every element that parses yields its item and every item comes from such an element; elements that fail are skipped |
| ContestScraper.Contestants | src/scrapechecker/contest/contest_scraper.py:32-85 | the contestants are the parsed items sorted by rank (a permutation of them); a page without the results container gives none |
| ContestScraper.ContestantsSpec | src/scrapechecker/contest/contest_scraper.py:48-79 | the sort keeps page order among contestants that share a rank |
| ContestScraper.NameKey | src/scrapechecker/contest/contest_scraper.py:87-90 | every key is `contestant_` followed by one character per character of the name |
| ContestScraper.DictKey | src/scrapechecker/contest/contest_scraper.py:87-90 | keying a dict raises exactly when its name is missing or not text; otherwise it is the name's key |
| ContestScraper.DictKeyToDict | src/scrapechecker/contest/contest_scraper.py:87-90 | an item and its dict form get the same key |
| ContestScraper.NameKeyInjective | src/scrapechecker/contest/contest_scraper.py:90 | for names without `_`, two names share a key exactly when they are equal ignoring case |
| ContestScraper.NameKeyCollision | src/scrapechecker/contest/contest_scraper.py:90 | "a b" and "a_b" are different contestants tracked under the same key |
| ContestScraper.RankEmojiMedal | src/scrapechecker/contest/contest_scraper.py:117-124 | ranks 1, 2 and 3 get gold, silver and bronze, and every other rank gets the badge |
| ContestScraper.OrZero | src/scrapechecker/contest/contest_scraper.py:104 | `v or 0` keeps a truthy value and turns a falsy one into 0 |
| ContestScraper.DictFormat | src/scrapechecker/contest/contest_scraper.py:103-115 | formatting a dict raises exactly when its rank, name or votes field is missing |
| ContestScraper.DictFormatToDict | src/scrapechecker/contest/contest_scraper.py:96-115 | an item and its dict form show the same line when rank and votes are set; without a rank (and no raw data) the dict form raises |
| ContestScraper.FormatItemMarker | src/scrapechecker/contest/contest_scraper.py:109-115 | the line ends with the target mark exactly when the item is the target; a missing rank shows as rank 0 |
| ContestScraper.ToDictFields | src/scrapechecker/contest/contest_types.py:30-40 | the dict form carries the item's name, marker, and rank and votes when set |
| DictContestScraper.TargetValue | src/scrapechecker/scrapers/contest_scraper.py:68 | the stored `is_target` value is truthy exactly when the name equals the target ignoring case |
| DictContestScraper.DictOf | src/scrapechecker/scrapers/contest_scraper.py:64-69 | a scraped record has the fields rank, name, votes, is_target, in that order |
| DictContestScraper.ParseAllAgrees | src/scrapechecker/scrapers/contest_scraper.py:48-74 | the dict scraper reads the same contestants as the typed scraper, one for one and in page order |
| DictContestScraper.Contestants | src/scrapechecker/scrapers/contest_scraper.py:32-83 | the records are sorted by rank, stably, and are a permutation of the parsed records; a page without results gives none |
| DictContestScraper.KeysAgree | src/scrapechecker/scrapers/contest_scraper.py:85-87 | both scrapers key a contestant alike |
| DictContestScraper.FormatAsWritten | src/scrapechecker/scrapers/contest_scraper.py:93-98 | the display raises exactly when rank, name or votes is missing |
| DictContestScraper.MisreadGold | src/scrapechecker/scrapers/contest_scraper.py:103 | the rank-1 literal is the gold medal's UTF-8 bytes read as Windows-1254, not the medal |
| DictContestScraper.MisreadSilver | src/scrapechecker/scrapers/contest_scraper.py:104 | the same for the silver medal |
| DictContestScraper.MisreadBronze | src/scrapechecker/scrapers/contest_scraper.py:105 | the same for the bronze medal |
| DictContestScraper.MisreadBadge | src/scrapechecker/scrapers/contest_scraper.py:107 | the same for the badge |
| DictContestScraper.MisreadTargetMark | src/scrapechecker/scrapers/contest_scraper.py:96 | the same for the target mark |
| DictContestScraper.FormatAsWrittenGarbled | src/scrapechecker/scrapers/contest_scraper.py:93-107 | every line the file displays differs from the intended one and starts with a misread letter |
| DictContestScraper.FormatCorrected | src/scrapechecker/scrapers/contest_scraper.py:93-98 | the corrected display also raises exactly when rank, name or votes is missing |
| DictContestScraper.FormatCorrectedAgrees | src/scrapechecker/scrapers/contest_scraper.py:93-107 | corrected, the older scraper shows every contestant exactly as the typed scraper does |
| Encoding.MisreadChangesEmoji | src/scrapechecker/scrapers/contest_scraper.py:96-107 | no character outside the Basic Multilingual Plane survives being written as UTF-8 and read back as Windows-1254 |
| Sorting.SortBy | src/scrapechecker/contest/contest_scraper.py:79 | the sort result is ordered by key and is a permutation of the input |
| Sorting.SortByStable | src/scrapechecker/contest/contest_scraper.py:79 | for every key, the elements with that key keep their input order |
| Sorting.SortBySorted | src/scrapechecker/contest/contest_scraper.py:79 | an already ordered list comes back unchanged |
| SimpleScraper.Contents | src/scrapechecker/scrapers/simple_scraper.py:30-34 | the content is the stripped text for the "text" attribute, or else the attribute's value |
| SimpleScraper.Extract | src/scrapechecker/scrapers/simple_scraper.py:25-44 | at most one record per matched element |
| SimpleScraper.ExtractSpec | src/scrapechecker/scrapers/simple_scraper.py:30-42 | the records are exactly those of the elements with non-empty content |
| SimpleScraper.ExtractPositions | src/scrapechecker/scrapers/simple_scraper.py:30-42 | the j-th record is the one for the j-th element with non-empty content, numbered by that element's position among all matches; these positions strictly increase, so the records follow page order |
| SimpleScraper.SimpleItemFields | src/scrapechecker/scrapers/simple_scraper.py:37-42 | a record holds `item_<i>`, the content, the selector and the position |
| SimpleScraper.SimpleKey | src/scrapechecker/scrapers/simple_scraper.py:46-48 | keying raises exactly when selector or position is missing |
| SimpleScraper.ExtractKeysDistinct | src/scrapechecker/scrapers/simple_scraper.py:46-48 | the records of one page have pairwise different keys |
| SimpleScraper.Truncate | src/scrapechecker/scrapers/simple_scraper.py:53-54 | content of at most 100 characters is kept whole; longer content becomes its first 97 characters and "..." |
| SimpleScraper.TruncateIdempotent | src/scrapechecker/scrapers/simple_scraper.py:53-54 | shortening a shortened content changes nothing |
| SimpleScraper.SimpleFormat | src/scrapechecker/scrapers/simple_scraper.py:50-55 | display raises exactly when position is missing or content is missing or not text |
| SimpleScraper.SimpleFormatItem | src/scrapechecker/scrapers/simple_scraper.py:50-55 | an extracted record displays as "Position i: " followed by its shortened content |
| SimpleScraper.Products | src/scrapechecker/scrapers/simple_scraper.py:61-96 | a failed product search gives the single page-content record; otherwise at most one record per product element |
| SimpleScraper.ProductsSpec | src/scrapechecker/scrapers/simple_scraper.py:70-82 | the listing's records are exactly its product elements that have both a title and a price |
| SimpleScraper.ProductsPositions | src/scrapechecker/scrapers/simple_scraper.py:70-82 | the j-th product record is the one for the j-th product element with a title and a price, numbered by its position among all product elements; these positions strictly increase |
| SimpleScraper.ProductFields | src/scrapechecker/scrapers/simple_scraper.py:75-80 | a product record holds `product_<i>`, the stripped title and price, and the position |
| SimpleScraper.PageContentFields | src/scrapechecker/scrapers/simple_scraper.py:84-94 | the fallback record holds the first 500 characters of the body and has no price |
| SimpleScraper.ProductKey | src/scrapechecker/scrapers/simple_scraper.py:98-100 | keying raises exactly when the id is missing |
| SimpleScraper.ProductKeysDistinct | src/scrapechecker/scrapers/simple_scraper.py:98-100 | the product records of one listing have pairwise different ids |
| SimpleScraper.ProductFormat | src/scrapechecker/scrapers/simple_scraper.py:102-106 | display is "title - price" when both are present, else the title, else the content, else the dict's printed form |
| SimpleScraper.ProductFormatScraped | src/scrapechecker/scrapers/simple_scraper.py:102-106 | a scraped product displays as its stripped title and price; the fallback record displays as "Page Content" |
| Render.Bullets | src/scrapechecker/contest/contest_formatter.py:74-76 | one bullet line per item, holding that item's display |
| Render.ListLines | src/scrapechecker/contest/contest_formatter.py:70-79 | the first `max_results` items get one bullet each; the trailer "... and N more" comes exactly when items were left out, N being how many |
| Render.LinesJoin | src/scrapechecker/contest/contest_formatter.py:74-79 | appending every line with a newline is the newline-join plus one final newline |
| Render.BlockLines | src/scrapechecker/contest/contest_formatter.py:72-81 | after `rstrip()`, a section whose lines hold no newline and whose last line ends in visible text is its lines joined by newlines, and it splits back into them |
| Render.ListSection | src/scrapechecker/contest/contest_formatter.py:67-81 | a listing section starts with its header and never reads like "No changes detected." |
| Render.ListSectionLines | src/scrapechecker/contest/contest_formatter.py:67-81 | a listing section is its header line, then the capped bullet lines and trailer, line by line |
| Render.BulletSectionLines | src/scrapechecker/contest/contest_formatter.py:144-151 | a section that lists every item is its header line, then one bullet per item, with no trailer |
| Render.HeadersTagged | src/scrapechecker/contest/contest_formatter.py:114-116 | every HTML header opens and closes with a tag, and the key-change header holds "Key Change" |
| Render.ListHeadersVisible | src/scrapechecker/contest/contest_formatter.py:72 | the new and removed headers are single lines ending in visible text |
| Render.RankingsHeadersVisible | src/scrapechecker/contest/contest_formatter.py:136-138 | both rankings headers are single lines ending in visible text |
| Render.SectionHeader | src/scrapechecker/contest/contest_formatter.py:114-126 | a section keeps its header intact at its start, so it holds whatever the header holds |
| Render.MessageSentinel | src/scrapechecker/contest/contest_formatter.py:65 | when no section reads like the fixed sentence, the message is that sentence exactly when there are no sections |
| Render.MessageContains | src/scrapechecker/contest/contest_formatter.py:65 | text inside a section is inside the message |
| Render.PresentMembers | src/scrapechecker/contest/contest_formatter.py:50-63 | the appended sections are exactly those whose condition holds; none is appended exactly when no condition holds |
| Render.PresentOrder | src/scrapechecker/contest/contest_formatter.py:50-63 | the appended sections are those whose condition holds, in the order they are tried and each once: the k-th is the section at the k-th position whose condition holds, and those positions strictly increase |
| Render.PresentNoChanges | src/scrapechecker/contest/contest_formatter.py:50-65 | the message is "No changes detected." exactly when no section's condition holds |
| Render.PresentContains | src/scrapechecker/contest/contest_formatter.py:50-65 | text inside an appended section is inside the message |
| Render.AlertNoChanges | src/scrapechecker/contest/contest_formatter.py:50-65 | the four-section alert is the fixed sentence exactly when nothing was added, removed or changed; the rankings never stand alone |
| Render.AlertContains | src/scrapechecker/contest/contest_formatter.py:50-65 | text inside an appended new, removed or changed section is inside the alert |
| Render.AlertParts | src/scrapechecker/contest/contest_formatter.py:50-65 | the four-section alert is the new, removed and changed sections (each when it has items), then the rankings (when there are current items and something changed), in that order |
| Render.ThreeParts | src/scrapechecker/example/simple_formatter.py:29-41 | a three-section message is the sections whose conditions hold, in their order |
| Render.NewSection | src/scrapechecker/contest/contest_formatter.py:67-81 | the new-items section opens with the header counting every new item, in both HTML formatters (formatter.py:64-78 is the same method) |
| Render.RemovedSection | src/scrapechecker/contest/contest_formatter.py:83-97 | the removed-items section opens with the header counting every removed item, in both HTML formatters (formatter.py:80-94 is the same method) |
| Render.ListedSectionsLines | src/scrapechecker/contest/contest_formatter.py:67-97 | line by line, the new and removed sections are the header, at most `max_results` bullets, and the trailer exactly when some were left out |
| Render.FullRankingsLines | src/scrapechecker/contest/contest_formatter.py:273-287 | the full rankings are the header counting everyone, at most `max_results` bullets, and the trailer exactly when some were left out (formatter.py:257-271 is the same method) |
| ContestFormatter.FocusBounds | src/scrapechecker/contest/contest_formatter.py:153-201 | without a target, or when none is found, the view is the first `max_items`; a target ranked 10 or better is shown with everyone above it and one below; a target further back is shown with up to two records on each side |
| ContestFormatter.FocusedRankingsShowTarget | src/scrapechecker/contest/contest_formatter.py:153-201 | the focused view contains the target whenever one is found |
| ContestFormatter.TargetChangeSpec | src/scrapechecker/contest/contest_formatter.py:244-249 | the target's own change is the first change naming it, and there is one exactly when some change names it |
| ContestFormatter.FocusedChangesSpec | src/scrapechecker/contest/contest_formatter.py:215-271 | with the target ranked in the current list: the target's first change comes first when there is one, and after it come exactly the other changes that threaten the target, in their order among the changes and each once; otherwise the first `max_results` changes |
| ContestFormatter.ChangedSection | src/scrapechecker/contest/contest_formatter.py:99-126 | the changed section is "" exactly when the focused (or capped) view of the changes is empty |
| ContestFormatter.ChangedSectionHeader | src/scrapechecker/contest/contest_formatter.py:114-116 | a non-empty changed section opens with "Key Change" and counts the changes shown |
| ContestFormatter.EntryLines | src/scrapechecker/contest/contest_formatter.py:118-124 | a shown change's lines are a bullet with the displayed new item, then one `field: old → new` line per changed field, in the order of its changes |
| ContestFormatter.ChangedEntryAt | src/scrapechecker/contest/contest_formatter.py:118-124 | each shown change is listed, in order, right after the lines of the changes before it |
| ContestFormatter.ChangedSectionLines | src/scrapechecker/contest/contest_formatter.py:99-126 | when the change lines hold no newline and end in visible text, a non-empty changed section splits into the key-change header counting the shown changes and their lines |
| ContestFormatter.RankingsSection | src/scrapechecker/contest/contest_formatter.py:128-151 | the rankings section never reads like the fixed sentence |
| ContestFormatter.RankingsWithoutTarget | src/scrapechecker/contest/contest_formatter.py:139-151 | without a target the rankings section is the full-rankings listing |
| ContestFormatter.RankingsWithTarget | src/scrapechecker/contest/contest_formatter.py:132-151 | with a target the section lists the whole focused view, says "showing k of n" exactly when the view is partial, and has no trailer |
| ContestFormatter.MessageParts | src/scrapechecker/contest/contest_formatter.py:50-65 | the message is the new, removed and changed sections (each when there are such items) and then the rankings (when there are current items and something changed), in that order, joined by blank lines, or "No changes detected." when no part is present |
| ContestFormatter.NoChangesIff | src/scrapechecker/contest/contest_formatter.py:50-65 | the message is "No changes detected." exactly when nothing was added, removed or changed, whatever the focusing keeps |
| ContestFormatter.ShownFromChanged | src/scrapechecker/contest/contest_formatter.py:103-109 | every change shown is one of the changes given |
| ContestFormatter.MessageAnnouncesItems | src/scrapechecker/contest/contest_formatter.py:50-81 | the message announces new and removed items with their full counts |
| ContestFormatter.MessageAnnouncesKeyChanges | src/scrapechecker/contest/contest_formatter.py:58-126 | whenever a change survives the focusing, the message holds "Key Change" with the number of changes shown |
| GenericFormatter.FocusBounds | src/scrapechecker/formatter.py:148-198 | without a target, or when none is found, the view is the first `max_items`. Otherwise it holds the target and every record within two places of it, and has between min(`max_items`, n) and max(`max_items`, 5) records. It reaches more than two places below the target only when it already starts at the top |
| GenericFormatter.FocusedRankingsShowTarget | src/scrapechecker/formatter.py:148-198 | the focused view contains the target whenever one is found, and is the top `max_items` otherwise |
| GenericFormatter.FocusedChangesSpec | src/scrapechecker/formatter.py:200-255 | with a target: nothing when the target did not change; otherwise the target's first change, then exactly the other changes that moved to or above the target's new rank, in their order and each once, unless the target had no old rank, in which case the target alone |
| GenericFormatter.ChangedSection | src/scrapechecker/formatter.py:96-121 | the changed section is "" exactly when the focused (or capped) view of the changes is empty |
| GenericFormatter.ChangedSectionHeader | src/scrapechecker/formatter.py:109-111 | a non-empty changed section opens with "Key Change" and counts the changes shown |
| GenericFormatter.EntryLines | src/scrapechecker/formatter.py:113-119 | a shown change's lines are a bullet with the displayed new item, then one `field: old → new` line per changed field, in the order of its changes |
| GenericFormatter.ChangedEntryAt | src/scrapechecker/formatter.py:113-119 | each shown change is listed, in order, right after the lines of the changes before it |
| GenericFormatter.ChangedSectionLines | src/scrapechecker/formatter.py:96-121 | when the change lines hold no newline and end in visible text, a non-empty changed section splits into the key-change header counting the shown changes and their lines |
| GenericFormatter.RankingsSection | src/scrapechecker/formatter.py:123-146 | the rankings section never reads like the fixed sentence |
| GenericFormatter.RankingsWithoutTarget | src/scrapechecker/formatter.py:134-146 | without a target the rankings section is the full-rankings listing |
| GenericFormatter.RankingsWithTarget | src/scrapechecker/formatter.py:127-146 | with a target the section lists the whole focused view, says "showing k of n" exactly when the view is partial, and has no trailer |
| GenericFormatter.MessageParts | src/scrapechecker/formatter.py:47-62 | the message is the new, removed and changed sections (each when there are such items) and then the rankings (when there are current items and something changed), in that order, joined by blank lines, or "No changes detected." when no part is present |
| GenericFormatter.NoChangesIff | src/scrapechecker/formatter.py:47-62 | the message is "No changes detected." exactly when nothing was added, removed or changed |
| GenericFormatter.TargetUnchangedHidesChanges | src/scrapechecker/formatter.py:219-229 | with a target that has no change of its own, the changed section is empty, so no competitor is reported |
| GenericFormatter.MessageAnnouncesItems | src/scrapechecker/formatter.py:47-94 | the message announces new and removed items with their full counts |
| GenericFormatter.MessageAnnouncesKeyChanges | src/scrapechecker/formatter.py:55-121 | whenever a change survives the focusing, the message holds "Key Change" with the number of changes shown |
| SimpleFormatter.ChangedLines | src/scrapechecker/example/simple_formatter.py:81-95 | at most `max_results` changes are listed, each followed by its field lines; the last line is the trailer exactly when some were left out |
| SimpleFormatter.ChangedLinesTruncated | src/scrapechecker/example/simple_formatter.py:85-95 | past `max_results`, the lines are exactly those of the first `max_results` changes followed by the trailer counting the others |
| SimpleFormatter.ChangedEntryAt | src/scrapechecker/example/simple_formatter.py:85-92 | each of the first `max_results` changes is listed, in order, right after the lines of the changes before it |
| SimpleFormatter.EntryLines | src/scrapechecker/example/simple_formatter.py:86-92 | a change's lines are its bullet line, then one line per changed field, in the order of its changes |
| SimpleFormatter.ChangedSectionLines | src/scrapechecker/example/simple_formatter.py:75-97 | when the change lines hold no newline and end in visible text, the changed section splits back into the header counting every change and those lines |
| SimpleFormatter.NewSection | src/scrapechecker/example/simple_formatter.py:43-57 | the plain new-items section opens with the header counting every new item |
| SimpleFormatter.RemovedSection | src/scrapechecker/example/simple_formatter.py:59-73 | the plain removed-items section opens with the header counting every removed item |
| SimpleFormatter.ListedSectionsLines | src/scrapechecker/example/simple_formatter.py:43-73 | line by line, the plain new and removed sections are the header, at most `max_results` bullets, and the trailer exactly when some were left out |
| SimpleFormatter.ChangedSection | src/scrapechecker/example/simple_formatter.py:75-97 | the changed section opens with the header counting every change, shown or not |
| SimpleFormatter.MessageParts | src/scrapechecker/example/simple_formatter.py:22-41 | the message is the new, removed and changed sections, each when there are such items, in that order, joined by blank lines, or "No changes detected." when no part is present |
| SimpleFormatter.NoChangesIff | src/scrapechecker/example/simple_formatter.py:22-41 | the message is "No changes detected." exactly when nothing was added, removed or changed |
| SimpleFormatter.CurrentIgnored | src/scrapechecker/example/simple_formatter.py:75-79 | the current items never affect the message |
| SimpleFormatter.MessageAnnounces | src/scrapechecker/example/simple_formatter.py:22-97 | each non-empty list is announced with its full count |
| SiteMonitor.Load | src/scrapechecker/site_monitor.py:159-173 | a bare list is returned as is; an object gives its "current" or []; a missing or unparsable file gives []; any other JSON value raises |
| SiteMonitor.Save | src/scrapechecker/site_monitor.py:175-201 | the old current becomes the previous snapshot and the old timestamp the previous timestamp; a legacy list is migrated first, and a missing or unparsable file counts as empty. A file holding JSON that is neither a list nor an object is left untouched |
| SiteMonitor.OneGeneration | src/scrapechecker/site_monitor.py:190-195 | after two saves only the last two snapshots and their timestamps remain |
| SiteMonitor.Gate | src/scrapechecker/site_monitor.py:109-123 | detection raises exactly when a current or previous record has no key, or the formatter raises on a non-empty diff; otherwise a message is sent exactly when something changed and the rendered message contains "Key Change", and it is the rendered message itself |
| SiteMonitor.SendAlert | src/scrapechecker/site_monitor.py:148-157 | sending raises exactly when the sender attribute was never set (`enable_telegram=False`, lines 62-63); otherwise it is skipped exactly when the sender is None and succeeds exactly when the sender does, a failing sender being caught |
| SiteMonitor.Monitor | src/scrapechecker/site_monitor.py:96-133 | a raising scrape, load, key, formatter or send ends the run before anything is saved, so a record without a key in either snapshot saves nothing; otherwise the snapshot is saved whatever the alert, and a delivery is attempted exactly when there is an alert |
| SiteMonitor.CheckCurrentStatus | src/scrapechecker/site_monitor.py:65-94 | the status check never changes the data file |
| SiteMonitor.CheckMatchesMonitor | src/scrapechecker/site_monitor.py:65-133 | a status check alerts exactly as a monitor run would, and the run saves as `save_current_data` does |
| SiteMonitor.MonitorAlerts | src/scrapechecker/site_monitor.py:109-120 | a non-empty diff whose rendered message mentions a key change is sent with exactly that message |
| SiteMonitor.SaveIgnoresTelegram | src/scrapechecker/site_monitor.py:96-133 | another sender completes the run exactly when it is not a never-set-up sender facing an alert; then what is saved, and what is alerted, is the same, even when delivery fails |
| SiteMonitor.DisabledAlertSavesNothing | src/scrapechecker/site_monitor.py:96-157 | with Telegram disabled (lines 62-63 never set the sender), a run with an alert raises before saving, where a run without a sender would have saved |
| SiteMonitor.Replay | src/scrapechecker/site_monitor.py:203-249 | a replay gives a message exactly when the file is an object with both snapshots non-empty, every record of both has a key, something changed between them and the formatter does not raise; the message is the formatter's |
| SiteMonitor.ReplayAfterMonitor | src/scrapechecker/site_monitor.py:203-242 | replaying right after a run reproduces the message that run rendered, and in particular the alert it sent |
| SiteMonitor.ContestKeyChange | src/scrapechecker/site_monitor.py:119 | with the contest formatter, a non-empty focused view of the changes makes the message pass the "Key Change" test |
| SiteMonitor.ContestNotifiesShownChanges | src/scrapechecker/site_monitor.py:115-121 | with the contest formatter, a run alerts whenever the focused view of the changes is non-empty |

## Left out

- Browser automation, `WebDriverWait`, the 10-second wait and `int()` parsing
  of the rank and vote text are not modelled. Each element's outcome is
  given: parsed, or failed.
- `filter_items`, which returns its input, is not modelled.
- The `display_item` methods and all logging are not modelled. They only
  print.
- Telegram configuration from environment variables and the sender's
  chat-id handling are not modelled. The sender is a parameter: never set
  up (`enable_telegram=False`, whose first alert raises), None, or a
  function that returns or raises.
- Reading and writing the data file is not modelled. The model works on the
  file's contents (`Stored`).
  - A failed write is not modelled.
  - A null `current` or `previous` in the file is treated like an absent
    one.
  - The timestamp is a parameter.
- The monitor takes the scraped items already in dict form. The `to_dict`
  step is `ContestTypes.ToDict`, which is modelled separately.
- `max_results` and `max_items` are natural numbers. Python's negative slice
  bounds are not modelled.
- Text.Lower: lower-cases ASCII letters only. Python's `str.lower` also
  folds non-ASCII letters.
- Text.Strip, Text.RStrip: strip the ASCII characters `str.isspace`
  accepts (space, tab, the line and page breaks, and 0x1C-0x1F) only;
  Python's `strip()` and `rstrip()` also strip non-ASCII whitespace such as
  U+00A0. `RStrip` stands in for the `rstrip()` that ends every section.
- ContestFormatter.FormatChangesMessage: requires every current record to
  have a text name and a numeric rank. Once the target is ranked, it also
  requires every changed record's new name to be text, and both ranks of
  every change not naming the target to be numbers. This is more than the
  source reads. The source lower-cases names only up to the first record
  naming the target, reads only that record's rank, and without a target
  reads neither. It raises only on the following:
  - a non-text name at or before the first record naming the target
    (contest_formatter.py:176-183, 235-239);
  - a target rank that cannot be compared with 10 or with other ranks;
  - in the change loops, a non-text new name, or a rank that cannot be
    compared with the target's (lines 245-264).
  Snapshots the source renders despite other ill-typed records, such as a
  non-text name after the target, are outside the model.
- GenericFormatter.FormatChangesMessage: requires the same of the current
  records and of the changed triples. In the same way this demands more
  than the source reads (formatter.py:163-170, 214-249).
- ChangeFinder.FilterToTargetOnly: requires text names when a target is set,
  for the same reason.
- SiteMonitor.ContestRenderer: treats every snapshot or change list
  outside the formatter's requires (see above) as raising. The source
  raises for only some of them and renders the rest.
- ContestFormatter.FocusBounds: as in the source, a target close to the top
  ignores `max_items`. That is what the source's comment describes, so it
  is kept.
- ContestFormatter.ChangedSection: as in the source, an empty changed
  section ("") is still appended to the message when there are changes but
  none survives the focusing.
- SimpleFormatter.ChangedSectionLines, ContestFormatter.ChangedSectionLines,
  GenericFormatter.ChangedSectionLines: split the section back into lines
  only when every change's lines hold no newline and end in visible text.
  Field values are free text and may break that.
- ContestTypes.FromDict: requires each contest field, when present, to have
  the dataclass's declared type (`ContestShaped`). Python does not check
  these annotations, so `from_dict` also accepts, say, an `is_target` of
  None or "" or a None name and stores it as given. `from_dict` has no
  caller in the repository; the contest scraper builds its items from
  typed values.
- Encoding: only what is needed to explain the misread literals is
  modelled.
  - UTF-8 encoding of one code point.
  - The Windows-1254 table. Its unassigned bytes are dropped.

## Findings

| source | as written | input that shows it | evidently intended | confidence | as-written member | corrected member |
|---|---|---|---|---|---|---|
| src/scrapechecker/scrapers/contest_scraper.py:96-107 | the medal, badge and target-mark literals are the UTF-8 bytes of the emoji read back as Windows-1254 (e.g. "ğŸ¥‡" for 🥇) | any record with rank 1, a name and votes: the line starts with "ğŸ¥‡" instead of 🥇 | the emoji the typed contest scraper uses (contest/contest_scraper.py:119-124, 113) | not executed | DictContestScraper.FormatAsWrittenGarbled | DictContestScraper.FormatCorrectedAgrees |

=== FILE: change_finder.dfy ===
/** Change detection: diffing two snapshots of keyed records into new,
    removed and changed records (`ChangeFinder` in change_finder.py). The
    scraper's `get_item_key` is the parameter `key`. */
module ChangeFinder {
  import opened Wrappers
  import opened Text
  import opened Seqs
  import opened Dicts
  import opened Records
  import opened Types

  /** Fields never reported as changed: the target marker is display noise. */
  const IgnoredFields: seq<string> := ["is_target"]

  /** The result of `find_changes`: (new_items, removed_items, changed_items). */
  datatype Diff = Diff(added: seq<Record>, removed: seq<Record>, changed: seq<ItemChange<Record>>)

  // ---------------------------------------------------------------------------
  // Keying a snapshot

  /** `items[i]` has key `k` and no later record does. */
  ghost predicate LastAt(items: seq<Record>, key: Record -> string, k: string, i: int) {
    0 <= i < |items| && key(items[i]) == k && forall j :: i < j < |items| ==> key(items[j]) != k
  }

  /** The last record in `items` whose key is `k`: the one a later write
      leaves in a dict keyed by `key`. */
  function LastWithKey(items: seq<Record>, key: Record -> string, k: string): (r: Option<Record>)
    ensures r.None? <==> forall i :: 0 <= i < |items| ==> key(items[i]) != k
    ensures r.Some? ==> key(r.value) == k && r.value in items
    ensures r.Some? ==> exists i :: LastAt(items, key, k, i) && items[i] == r.value
    decreases |items|
  {
    if |items| == 0 then None
    else if key(items[|items| - 1]) == k then
      assert LastAt(items, key, k, |items| - 1);
      Some(items[|items| - 1])
    else
      var r := LastWithKey(items[..|items| - 1], key, k);
      if r.Some? then
        assert items == items[..|items| - 1] + [items[|items| - 1]];
        LastAtExtends(items[..|items| - 1], items[|items| - 1], key, k, r.value);
        r
      else r
  }

  /** The last record with a key stays last when a record with another key
      follows. */
  lemma LastAtExtends(prefix: seq<Record>, x: Record, key: Record -> string, k: string, v: Record)
    requires key(x) != k
    requires exists i :: LastAt(prefix, key, k, i) && prefix[i] == v
    ensures exists i :: LastAt(prefix + [x], key, k, i) && (prefix + [x])[i] == v
  {
    var i :| LastAt(prefix, key, k, i) && prefix[i] == v;
    assert LastAt(prefix + [x], key, k, i);
  }

  /** `{key(item): item for item in items}`: one entry per key, each under
      the key of the record it holds. */
  function Index(items: seq<Record>, key: Record -> string): (d: Dict<string, Record>)
    ensures IsDict(d)
    ensures forall i :: 0 <= i < |d| ==> key(d[i].1) == d[i].0
    decreases |items|
  {
    if |items| == 0 then []
    else
      var last := items[|items| - 1];
      var d := Index(items[..|items| - 1], key);
      PutKeepsDict(d, key(last), last);
      PutEntries(d, key(last), last);
      Put(d, key(last), last)
  }

  /** Duplicate keys collapse, last write wins: the dict holds, under each
      key, the last record with that key, and has exactly the keys that
      occur. */
  lemma {:induction false} IndexGet(items: seq<Record>, key: Record -> string, k: string)
    ensures Get(Index(items, key), k) == LastWithKey(items, key, k)
    ensures k in Keys(Index(items, key)) <==> exists i :: 0 <= i < |items| && key(items[i]) == k
    decreases |items|
  {
    if |items| > 0 {
      var last := items[|items| - 1];
      var pre := items[..|items| - 1];
      IndexGet(pre, key, k);
      if key(last) != k {
        PutOther(Index(pre, key), key(last), last, k);
      }
    }
  }

  /** `k` occurs among the keys of `items` before `k'` first does. */
  ghost predicate SeenBefore(items: seq<Record>, key: Record -> string, k: string, k': string) {
    exists i :: 0 <= i < |items| && key(items[i]) == k && forall j :: 0 <= j <= i ==> key(items[j]) != k'
  }

  /** Adding a record never moves the keys already in the dict. */
  lemma IndexKeepsPositions(items: seq<Record>, key: Record -> string, p: nat)
    requires |items| > 0 && p < |Index(items[..|items| - 1], key)|
    ensures p < |Index(items, key)|
    ensures Index(items, key)[p].0 == Index(items[..|items| - 1], key)[p].0
  {
    var d' := Index(items[..|items| - 1], key);
    var d := Index(items, key);
    assert Keys(d)[p] == Keys(d')[p];
  }

  /** A record whose key is new to the dict lands at the end. */
  lemma IndexAppends(items: seq<Record>, key: Record -> string)
    requires |items| > 0
    requires |Index(items[..|items| - 1], key)| < |Index(items, key)|
    ensures |Index(items, key)| == |Index(items[..|items| - 1], key)| + 1
    ensures Index(items, key)[|Index(items, key)| - 1].0 == key(items[|items| - 1])
    ensures forall j :: 0 <= j < |items| - 1 ==> key(items[j]) != key(items[|items| - 1])
  {
    var pre := items[..|items| - 1];
    var k := key(items[|items| - 1]);
    IndexLast(items, key);
    KeyAbsent(pre, key, k);
    forall j | 0 <= j < |items| - 1
      ensures key(items[j]) != k
    {
      assert items[j] == pre[j];
    }
  }

  /** The last record's key: already in the dict, which keeps its keys, or
      new and appended to them. */
  lemma IndexLast(items: seq<Record>, key: Record -> string)
    requires |items| > 0
    ensures var k, pre := key(items[|items| - 1]), Keys(Index(items[..|items| - 1], key));
            Keys(Index(items, key)) == if k in pre then pre else pre + [k]
  {
  }

  /** A key absent from the dict belongs to no record. */
  lemma KeyAbsent(items: seq<Record>, key: Record -> string, k: string)
    requires k !in Keys(Index(items, key))
    ensures forall j :: 0 <= j < |items| ==> key(items[j]) != k
  {
    IndexGet(items, key, k);
  }

  lemma SeenBeforeExtends(items: seq<Record>, key: Record -> string, k: string, k': string)
    requires |items| > 0 && SeenBefore(items[..|items| - 1], key, k, k')
    ensures SeenBefore(items, key, k, k')
  {
    var pre := items[..|items| - 1];
    var i :| 0 <= i < |pre| && key(pre[i]) == k && forall j :: 0 <= j <= i ==> key(pre[j]) != k';
    assert forall j :: 0 <= j <= i ==> items[j] == pre[j];
  }

  lemma SeenBeforeLast(items: seq<Record>, key: Record -> string, i: nat)
    requires i < |items| - 1
    requires forall j :: 0 <= j < |items| - 1 ==> key(items[j]) != key(items[|items| - 1])
    ensures SeenBefore(items, key, key(items[i]), key(items[|items| - 1]))
  {
  }

  /** A key of the dict is the key of some record. */
  lemma KeyOccurs(items: seq<Record>, key: Record -> string, k: string) returns (i: nat)
    requires k in Keys(Index(items, key))
    ensures i < |items| && key(items[i]) == k
  {
    IndexGet(items, key, k);
    i :| 0 <= i < |items| && key(items[i]) == k;
  }

  /** The step of `IndexOrder` for a key that was already present. */
  lemma IndexOrderNew(items: seq<Record>, key: Record -> string, p: nat)
    requires |items| > 0
    requires p < |Index(items[..|items| - 1], key)| < |Index(items, key)|
    ensures SeenBefore(items, key, Index(items, key)[p].0, key(items[|items| - 1]))
  {
    var pre := items[..|items| - 1];
    var k := Index(pre, key)[p].0;
    IndexAppends(items, key);
    IndexKeepsPositions(items, key, p);
    assert k in Keys(Index(pre, key)) by {
      assert Keys(Index(pre, key))[p] == k;
    }
    var i := KeyOccurs(pre, key, k);
    assert items[i] == pre[i];
    SeenBeforeLast(items, key, i);
  }

  /** A key keeps the position of its first occurrence: the dict lists its
      keys in order of first appearance. */
  lemma {:induction false} IndexOrder(items: seq<Record>, key: Record -> string, p: nat, q: nat)
    requires p < q < |Index(items, key)|
    ensures SeenBefore(items, key, Index(items, key)[p].0, Index(items, key)[q].0)
    decreases |items|
  {
    assert |items| > 0;
    var pre := items[..|items| - 1];
    if q < |Index(pre, key)| {
      IndexKeepsPositions(items, key, p);
      IndexKeepsPositions(items, key, q);
      IndexOrder(pre, key, p, q);
      SeenBeforeExtends(items, key, Index(items, key)[p].0, Index(items, key)[q].0);
    } else {
      IndexAppends(items, key);
      IndexOrderNew(items, key, p);
    }
  }

  // ---------------------------------------------------------------------------
  // Comparing two versions of one record

  /** Field `f` is reported: present in both versions with unequal values,
      and not an ignored field. */
  predicate Reported(before: Record, after: Record, f: string) {
    f !in IgnoredFields &&
    match (Get(before, f), Get(after, f))
    case (Some(a), Some(b)) => !PyEq(a, b)
    case _ => false
  }

  /** The test `Reported` with both versions fixed, as a filter condition. */
  function ReportedIn(before: Record, after: Record): string -> bool {
    (f: string) => Reported(before, after, f)
  }

  /** `_get_item_changes(old_item, new_item)`: walks the old record's fields only, so a
      field that exists only in the new record is never reported. */
  function FieldChanges(before: Record, after: Record): (r: Dict<string, FieldChange>)
    ensures IsDict(r)
    ensures forall i :: 0 <= i < |r| ==> r[i].0 == r[i].1.fieldName
    ensures forall f :: f in Keys(r) <==> Reported(before, after, f)
    ensures forall i :: 0 <= i < |r| ==>
              Get(before, r[i].0).Some? && Get(after, r[i].0).Some? &&
              r[i].1.oldValue == Show(Get(before, r[i].0).value) &&
              r[i].1.newValue == Show(Get(after, r[i].0).value)
    decreases |before|
  {
    if |before| == 0 then []
    else
      var f := before[0].0;
      assert Keys(before[1..]) == Keys(before)[1..];
      var tail: Record := before[1..];
      var rest := FieldChanges(tail, after);
      assert f !in Keys(tail);
      assert forall g :: g != f ==> Get(before, g) == Get(tail, g);
      match Get(after, f)
      case Some(nv) =>
        if !PyEq(before[0].1, nv) && f !in IgnoredFields then
          [(f, FieldChange(f, Show(before[0].1), Show(nv)))] + rest
        else rest
      case None => rest
  }

  /** The reported fields follow the old record's field order: they are its
      keys filtered by `Reported`, each once. */
  lemma {:induction false} FieldChangesOrder(before: Record, after: Record)
    ensures Keys(FieldChanges(before, after)) == Filter(Keys(before), ReportedIn(before, after))
    decreases |before|
  {
    if |before| > 0 {
      var f := before[0].0;
      var tail: Record := before[1..];
      assert Keys(before) == [f] + Keys(tail);
      assert Keys(tail) == Keys(before)[1..];
      assert f !in Keys(tail);
      FieldChangesOrder(tail, after);
      forall i | 0 <= i < |Keys(tail)|
        ensures ReportedIn(before, after)(Keys(tail)[i]) == ReportedIn(tail, after)(Keys(tail)[i])
      {
        assert Get(before, Keys(tail)[i]) == Get(tail, Keys(tail)[i]);
      }
      FilterCongruence(Keys(tail), ReportedIn(before, after), ReportedIn(tail, after));
      var rest := FieldChanges(tail, after);
      assert Get(before, f) == Some(before[0].1);
      if Reported(before, after, f) {
        var fc := FieldChange(f, Show(before[0].1), Show(Get(after, f).value));
        assert FieldChanges(before, after) == [(f, fc)] + rest;
        KeysConcat([(f, fc)], rest);
      } else {
        assert FieldChanges(before, after) == rest;
      }
    }
  }

  /** A record compared with itself has no changes. */
  lemma FieldChangesSelf(r: Record)
    ensures FieldChanges(r, r) == []
  {
    var ch := FieldChanges(r, r);
    forall f
      ensures !Reported(r, r, f)
    {
      if Get(r, f).Some? {
        PyEqFacts(Get(r, f).value, Get(r, f).value, Get(r, f).value);
      }
    }
    assert |ch| > 0 ==> Keys(ch)[0] in Keys(ch);
  }

  // ---------------------------------------------------------------------------
  // Diffing two snapshots

  /** The current dict entry `e` has a counterpart in `prev` that differs. */
  predicate EntryChanged(prev: Dict<string, Record>, e: (string, Record)) {
    match Get(prev, e.0)
    case Some(p) => |FieldChanges(p, e.1)| > 0
    case None => false
  }

  /** The filter condition of `_find_changed_items`. */
  function ChangedIn(prev: Dict<string, Record>): ((string, Record)) -> bool {
    e => EntryChanged(prev, e)
  }

  /** The filter condition of the new/removed comprehensions: the key is
      missing from the other side. */
  function MissingFrom(other: Dict<string, Record>): ((string, Record)) -> bool {
    (e: (string, Record)) => e.0 !in Keys(other)
  }

  /** `_find_changed_items`: in the current dict's order, one ItemChange per
      key present on both sides whose field changes are non-empty. */
  function ChangedItems(cur: Dict<string, Record>, prev: Dict<string, Record>): (r: seq<ItemChange<Record>>)
    ensures |r| <= |cur|
    decreases |cur|
  {
    if |cur| == 0 then []
    else
      var rest := ChangedItems(cur[1..], prev);
      match Get(prev, cur[0].0)
      case None => rest
      case Some(p) =>
        var changes := FieldChanges(p, cur[0].1);
        if |changes| > 0 then [ItemChange(p, cur[0].1, changes)] + rest else rest
  }

  /** The change `_find_changed_items` reports for a changed entry (only
      ever asked of entries with a counterpart in `prev`). */
  function ChangeOf(prev: Dict<string, Record>, e: (string, Record)): ItemChange<Record> {
    var p := Get(prev, e.0).GetOr(e.1);
    ItemChange(p, e.1, FieldChanges(p, e.1))
  }

  lemma ChangedItemsStep(cur: Dict<string, Record>, prev: Dict<string, Record>)
    requires |cur| > 0
    ensures ChangedItems(cur, prev) ==
              (if EntryChanged(prev, cur[0]) then [ChangeOf(prev, cur[0])] else []) + ChangedItems(cur[1..], prev)
  {
  }

  /** One changed item per changed entry of the current dict. */
  lemma {:induction false} ChangedItemsLength(cur: Dict<string, Record>, prev: Dict<string, Record>)
    ensures |ChangedItems(cur, prev)| == |Filter(cur, ChangedIn(prev))|
    decreases |cur|
  {
    if |cur| > 0 {
      ChangedItemsLength(cur[1..], prev);
      ChangedItemsStep(cur, prev);
      var P := ChangedIn(prev);
      assert Filter(cur, P) == (if P(cur[0]) then [cur[0]] else []) + Filter(cur[1..], P);
      assert P(cur[0]) == EntryChanged(prev, cur[0]);
    }
  }

  /** The changed items are the changes of the changed entries, in order. */
  lemma {:induction false} ChangedItemsMap(cur: Dict<string, Record>, prev: Dict<string, Record>)
    ensures ChangedItems(cur, prev) == Map(e => ChangeOf(prev, e), Filter(cur, ChangedIn(prev)))
    decreases |cur|
  {
    if |cur| > 0 {
      var P := ChangedIn(prev);
      ChangedItemsMap(cur[1..], prev);
      ChangedItemsStep(cur, prev);
      assert Filter(cur, P) == (if P(cur[0]) then [cur[0]] else []) + Filter(cur[1..], P);
      assert P(cur[0]) == EntryChanged(prev, cur[0]);
      if EntryChanged(prev, cur[0]) {
        MapCons(e => ChangeOf(prev, e), cur[0], Filter(cur[1..], P));
      }
    }
  }

  /** The `i`-th changed item is the change of the `i`-th changed entry. */
  lemma ChangedItemsAt(cur: Dict<string, Record>, prev: Dict<string, Record>, i: nat)
    requires i < |ChangedItems(cur, prev)|
    ensures i < |Filter(cur, ChangedIn(prev))|
    ensures EntryChanged(prev, Filter(cur, ChangedIn(prev))[i])
    ensures ChangedItems(cur, prev)[i] == ChangeOf(prev, Filter(cur, ChangedIn(prev))[i])
  {
    var fs := Filter(cur, ChangedIn(prev));
    ChangedItemsMap(cur, prev);
    FilterMembers(cur, ChangedIn(prev));
    assert ChangedIn(prev)(fs[i]);
  }

  /** The changed items line up with the changed entries of the current
      dict: same order, and each holds the previous and current record of
      its key and their non-empty field changes. */
  lemma ChangedItemsEntries(cur: Dict<string, Record>, prev: Dict<string, Record>)
    ensures |ChangedItems(cur, prev)| == |Filter(cur, ChangedIn(prev))|
    ensures forall i :: 0 <= i < |ChangedItems(cur, prev)| ==>
              var e := Filter(cur, ChangedIn(prev))[i];
              var ic := ChangedItems(cur, prev)[i];
              ic.newItem == e.1 && Some(ic.oldItem) == Get(prev, e.0) &&
              ic.changes == FieldChanges(ic.oldItem, ic.newItem) && |ic.changes| > 0
  {
    ChangedItemsLength(cur, prev);
    forall i | 0 <= i < |ChangedItems(cur, prev)|
      ensures var e := Filter(cur, ChangedIn(prev))[i];
              var ic := ChangedItems(cur, prev)[i];
              ic.newItem == e.1 && Some(ic.oldItem) == Get(prev, e.0) &&
              ic.changes == FieldChanges(ic.oldItem, ic.newItem) && |ic.changes| > 0
    {
      ChangedItemsAt(cur, prev, i);
    }
  }

  /** `find_changes(current, previous)`. */
  function FindChanges(current: seq<Record>, previous: seq<Record>, key: Record -> string): Diff {
    var cur := Index(current, key);
    var prev := Index(previous, key);
    Diff(
      Values(Filter(cur, MissingFrom(prev))),
      Values(Filter(prev, MissingFrom(cur))),
      ChangedItems(cur, prev))
  }

  // ---------------------------------------------------------------------------
  // What `find_changes` reports

  /** Every entry of a keyed dict is the last record with its key. */
  lemma IndexEntry(items: seq<Record>, key: Record -> string, i: nat)
    requires i < |Index(items, key)|
    ensures key(Index(items, key)[i].1) == Index(items, key)[i].0
    ensures LastWithKey(items, key, Index(items, key)[i].0) == Some(Index(items, key)[i].1)
  {
    GetAt(Index(items, key), i);
    IndexGet(items, key, Index(items, key)[i].0);
  }

  /** The records of `a` whose key is missing from `b` are exactly the last
      records of their key in `a`, for keys that never occur in `b`. */
  lemma MissingSpec(a: seq<Record>, b: seq<Record>, key: Record -> string, x: Record)
    ensures x in Values(Filter(Index(a, key), MissingFrom(Index(b, key)))) <==>
              LastWithKey(a, key, key(x)) == Some(x) && LastWithKey(b, key, key(x)).None?
  {
    var da, db := Index(a, key), Index(b, key);
    var f := Filter(da, MissingFrom(db));
    var vs := Values(f);
    FilterMembers(da, MissingFrom(db));
    IndexGet(b, key, key(x));
    if x in vs {
      var i :| 0 <= i < |vs| && vs[i] == x;
      assert f[i] in da;
      var j :| 0 <= j < |da| && da[j] == f[i];
      IndexEntry(a, key, j);
      IndexGet(b, key, da[j].0);
    }
    if LastWithKey(a, key, key(x)) == Some(x) && LastWithKey(b, key, key(x)).None? {
      IndexGet(a, key, key(x));
      assert (key(x), x) in da;
      var j :| 0 <= j < |da| && da[j] == (key(x), x);
      assert MissingFrom(db)(da[j]);
      assert da[j] in f;
      var i :| 0 <= i < |f| && f[i] == da[j];
      assert vs[i] == x;
    }
  }

  /** A current record is reported new exactly when it is the last one with
      its key and the key does not occur in the previous snapshot; removed
      records are the same the other way round. */
  lemma FindChangesAddedRemoved(current: seq<Record>, previous: seq<Record>, key: Record -> string, x: Record)
    ensures x in FindChanges(current, previous, key).added <==>
              LastWithKey(current, key, key(x)) == Some(x) && LastWithKey(previous, key, key(x)).None?
    ensures x in FindChanges(current, previous, key).removed <==>
              LastWithKey(previous, key, key(x)) == Some(x) && LastWithKey(current, key, key(x)).None?
  {
    MissingSpec(current, previous, key, x);
    MissingSpec(previous, current, key, x);
  }

  /** Each reported change belongs to one key present on both sides: it
      holds the last previous and the last current record of that key and
      their non-empty field changes. */
  lemma FindChangesChangedSound(current: seq<Record>, previous: seq<Record>, key: Record -> string, i: nat)
    requires i < |FindChanges(current, previous, key).changed|
    ensures var ic := FindChanges(current, previous, key).changed[i];
            var k := key(ic.newItem);
            LastWithKey(current, key, k) == Some(ic.newItem) &&
            LastWithKey(previous, key, k) == Some(ic.oldItem) &&
            ic.changes == FieldChanges(ic.oldItem, ic.newItem) && |ic.changes| > 0
  {
    var cur, prev := Index(current, key), Index(previous, key);
    ChangedItemsEntries(cur, prev);
    FilterMembers(cur, ChangedIn(prev));
    var e := Filter(cur, ChangedIn(prev))[i];
    assert e in cur;
    var j :| 0 <= j < |cur| && cur[j] == e;
    IndexEntry(current, key, j);
    IndexGet(previous, key, e.0);
  }

  /** Every key present on both sides whose records differ in a compared
      field is reported, with the last records of that key. */
  lemma FindChangesChangedComplete(current: seq<Record>, previous: seq<Record>, key: Record -> string,
                                   k: string, before: Record, after: Record)
    requires LastWithKey(current, key, k) == Some(after)
    requires LastWithKey(previous, key, k) == Some(before)
    requires |FieldChanges(before, after)| > 0
    ensures ItemChange(before, after, FieldChanges(before, after)) in FindChanges(current, previous, key).changed
  {
    var cur, prev := Index(current, key), Index(previous, key);
    IndexGet(current, key, k);
    IndexGet(previous, key, k);
    ChangedItemsEntries(cur, prev);
    FilterMembers(cur, ChangedIn(prev));
    assert (k, after) in cur;
    assert ChangedIn(prev)((k, after));
    var f := Filter(cur, ChangedIn(prev));
    assert (k, after) in f;
    var i :| 0 <= i < |f| && f[i] == (k, after);
    var ic := ChangedItems(cur, prev)[i];
    assert ic == ItemChange(before, after, FieldChanges(before, after));
  }

  /** A snapshot compared with itself has nothing new, removed or changed. */
  lemma FindChangesSelf(items: seq<Record>, key: Record -> string)
    ensures FindChanges(items, items, key) == Diff([], [], [])
  {
    var d := Index(items, key);
    forall i | 0 <= i < |d|
      ensures !MissingFrom(d)(d[i]) && !ChangedIn(d)(d[i])
    {
      assert Keys(d)[i] == d[i].0;
      GetAt(d, i);
      FieldChangesSelf(d[i].1);
    }
    FilterKeepsNone(d, MissingFrom(d));
    FilterKeepsNone(d, ChangedIn(d));
    ChangedItemsEntries(d, d);
  }

  /** Positions in a keyed dict follow first appearance in the snapshot,
      carried over to any filtered view of the dict. */
  lemma FilteredIndexOrder(items: seq<Record>, key: Record -> string, p: ((string, Record)) -> bool, i: nat, j: nat)
    requires i < j < |Filter(Index(items, key), p)|
    ensures SeenBefore(items, key, Filter(Index(items, key), p)[i].0, Filter(Index(items, key), p)[j].0)
  {
    var d := Index(items, key);
    FilterOrder(d, p, i, j);
    var a, b :| 0 <= a < b < |d| && d[a] == Filter(d, p)[i] && d[b] == Filter(d, p)[j];
    IndexOrder(items, key, a, b);
  }

  /** New records are listed in the order their keys first appear in the
      current snapshot, so no key is reported new twice. */
  lemma FindChangesAddedOrder(current: seq<Record>, previous: seq<Record>, key: Record -> string, i: nat, j: nat)
    requires i < j < |FindChanges(current, previous, key).added|
    ensures var added := FindChanges(current, previous, key).added;
            SeenBefore(current, key, key(added[i]), key(added[j])) && key(added[i]) != key(added[j])
  {
    var cur, prev := Index(current, key), Index(previous, key);
    var f := Filter(cur, MissingFrom(prev));
    FilteredIndexOrder(current, key, MissingFrom(prev), i, j);
    FilterMembers(cur, MissingFrom(prev));
    assert f[i] in cur && f[j] in cur;
  }

  /** Changes are listed in the order their keys first appear in the
      current snapshot, so no key is reported changed twice. */
  lemma FindChangesChangedOrder(current: seq<Record>, previous: seq<Record>, key: Record -> string, i: nat, j: nat)
    requires i < j < |FindChanges(current, previous, key).changed|
    ensures var changed := FindChanges(current, previous, key).changed;
            SeenBefore(current, key, key(changed[i].newItem), key(changed[j].newItem)) &&
            key(changed[i].newItem) != key(changed[j].newItem)
  {
    var cur, prev := Index(current, key), Index(previous, key);
    var f := Filter(cur, ChangedIn(prev));
    ChangedItemsEntries(cur, prev);
    FilteredIndexOrder(current, key, ChangedIn(prev), i, j);
    FilterMembers(cur, ChangedIn(prev));
    assert f[i] in cur && f[j] in cur;
  }

  // ---------------------------------------------------------------------------
  // A key that raises

  /** Some record's key raises (`get_item_key` gives None). */
  predicate Unkeyed(items: seq<Record>, key: Record -> Option<string>) {
    exists i :: 0 <= i < |items| && key(items[i]).None?
  }

  /** The keys of some records, computed one after another as the dict
      comprehensions of `find_changes` do: None as soon as a key raises. */
  function KeysOf(items: seq<Record>, key: Record -> Option<string>): (r: Option<seq<string>>)
    ensures r.None? <==> Unkeyed(items, key)
    ensures r.Some? ==> |r.value| == |items| && forall i :: 0 <= i < |items| ==> key(items[i]) == Some(r.value[i])
    decreases |items|
  {
    if |items| == 0 then Some([])
    else
      var rest := KeysOf(items[1..], key);
      assert forall i :: 0 <= i < |items[1..]| ==> items[1..][i] == items[i + 1];
      if key(items[0]).None? then None
      else if rest.None? then
        var i :| 0 <= i < |items[1..]| && key(items[1..][i]).None?;
        assert key(items[i + 1]).None?;
        None
      else Some([key(items[0]).value] + rest.value)
  }

  /** The key with its raise ruled out, for records it can key. */
  function KeyOr(key: Record -> Option<string>): Record -> string {
    (x: Record) => key(x).GetOr("")
  }

  /** `find_changes(current, previous)` with a `get_item_key` that may raise:
      it raises exactly when a current or a previous record has no key, and
      otherwise reports what the key computes. */
  function FindChangesOrRaise(current: seq<Record>, previous: seq<Record>, key: Record -> Option<string>): (r: Option<Diff>)
    ensures r.None? <==> Unkeyed(current, key) || Unkeyed(previous, key)
    ensures r.Some? ==> r.value == FindChanges(current, previous, KeyOr(key))
  {
    if KeysOf(current, key).None? || KeysOf(previous, key).None? then None
    else Some(FindChanges(current, previous, KeyOr(key)))
  }

  /** When `find_changes` does not raise, the total key it uses is the
      scraper's key on every record it sees. */
  lemma FindChangesOrRaiseKeys(current: seq<Record>, previous: seq<Record>, key: Record -> Option<string>)
    requires FindChangesOrRaise(current, previous, key).Some?
    ensures forall i :: 0 <= i < |current| ==> key(current[i]) == Some(KeyOr(key)(current[i]))
    ensures forall i :: 0 <= i < |previous| ==> key(previous[i]) == Some(KeyOr(key)(previous[i]))
  {
    var kc, kp := KeysOf(current, key), KeysOf(previous, key);
    assert kc.Some? && kp.Some?;
  }

  // ---------------------------------------------------------------------------
  // Narrowing a diff to the target

  /** Every record the target filter inspects has a text name (otherwise
      `.lower()` raises). */
  predicate NamesText(d: Diff) {
    (forall i :: 0 <= i < |d.added| ==> NameIsText(d.added[i])) &&
    (forall i :: 0 <= i < |d.removed| ==> NameIsText(d.removed[i])) &&
    (forall i :: 0 <= i < |d.changed| ==> NameIsText(d.changed[i].newItem))
  }

  /** `is_target_item` for the lower-cased target `t`. */
  function IsTargetItem(t: string): Record -> bool {
    (x: Record) => NameMatches(x, t)
  }

  /** The same test applied to a change's new record. */
  function IsTargetChange(t: string): ItemChange<Record> -> bool {
    (ic: ItemChange<Record>) => NameMatches(ic.newItem, t)
  }

  /** `filter_to_target_only(new, removed, changed)` for the scraper's
      `target_item`: no target leaves the diff alone; otherwise each list
      keeps, in order and once each, the records whose name contains the
      target ignoring case, changes being judged by their new record
      (`Selects` with the positions of `Positions`). */
  function FilterToTargetOnly(d: Diff, target: Option<string>): (r: Diff)
    requires HasTarget(target) ==> NamesText(d)
    ensures !HasTarget(target) ==> r == d
    ensures HasTarget(target) ==>
              (forall i :: 0 <= i < |r.added| ==> r.added[i] in d.added && NameMatches(r.added[i], Lower(target.value))) &&
              (forall i :: 0 <= i < |d.added| && NameMatches(d.added[i], Lower(target.value)) ==> d.added[i] in r.added) &&
              (forall i :: 0 <= i < |r.removed| ==> r.removed[i] in d.removed && NameMatches(r.removed[i], Lower(target.value))) &&
              (forall i :: 0 <= i < |d.removed| && NameMatches(d.removed[i], Lower(target.value)) ==> d.removed[i] in r.removed) &&
              (forall i :: 0 <= i < |r.changed| ==> r.changed[i] in d.changed && NameMatches(r.changed[i].newItem, Lower(target.value))) &&
              (forall i :: 0 <= i < |d.changed| && NameMatches(d.changed[i].newItem, Lower(target.value)) ==> d.changed[i] in r.changed)
    ensures HasTarget(target) ==>
              Selects(r.added, d.added, IsTargetItem(Lower(target.value))) &&
              Selects(r.removed, d.removed, IsTargetItem(Lower(target.value))) &&
              Selects(r.changed, d.changed, IsTargetChange(Lower(target.value)))
  {
    if !HasTarget(target) then d
    else
      var t := Lower(target.value);
      FilterMembers(d.added, IsTargetItem(t));
      FilterMembers(d.removed, IsTargetItem(t));
      FilterMembers(d.changed, IsTargetChange(t));
      FilterSelects(d.added, IsTargetItem(t));
      FilterSelects(d.removed, IsTargetItem(t));
      FilterSelects(d.changed, IsTargetChange(t));
      Diff(Filter(d.added, IsTargetItem(t)), Filter(d.removed, IsTargetItem(t)), Filter(d.changed, IsTargetChange(t)))
  }

  /** Narrowing to the target a second time changes nothing. */
  lemma FilterToTargetOnlyIdempotent(d: Diff, target: Option<string>)
    requires HasTarget(target) ==> NamesText(d)
    ensures HasTarget(target) ==> NamesText(FilterToTargetOnly(d, target))
    ensures FilterToTargetOnly(FilterToTargetOnly(d, target), target) == FilterToTargetOnly(d, target)
  {
    if HasTarget(target) {
      var t := Lower(target.value);
      FilterIdempotent(d.added, IsTargetItem(t));
      FilterIdempotent(d.removed, IsTargetItem(t));
      FilterIdempotent(d.changed, IsTargetChange(t));
    }
  }
}

=== FILE: contest_formatter.dfy ===
/** The contest formatter (`ContestFormatter` in contest/contest_formatter.py):
    the alert message for a diff of contest records, narrowed to the tracked
    contestant and the competitors threatening it when the scraper tracks
    one. Items are the records the change finder compares. */
module ContestFormatter {
  import opened Wrappers
  import opened Text
  import opened Seqs
  import opened Dicts
  import opened Records
  import opened Types
  import opened Render

  /** What the formatter takes from its scraper and its constructor: the
      scraper's `format_item`, the scraper's `target_item`, and
      `max_results`. */
  datatype Formatter = Formatter(fmt: Record -> string, target: Option<string>, maxResults: nat)

  /** The constructor's default `max_results`. */
  const DefaultMaxResults: nat := 5

  /** The `max_items` the rankings section asks the focused view for. */
  const RankingsWindow: nat := 7

  /** A target ranked at most this high is "close to the top". */
  const TopRanks: int := 10

  /** The record is the tracked contestant: the scraper has a target and the
      record's name contains it, ignoring case. */
  predicate IsTarget(f: Formatter, r: Record) {
    HasTarget(f.target) && NameMatches(r, Lower(f.target.value))
  }

  /** A record the formatter can read without raising: `.lower()` on its
      name and comparisons on its rank succeed. */
  predicate Readable(r: Record) {
    NameIsText(r) && RankIsNumber(r)
  }

  predicate AllReadable(items: seq<Record>) {
    forall i :: 0 <= i < |items| ==> Readable(items[i])
  }

  /** Position `j` lies in the slice `[b.0, b.1)`. */
  predicate Within(b: (int, int), j: int) {
    b.0 <= j < b.1
  }

  /** Where the first record naming the target sits. */
  function TargetIndex(f: Formatter, items: seq<Record>): Option<nat> {
    FirstIndex(items, (r: Record) => IsTarget(f, r))
  }

  // ---------------------------------------------------------------------------
  // The focused rankings view

  /** `_get_item_rank(item) or (i + 1)`: the rank the view strategy uses. */
  function StrategyRank(r: Record, i: nat): int
    requires RankIsNumber(r)
  {
    if TruthyNum(Rank(r)) then Rank(r).value else i + 1
  }

  /** The slice `_get_focused_rankings` returns, as (start, end). Without a
      target, or when no record names it, the first `maxItems`. Otherwise:
      a target close to the top is shown with everyone above it and one
      below it (`maxItems` is not consulted); a target further back is
      shown with the records within two places of it on either side. */
  function FocusBounds(f: Formatter, items: seq<Record>, maxItems: nat): (b: (int, int))
    requires AllReadable(items)
    ensures 0 <= b.0 <= b.1 <= |items|
    ensures TargetIndex(f, items).None? ==> b == (0, Min(maxItems, |items|))
    ensures TargetIndex(f, items).Some? ==>
              var t := TargetIndex(f, items).value;
              b.0 <= t < b.1 &&
              (StrategyRank(items[t], t) <= TopRanks ==>
                 forall j :: 0 <= j < |items| ==> (Within(b, j) <==> j <= t + 1)) &&
              (StrategyRank(items[t], t) > TopRanks ==>
                 (forall j :: 0 <= j < |items| ==> (Within(b, j) <==> t - 2 <= j <= t + 2)) &&
                 b.1 - b.0 <= 5)
  {
    if !HasTarget(f.target) then (0, Min(maxItems, |items|))
    else
      match TargetIndex(f, items)
      case None => (0, Min(maxItems, |items|))
      case Some(t) =>
        if StrategyRank(items[t], t) <= TopRanks then (0, Min(t + 2, |items|))
        else
          var above := Min(2, t);
          var below := Min(2, |items| - t - 1);
          (t - above, t + below + 1)
  }

  /** `_get_focused_rankings(items, max_items)`. */
  function FocusedRankings(f: Formatter, items: seq<Record>, maxItems: nat): seq<Record>
    requires AllReadable(items)
  {
    var b := FocusBounds(f, items, maxItems);
    items[b.0..b.1]
  }

  /** The focused view is a run of consecutive records that shows the
      tracked contestant, and nothing but the top records when there is
      none. */
  lemma FocusedRankingsShowTarget(f: Formatter, items: seq<Record>, maxItems: nat)
    requires AllReadable(items)
    ensures TargetIndex(f, items).None? ==> FocusedRankings(f, items, maxItems) == Take(items, maxItems)
    ensures TargetIndex(f, items).Some? ==> items[TargetIndex(f, items).value] in FocusedRankings(f, items, maxItems)
    ensures |FocusedRankings(f, items, maxItems)| <= |items|
  {
    var b := FocusBounds(f, items, maxItems);
    if TargetIndex(f, items).Some? {
      var t := TargetIndex(f, items).value;
      assert FocusedRankings(f, items, maxItems)[t - b.0] == items[t];
    }
  }

  // ---------------------------------------------------------------------------
  // The focused changes

  /** The rank of the first current record naming the target: None when no
      record does or that record has no rank. */
  function TargetCurrentRank(f: Formatter, current: seq<Record>): Option<int>
    requires AllReadable(current)
  {
    match TargetIndex(f, current)
    case None => None
    case Some(t) => Rank(current[t])
  }

  /** A changed competitor that threatens a target currently ranked `rank`:
      it now ranks strictly above the target, and it either is new, came
      from at or below the target, or was already above and gained votes. */
  predicate Threatens(c: ItemChange<Record>, rank: int) {
    RankIsNumber(c.oldItem) && RankIsNumber(c.newItem) &&
    (var before, after := Rank(c.oldItem), Rank(c.newItem);
     TruthyNum(after) && rank != 0 && after.value < rank &&
     (before.None? ||
      (TruthyNum(before) && before.value >= rank) ||
      (TruthyNum(before) && before.value < rank && HasChange(c, "votes"))))
  }

  predicate IsTargetChange(f: Formatter, c: ItemChange<Record>) {
    IsTarget(f, c.newItem)
  }

  predicate Competitor(f: Formatter, rank: int, c: ItemChange<Record>) {
    !IsTargetChange(f, c) && Threatens(c, rank)
  }

  /** The competitor test of the second loop, for a target ranked `rank`. */
  function CompetitorTest(f: Formatter, rank: int): ItemChange<Record> -> bool {
    (c: ItemChange<Record>) => Competitor(f, rank, c)
  }

  /** The target's own change, first in the list, as a list of zero or one. */
  function TargetChange(f: Formatter, changed: seq<ItemChange<Record>>): seq<ItemChange<Record>> {
    match FirstIndex(changed, (c: ItemChange<Record>) => IsTargetChange(f, c))
    case None => []
    case Some(i) => [changed[i]]
  }

  /** A change `_get_focused_changes` reads without raising: its new
      record's name is text and, unless it names the target, both its
      ranks are numbers (or None). */
  predicate ChangeReadable(f: Formatter, c: ItemChange<Record>) {
    NameIsText(c.newItem) && (IsTargetChange(f, c) || (RankIsNumber(c.oldItem) && RankIsNumber(c.newItem)))
  }

  /** The changes are only read once the target is ranked in the current
      records. */
  predicate FocusReadable(f: Formatter, changed: seq<ItemChange<Record>>, current: seq<Record>)
    requires AllReadable(current)
  {
    TargetCurrentRank(f, current).Some? ==> forall i :: 0 <= i < |changed| ==> ChangeReadable(f, changed[i])
  }

  /** `_get_focused_changes(changed_items, current_items)`. */
  function FocusedChanges(f: Formatter, changed: seq<ItemChange<Record>>, current: seq<Record>): seq<ItemChange<Record>>
    requires AllReadable(current) && FocusReadable(f, changed, current)
  {
    if !HasTarget(f.target) then Take(changed, f.maxResults)
    else
      match TargetCurrentRank(f, current)
      case None => Take(changed, f.maxResults)
      case Some(rank) =>
        TargetChange(f, changed) + Filter(changed, CompetitorTest(f, rank))
  }

  /** The target's change is the first change naming the target, and
      there is one exactly when some change names it. */
  lemma TargetChangeSpec(f: Formatter, changed: seq<ItemChange<Record>>)
    ensures var h := TargetChange(f, changed);
            |h| <= 1 &&
            (|h| == 1 <==> exists i :: 0 <= i < |changed| && IsTargetChange(f, changed[i])) &&
            (|h| == 1 ==>
               IsTargetChange(f, h[0]) &&
               exists i :: 0 <= i < |changed| && h[0] == changed[i] &&
                 forall j :: 0 <= j < i ==> !IsTargetChange(f, changed[j]))
  {
    var q := (c: ItemChange<Record>) => IsTargetChange(f, c);
    match FirstIndex(changed, q)
    case None =>
    case Some(i) =>
      assert q(changed[i]);
  }

  /** When the target is tracked and currently ranked, the focused changes
      are: the target's own change first, when it changed (the first one
      naming it), then exactly the other changes that threaten it, in
      their order in the changes given and once each. Otherwise the first
      `max_results`. */
  lemma FocusedChangesSpec(f: Formatter, changed: seq<ItemChange<Record>>, current: seq<Record>)
    requires AllReadable(current) && FocusReadable(f, changed, current)
    ensures forall c :: c in FocusedChanges(f, changed, current) ==> c in changed
    ensures TargetCurrentRank(f, current).None? ==> FocusedChanges(f, changed, current) == Take(changed, f.maxResults)
    ensures TargetCurrentRank(f, current).Some? ==>
              var r := FocusedChanges(f, changed, current);
              var rank := TargetCurrentRank(f, current).value;
              ((exists i :: 0 <= i < |changed| && IsTargetChange(f, changed[i])) <==>
                 |r| > 0 && IsTargetChange(f, r[0])) &&
              (forall i :: 1 <= i < |r| ==> !IsTargetChange(f, r[i])) &&
              (forall c :: c in changed && !IsTargetChange(f, c) ==> (c in r <==> Threatens(c, rank)))
    ensures TargetCurrentRank(f, current).Some? ==>
              var r := FocusedChanges(f, changed, current);
              var h := if |r| > 0 && IsTargetChange(f, r[0]) then 1 else 0;
              Selects(r[h..], changed, CompetitorTest(f, TargetCurrentRank(f, current).value))
    ensures TargetCurrentRank(f, current).Some? && |FocusedChanges(f, changed, current)| > 0 &&
            IsTargetChange(f, FocusedChanges(f, changed, current)[0]) ==>
              exists i :: 0 <= i < |changed| && FocusedChanges(f, changed, current)[0] == changed[i] &&
                forall j :: 0 <= j < i ==> !IsTargetChange(f, changed[j])
  {
    var r := FocusedChanges(f, changed, current);
    if TargetCurrentRank(f, current).Some? {
      assert HasTarget(f.target) by {
        var t := TargetIndex(f, current).value;
        assert IsTarget(f, current[t]);
      }
      var rank := TargetCurrentRank(f, current).value;
      var p := CompetitorTest(f, rank);
      var head := TargetChange(f, changed);
      var rest := Filter(changed, p);
      assert r == head + rest;
      TargetChangeSpec(f, changed);
      FilterMembers(changed, p);
      FilterSelects(changed, p);
      assert r[|head|..] == rest;
      forall c | c in r
        ensures c in changed
      {
        FilterIn(changed, p, c);
      }
      forall c | c in changed && !IsTargetChange(f, c)
        ensures c in r <==> Threatens(c, rank)
      {
        FilterIn(changed, p, c);
      }
    } else {
      assert r == Take(changed, f.maxResults);
    }
  }

  // ---------------------------------------------------------------------------
  // Sections and the message

  /** The lines under one changed item: its bullet, then one line per
      changed field, in the changes' order. */
  function ChangeEntry(f: Formatter, c: ItemChange<Record>): seq<string> {
    [Bullet + f.fmt(c.newItem)] +
    Map((fc: FieldChange) => FieldLine(fc.fieldName, fc.oldValue, fc.newValue), Values(c.changes))
  }

  /** The changes the changed section lists. */
  function ShownChanges(f: Formatter, changed: seq<ItemChange<Record>>, current: seq<Record>): seq<ItemChange<Record>>
    requires AllReadable(current) && FocusReadable(f, changed, current)
  {
    if HasTarget(f.target) then FocusedChanges(f, changed, current) else Take(changed, f.maxResults)
  }

  /** The entries of some changes, one per change, in their order. */
  function Entries(f: Formatter, cs: seq<ItemChange<Record>>): (r: seq<seq<string>>)
    ensures |r| == |cs| && forall i :: 0 <= i < |cs| ==> r[i] == ChangeEntry(f, cs[i])
  {
    Map((c: ItemChange<Record>) => ChangeEntry(f, c), cs)
  }

  /** The lines of the changed section under its header: each shown change's
      entry in turn. */
  function ChangedLines(f: Formatter, shown: seq<ItemChange<Record>>): (ls: seq<string>)
    ensures |shown| == 0 ==> ls == []
  {
    Flatten(Entries(f, shown))
  }

  /** `_format_changed_items`: "" when nothing is worth showing. */
  function ChangedSection(f: Formatter, changed: seq<ItemChange<Record>>, current: seq<Record>): (s: string)
    requires AllReadable(current) && FocusReadable(f, changed, current)
    ensures NotSentence(s)
    ensures s == "" <==> |ShownChanges(f, changed, current)| == 0
  {
    var shown := ShownChanges(f, changed, current);
    if |shown| == 0 then ""
    else
      var h := KeyChangesHeader(|shown|);
      HeadersTagged(0, |shown|);
      SectionHeader(h, ChangedLines(f, shown), "");
      Block([h] + ChangedLines(f, shown))
  }

  /** A non-empty changed section opens with the key-change header counting
      the changes shown, and so holds the phrase "Key Change". */
  lemma ChangedSectionHeader(f: Formatter, changed: seq<ItemChange<Record>>, current: seq<Record>)
    requires AllReadable(current) && FocusReadable(f, changed, current) && |ShownChanges(f, changed, current)| > 0
    ensures StartsWith(ChangedSection(f, changed, current), KeyChangesHeader(|ShownChanges(f, changed, current)|))
    ensures Contains(ChangedSection(f, changed, current), KeyChange)
  {
    var shown := ShownChanges(f, changed, current);
    HeadersTagged(0, |shown|);
    SectionHeader(KeyChangesHeader(|shown|), ChangedLines(f, shown), KeyChange);
  }

  /** A change's entry: its bullet line with the displayed new item, then
      one line per changed field, in the order of its changes. */
  lemma EntryLines(f: Formatter, c: ItemChange<Record>)
    ensures var e, fs := ChangeEntry(f, c), Values(c.changes);
            |e| == 1 + |fs| && e[0] == Bullet + f.fmt(c.newItem) &&
            forall k :: 0 <= k < |fs| ==> e[1 + k] == FieldLine(fs[k].fieldName, fs[k].oldValue, fs[k].newValue)
  {
  }

  /** The `j`-th shown change is listed right after the lines of the changes
      before it, as its entry (`EntryLines`). */
  lemma ChangedEntryAt(f: Formatter, shown: seq<ItemChange<Record>>, j: nat)
    requires j < |shown|
    ensures var ls, o, e := ChangedLines(f, shown), |ChangedLines(f, shown[..j])|, ChangeEntry(f, shown[j]);
            o + |e| <= |ls| && ls[o..o + |e|] == e
  {
    var es := Entries(f, shown);
    assert Entries(f, shown[..j]) == es[..j];
    FlattenAt(es, j);
  }

  /** When the shown changes' lines are visible, a non-empty changed section
      splits into the key-change header counting them and their lines. */
  lemma ChangedSectionLines(f: Formatter, changed: seq<ItemChange<Record>>, current: seq<Record>)
    requires AllReadable(current) && FocusReadable(f, changed, current)
    requires var shown := ShownChanges(f, changed, current);
             forall i :: 0 <= i < |shown| ==> AllVisible(ChangeEntry(f, shown[i]))
    ensures var shown := ShownChanges(f, changed, current);
            |shown| > 0 ==>
              Split(ChangedSection(f, changed, current), '\n') == [KeyChangesHeader(|shown|)] + ChangedLines(f, shown)
  {
    var shown := ShownChanges(f, changed, current);
    if |shown| > 0 {
      FlattenVisible(Entries(f, shown));
      KeyChangesHeaderVisible(|shown|);
      HeaderAndLines(KeyChangesHeader(|shown|), ChangedLines(f, shown));
    }
  }

  /** `_format_current_rankings`. */
  function RankingsSection(f: Formatter, current: seq<Record>): (s: string)
    requires AllReadable(current)
    ensures NotSentence(s)
  {
    var n := |current|;
    if HasTarget(f.target) then
      var shown := FocusedRankings(f, current, RankingsWindow);
      var header := if |shown| < n then PartialRankingsHeader(|shown|, n) else RankingsHeader(n);
      var ls := Bullets(shown, f.fmt);
      HeadersTagged(|shown|, n);
      SectionHeader(header, ls, "");
      Block([header] + ls)
    else
      var shown := Take(current, f.maxResults);
      var ls := Bullets(shown, f.fmt) + (if |shown| < n then [More(n - |shown|)] else []);
      HeadersTagged(0, n);
      SectionHeader(RankingsHeader(n), ls, "");
      Block([RankingsHeader(n)] + ls)
  }

  /** Without a target the rankings section of an alert is the full
      rankings listing. */
  lemma RankingsWithoutTarget(f: Formatter, current: seq<Record>)
    requires AllReadable(current) && !HasTarget(f.target)
    ensures RankingsSection(f, current) == FullRankings(current, f.maxResults, f.fmt)
  {
    var shown := Take(current, f.maxResults);
    var n := |current|;
    assert |shown| < n <==> n > f.maxResults;
    assert ListLines(current, f.maxResults, f.fmt) == Bullets(shown, f.fmt) + (if |shown| < n then [More(n - |shown|)] else []);
    assert [RankingsHeader(n)] + Bullets(shown, f.fmt) + (if |shown| < n then [More(n - |shown|)] else [])
        == [RankingsHeader(n)] + ListLines(current, f.maxResults, f.fmt);
  }

  /** With a target the rankings section lists the whole focused view,
      under a header that says how many of all the records it shows, and
      never ends with a trailer. */
  lemma RankingsWithTarget(f: Formatter, current: seq<Record>)
    requires AllReadable(current) && HasTarget(f.target) && ShowsVisibly(current, f.fmt)
    ensures var shown := FocusedRankings(f, current, RankingsWindow);
            Split(RankingsSection(f, current), '\n') ==
              [if |shown| < |current| then PartialRankingsHeader(|shown|, |current|) else RankingsHeader(|current|)] +
              Bullets(shown, f.fmt)
  {
    var shown := FocusedRankings(f, current, RankingsWindow);
    var b := FocusBounds(f, current, RankingsWindow);
    forall i | 0 <= i < |shown|
      ensures Visible(f.fmt(shown[i]))
    {
      assert shown[i] == current[b.0 + i];
    }
    RankingsHeadersVisible(|shown|, |current|);
    var header := if |shown| < |current| then PartialRankingsHeader(|shown|, |current|) else RankingsHeader(|current|);
    BulletSectionLines(header, shown, f.fmt);
  }

  /** `format_changes_message(new_items, removed_items, changed_items,
      current_items)`. An absent `current_items` is the empty list: the
      source treats both alike. */
  function FormatChangesMessage(f: Formatter, added: seq<Record>, removed: seq<Record>,
                                changed: seq<ItemChange<Record>>, current: seq<Record>): string
    requires AllReadable(current) && FocusReadable(f, changed, current)
  {
    Alert(|added|, |removed|, |changed|, |current|,
          NewSection(added, f.maxResults, f.fmt), RemovedSection(removed, f.maxResults, f.fmt),
          ChangedSection(f, changed, current), RankingsSection(f, current))
  }

  /** "No changes detected." comes back exactly when there is nothing new,
      nothing removed and nothing changed, whatever the focusing keeps. */
  lemma NoChangesIff(f: Formatter, added: seq<Record>, removed: seq<Record>,
                     changed: seq<ItemChange<Record>>, current: seq<Record>)
    requires AllReadable(current) && FocusReadable(f, changed, current)
    ensures FormatChangesMessage(f, added, removed, changed, current) == NoChanges <==>
              |added| == 0 && |removed| == 0 && |changed| == 0
  {
    AlertNoChanges(|added|, |removed|, |changed|, |current|,
                   NewSection(added, f.maxResults, f.fmt), RemovedSection(removed, f.maxResults, f.fmt),
                   ChangedSection(f, changed, current), RankingsSection(f, current));
  }

  /** The message written out as `format_changes_message` builds it: the new,
      removed and changed sections when there are such items, then the
      rankings when there are current items and something changed, joined by
      blank lines, or the fixed sentence when no part is present. */
  lemma MessageParts(f: Formatter, added: seq<Record>, removed: seq<Record>,
                     changed: seq<ItemChange<Record>>, current: seq<Record>)
    requires AllReadable(current) && FocusReadable(f, changed, current)
    ensures var parts := (if |added| > 0 then [NewSection(added, f.maxResults, f.fmt)] else []) +
                         (if |removed| > 0 then [RemovedSection(removed, f.maxResults, f.fmt)] else []) +
                         (if |changed| > 0 then [ChangedSection(f, changed, current)] else []) +
                         (if |current| > 0 && (|added| > 0 || |removed| > 0 || |changed| > 0)
                          then [RankingsSection(f, current)] else []);
            FormatChangesMessage(f, added, removed, changed, current) ==
              if |parts| == 0 then "No changes detected." else Join("\n\n", parts)
  {
    AlertParts(|added|, |removed|, |changed|, |current|,
               NewSection(added, f.maxResults, f.fmt), RemovedSection(removed, f.maxResults, f.fmt),
               ChangedSection(f, changed, current), RankingsSection(f, current));
  }

  /** Any element of the focused or capped changes is one of the changes. */
  lemma ShownFromChanged(f: Formatter, changed: seq<ItemChange<Record>>, current: seq<Record>)
    requires AllReadable(current) && FocusReadable(f, changed, current)
    ensures forall c :: c in ShownChanges(f, changed, current) ==> c in changed
  {
    FocusedChangesSpec(f, changed, current);
  }

  /** Something shown from the changes means there are changes. */
  lemma ShownNonEmpty(f: Formatter, changed: seq<ItemChange<Record>>, current: seq<Record>)
    requires AllReadable(current) && FocusReadable(f, changed, current) && |ShownChanges(f, changed, current)| > 0
    ensures |changed| > 0
  {
    ShownFromChanged(f, changed, current);
    assert ShownChanges(f, changed, current)[0] in changed;
  }

  /** The message announces the new and removed items with their full
      counts. */
  lemma MessageAnnouncesItems(f: Formatter, added: seq<Record>, removed: seq<Record>,
                              changed: seq<ItemChange<Record>>, current: seq<Record>)
    requires AllReadable(current) && FocusReadable(f, changed, current)
    ensures |added| > 0 ==> Contains(FormatChangesMessage(f, added, removed, changed, current), NewHeader(|added|))
    ensures |removed| > 0 ==> Contains(FormatChangesMessage(f, added, removed, changed, current), RemovedHeader(|removed|))
  {
    var nw, rm := NewSection(added, f.maxResults, f.fmt), RemovedSection(removed, f.maxResults, f.fmt);
    var ch, rk := ChangedSection(f, changed, current), RankingsSection(f, current);
    StartsWithContains(nw, NewHeader(|added|));
    StartsWithContains(rm, RemovedHeader(|removed|));
    AlertContains(|added|, |removed|, |changed|, |current|, nw, rm, ch, rk, NewHeader(|added|));
    AlertContains(|added|, |removed|, |changed|, |current|, nw, rm, ch, rk, RemovedHeader(|removed|));
  }

  /** The message holds the key-change header, with the number of changes
      shown, whenever some change survives the focusing; the site monitor's
      "Key Change" test relies on this. */
  lemma MessageAnnouncesKeyChanges(f: Formatter, added: seq<Record>, removed: seq<Record>,
                                   changed: seq<ItemChange<Record>>, current: seq<Record>)
    requires AllReadable(current) && FocusReadable(f, changed, current) && |ShownChanges(f, changed, current)| > 0
    ensures var m := FormatChangesMessage(f, added, removed, changed, current);
            Contains(m, KeyChangesHeader(|ShownChanges(f, changed, current)|)) && Contains(m, KeyChange)
  {
    var h := KeyChangesHeader(|ShownChanges(f, changed, current)|);
    var nw, rm := NewSection(added, f.maxResults, f.fmt), RemovedSection(removed, f.maxResults, f.fmt);
    var ch, rk := ChangedSection(f, changed, current), RankingsSection(f, current);
    ShownNonEmpty(f, changed, current);
    ChangedSectionHeader(f, changed, current);
    StartsWithContains(ch, h);
    AlertContains(|added|, |removed|, |changed|, |current|, nw, rm, ch, rk, h);
    AlertContains(|added|, |removed|, |changed|, |current|, nw, rm, ch, rk, KeyChange);
  }
}

=== FILE: contest_scraper.dfy ===
/** The typed contest scraper (contest/contest_scraper.py): reading the
    contestants off the voting page, the key a contestant is tracked by, and
    the line a contestant is shown as. The page itself is a parameter: each
    contestant element either yields its rank, name text and vote count or
    fails to parse and is skipped. */
module ContestScraper {
  import opened Wrappers
  import opened Text
  import opened Seqs
  import opened Dicts
  import opened Records
  import opened ContestTypes
  import opened Sorting

  // ---------------------------------------------------------------------------
  // Reading the page

  /** What one contestant element gives once its three sub-elements were
      found and its rank and vote count read as integers. */
  datatype Entry = Entry(rank: int, nameText: string, votes: int)

  /** The page as the scraper sees it: the results container never appeared
      (`wait.until` raised), or the contestant elements, each parsed or not. */
  datatype Page = NoResults | Results(elements: seq<Option<Entry>>)

  /** `bool(self.target_item and name.lower() == self.target_item.lower())`. */
  predicate IsTargetName(target: Option<string>, name: string) {
    HasTarget(target) && Lower(name) == Lower(target.value)
  }

  /** The item one parsed element becomes. */
  function ItemOf(e: Entry, target: Option<string>): (c: ContestItem)
    ensures c.name == Strip(e.nameText)
    ensures c.rank == Some(e.rank) && c.votes == Some(e.votes) && c.rawData.None?
    ensures c.isTarget <==> IsTargetName(target, c.name)
  {
    var name := Strip(e.nameText);
    ContestItem(name, Some(e.rank), Some(e.votes), IsTargetName(target, name), None)
  }

  /** The elements that parsed, as items, in page order; the others are
      skipped. */
  function ParseAll(es: seq<Option<Entry>>, target: Option<string>): (r: seq<ContestItem>)
    ensures |r| <= |es|
    decreases |es|
  {
    if |es| == 0 then []
    else (match es[0] case None => [] case Some(e) => [ItemOf(e, target)]) + ParseAll(es[1..], target)
  }

  /** Every parsed element is read. */
  lemma {:induction false} ParseAllComplete(es: seq<Option<Entry>>, target: Option<string>)
    ensures forall i :: 0 <= i < |es| && es[i].Some? ==> ItemOf(es[i].value, target) in ParseAll(es, target)
    decreases |es|
  {
    if |es| > 0 {
      ParseAllComplete(es[1..], target);
      var head := match es[0] case None => [] case Some(e) => [ItemOf(e, target)];
      assert ParseAll(es, target) == head + ParseAll(es[1..], target);
      forall i | 0 < i < |es| && es[i].Some?
        ensures ItemOf(es[i].value, target) in ParseAll(es, target)
      {
        assert es[i] == es[1..][i - 1];
      }
    }
  }

  /** Every item comes from a parsed element. */
  lemma {:induction false} ParseAllSound(es: seq<Option<Entry>>, target: Option<string>)
    ensures forall c :: c in ParseAll(es, target) ==> exists e :: Some(e) in es && c == ItemOf(e, target)
    decreases |es|
  {
    if |es| > 0 {
      ParseAllSound(es[1..], target);
      var head := match es[0] case None => [] case Some(e) => [ItemOf(e, target)];
      assert ParseAll(es, target) == head + ParseAll(es[1..], target);
      forall c | c in ParseAll(es, target)
        ensures exists e :: Some(e) in es && c == ItemOf(e, target)
      {
        if c in head {
          assert Some(es[0].value) in es;
        } else {
          var e :| Some(e) in es[1..] && c == ItemOf(e, target);
          assert Some(e) in es;
        }
      }
    }
  }

  /** Every parsed element is read, every item comes from a parsed element,
      and every item carries a rank and a vote count. */
  lemma ParseAllMembers(es: seq<Option<Entry>>, target: Option<string>)
    ensures forall i :: 0 <= i < |es| && es[i].Some? ==> ItemOf(es[i].value, target) in ParseAll(es, target)
    ensures forall c :: c in ParseAll(es, target) ==> exists e :: Some(e) in es && c == ItemOf(e, target)
    ensures forall c :: c in ParseAll(es, target) ==>
              c.rank.Some? && c.votes.Some? && c.rawData.None? && (c.isTarget <==> IsTargetName(target, c.name))
  {
    ParseAllComplete(es, target);
    ParseAllSound(es, target);
  }

  /** The sort key `lambda x: x.rank`; every scraped item has a rank. */
  function RankKey(c: ContestItem): int {
    c.rank.GetOr(0)
  }

  /** `extract_data`: the parsed contestants sorted by rank. A missing
      results container gives no contestants. */
  function Contestants(page: Page, target: Option<string>): (r: seq<ContestItem>)
    ensures SortedBy(r, RankKey)
    ensures page.NoResults? ==> r == []
    ensures page.Results? ==> multiset(r) == multiset(ParseAll(page.elements, target))
  {
    match page
    case NoResults => []
    case Results(es) => SortBy(ParseAll(es, target), RankKey)
  }

  /** The scraped list holds exactly the contestants whose elements parsed,
      ranked, and marked as the target exactly when the name matches the
      target ignoring case; contestants sharing a rank keep page order. */
  lemma ContestantsSpec(es: seq<Option<Entry>>, target: Option<string>, k: int)
    ensures forall i :: 0 <= i < |es| && es[i].Some? ==> ItemOf(es[i].value, target) in Contestants(Results(es), target)
    ensures forall c :: c in Contestants(Results(es), target) ==> exists e :: Some(e) in es && c == ItemOf(e, target)
    ensures forall c :: c in Contestants(Results(es), target) ==>
              c.rank.Some? && c.votes.Some? && (c.isTarget <==> IsTargetName(target, c.name))
    ensures WithKey(Contestants(Results(es), target), RankKey, k) == WithKey(ParseAll(es, target), RankKey, k)
  {
    var parsed := ParseAll(es, target);
    var r := Contestants(Results(es), target);
    ParseAllMembers(es, target);
    assert forall c :: c in r <==> c in multiset(r);
    assert forall c :: c in parsed <==> c in multiset(parsed);
    SortByStable(parsed, RankKey, k);
  }

  // ---------------------------------------------------------------------------
  // Keys

  /** Every contestant key starts with this. */
  const KeyPrefix: string := "contestant_"

  /** The key for a contestant name: lower-cased, spaces made underscores. */
  function NameKey(name: string): (k: string)
    ensures StartsWith(k, KeyPrefix) && |k| == |KeyPrefix| + |name|
  {
    KeyPrefix + ReplaceChar(Lower(name), ' ', '_')
  }

  /** `get_item_key` for a typed item. */
  function ItemKey(c: ContestItem): string {
    NameKey(c.name)
  }

  /** `get_item_key` for a dict: `item["name"]` raises when the field is
      missing and `.lower()` raises when it is not a string; both are None. */
  function DictKey(d: Record): (k: Option<string>)
    ensures k.Some? <==> Get(d, "name").Some? && Get(d, "name").value.Str?
    ensures k.Some? ==> k.value == NameKey(Get(d, "name").value.s)
  {
    var name := Get(d, "name");
    if name.Some? && name.value.Str? then Some(NameKey(name.value.s)) else None
  }

  /** An item and its dict form are tracked under the same key. */
  lemma DictKeyToDict(c: ContestItem)
    ensures DictKey(ToDict(c)) == Some(ItemKey(c))
  {
    assert TypedField(c, "name") == Some(Str(c.name));
  }

  /** `LowerChar` turns nothing into an underscore or a space that was not
      one already. */
  lemma LowerKeeps(name: string)
    ensures '_' !in name ==> '_' !in Lower(name)
    ensures ' ' !in name ==> ' ' !in Lower(name)
  {
    if '_' in Lower(name) {
      var i :| 0 <= i < |Lower(name)| && Lower(name)[i] == '_';
      assert name[i] == '_';
    }
    if ' ' in Lower(name) {
      var i :| 0 <= i < |Lower(name)| && Lower(name)[i] == ' ';
      assert name[i] == ' ';
    }
  }

  /** For names without an underscore the key gives the lower-cased name
      back, so two such names share a key exactly when they are equal
      ignoring case. */
  lemma NameKeyInjective(a: string, b: string)
    requires '_' !in a && '_' !in b
    ensures ReplaceChar(NameKey(a)[|KeyPrefix|..], '_', ' ') == Lower(a)
    ensures NameKey(a) == NameKey(b) <==> Lower(a) == Lower(b)
  {
    LowerKeeps(a);
    LowerKeeps(b);
    assert NameKey(a)[|KeyPrefix|..] == ReplaceChar(Lower(a), ' ', '_');
    assert NameKey(b)[|KeyPrefix|..] == ReplaceChar(Lower(b), ' ', '_');
    ReplaceCharBack(Lower(a), ' ', '_');
    ReplaceCharBack(Lower(b), ' ', '_');
  }

  /** With an underscore allowed the key is not injective: "a b" and "a_b"
      are different contestants tracked under one key. */
  lemma NameKeyCollision()
    ensures "a b" != "a_b" && NameKey("a b") == NameKey("a_b")
  {
    assert "a b"[1] == ' ' && "a_b"[1] == '_';
    assert ReplaceChar(Lower("a b"), ' ', '_') == "a_b";
    assert ReplaceChar(Lower("a_b"), ' ', '_') == "a_b";
  }

  // ---------------------------------------------------------------------------
  // Display

  /** The medals for the first three places and the badge for the rest. */
  const Gold: string := "\U{1F947}"
  const Silver: string := "\U{1F948}"
  const Bronze: string := "\U{1F949}"
  const Badge: string := "\U{1F3C5}"

  /** The marker after the votes of the tracked contestant. */
  const TargetMark: string := " \U{1F3AF}"

  /** `_get_rank_emoji(rank)`: a dict lookup, so a rank `==` to 1, 2 or 3
      (True counts as 1) finds its medal and anything else the badge. */
  function RankEmoji(rank: Value): string {
    if PyEq(rank, Int(1)) then Gold
    else if PyEq(rank, Int(2)) then Silver
    else if PyEq(rank, Int(3)) then Bronze
    else Badge
  }

  /** The five emoji are different single characters. */
  lemma EmojiDistinct()
    ensures |Gold| == |Silver| == |Bronze| == |Badge| == 1
    ensures Gold != Silver && Gold != Bronze && Gold != Badge
    ensures Silver != Bronze && Silver != Badge && Bronze != Badge
  {
    assert Gold[0] != Silver[0] && Gold[0] != Bronze[0] && Gold[0] != Badge[0];
    assert Silver[0] != Bronze[0] && Silver[0] != Badge[0] && Bronze[0] != Badge[0];
  }

  /** An integer rank gets a medal exactly when it is 1, 2 or 3, and each
      place its own. */
  lemma RankEmojiMedal(n: int)
    ensures RankEmoji(Int(n)) != Badge <==> 1 <= n <= 3
    ensures RankEmoji(Int(n)) == Gold <==> n == 1
    ensures RankEmoji(Int(n)) == Silver <==> n == 2
    ensures RankEmoji(Int(n)) == Bronze <==> n == 3
  {
    EmojiDistinct();
  }

  /** The display line from its parts:
      "<emoji> <rank>. <b><name></b> (<votes> votes<marker>)". */
  function Line(emoji: string, rank: string, name: string, votes: string, marker: string): string {
    emoji + " " + rank + ". <b>" + name + "</b> (" + votes + " votes" + marker + ")"
  }

  /** `str(votes)` for an optional vote count. */
  function VotesText(votes: Option<int>): string {
    match votes
    case None => "None"
    case Some(n) => IntToStr(n)
  }

  /** `rank or 0` for a typed rank. */
  function ShownRank(c: ContestItem): int {
    if c.rank.Some? then c.rank.value else 0
  }

  /** `format_item` for a typed item. */
  function FormatItem(c: ContestItem): string {
    Line(RankEmoji(Int(ShownRank(c))), IntToStr(ShownRank(c)), c.name, VotesText(c.votes),
         if c.isTarget then TargetMark else "")
  }

  /** `v or 0`. */
  function OrZero(v: Value): (r: Value)
    ensures Truthy(v) ==> r == v
    ensures !Truthy(v) ==> r == Int(0)
  {
    if Truthy(v) then v else Int(0)
  }

  /** `format_item` for a dict: `item["rank"]`, `item["name"]` and
      `item["votes"]` raise when missing (None here); the rank defaults to 0
      when falsy and the marker follows the truthiness of
      `item.get("is_target", False)`. */
  function DictFormat(d: Record): (r: Option<string>)
    ensures r.Some? <==> "rank" in Keys(d) && "name" in Keys(d) && "votes" in Keys(d)
  {
    match (Get(d, "rank"), Get(d, "name"), Get(d, "votes"))
    case (Some(rank), Some(name), Some(votes)) =>
      var shown := OrZero(OrZero(rank));
      var target := Get(d, "is_target").Some? && Truthy(Get(d, "is_target").value);
      Some(Line(RankEmoji(shown), Show(shown), Show(name), Show(votes), if target then TargetMark else ""))
    case _ => None
  }

  /** The contest fields of an item's dict form. */
  lemma ToDictFields(c: ContestItem)
    ensures Get(ToDict(c), "name") == Some(Str(c.name))
    ensures Get(ToDict(c), "is_target") == Some(Bool(c.isTarget))
    ensures c.rank.Some? ==> Get(ToDict(c), "rank") == Some(Int(c.rank.value))
    ensures c.votes.Some? ==> Get(ToDict(c), "votes") == Some(Int(c.votes.value))
    ensures c.rank.None? && c.rawData.None? ==> Get(ToDict(c), "rank").None?
  {
    FieldNamesDistinct();
    ToDictField(c, "name");
    ToDictField(c, "is_target");
    ToDictField(c, "rank");
    ToDictField(c, "votes");
  }

  /** One field of an item's dict form, without raw data in play. */
  lemma ToDictField(c: ContestItem, k: string)
    ensures TypedField(c, k).Some? ==> Get(ToDict(c), k) == TypedField(c, k)
    ensures TypedField(c, k).None? && c.rawData.None? ==> Get(ToDict(c), k).None?
  {
  }

  /** `format_item` on a dict whose contest fields hold an int rank, a
      text name, an int vote count and a bool marker. */
  lemma DictFormatFields(d: Record, rank: int, name: string, votes: int, target: bool)
    requires Get(d, "rank") == Some(Int(rank)) && Get(d, "name") == Some(Str(name))
    requires Get(d, "votes") == Some(Int(votes)) && Get(d, "is_target") == Some(Bool(target))
    ensures DictFormat(d) == Some(Line(RankEmoji(Int(rank)), IntToStr(rank), name, IntToStr(votes),
                                       if target then TargetMark else ""))
  {
    assert OrZero(OrZero(Int(rank))) == Int(rank);
  }

  /** A typed item and its dict form display alike once both rank and votes
      are set; without a rank (and no raw data to supply one) the dict form
      has no "rank" field and formatting it raises. */
  lemma DictFormatToDict(c: ContestItem)
    ensures c.rank.Some? && c.votes.Some? ==> DictFormat(ToDict(c)) == Some(FormatItem(c))
    ensures c.rank.None? && c.rawData.None? ==> DictFormat(ToDict(c)).None?
  {
    ToDictFields(c);
    if c.rank.Some? && c.votes.Some? {
      DictFormatFields(ToDict(c), c.rank.value, c.name, c.votes.value, c.isTarget);
    }
  }

  /** A line ends with the target marker exactly when the contestant is the
      target, and a missing rank shows like rank 0. */
  lemma FormatItemMarker(c: ContestItem)
    ensures EndsWith(FormatItem(c), TargetMark + ")") <==> c.isTarget
    ensures FormatItem(c.(rank := None)) == FormatItem(c.(rank := Some(0)))
  {
    var head := RankEmoji(Int(ShownRank(c))) + " " + IntToStr(ShownRank(c)) + ". <b>" + c.name + "</b> (" + VotesText(c.votes);
    var s := FormatItem(c);
    if c.isTarget {
      assert s == head + " votes" + (TargetMark + ")");
    } else {
      assert s == (head + " vot") + "es)";
      assert s[|s| - 2] == 's';
      assert (TargetMark + ")")[1] == '\U{1F3AF}';
    }
  }
}

=== FILE: contest_types.dfy ===
/** The typed contest participant (`ContestItem` in contest/contest_types.py)
    and its conversions from and to a scraped record. */
module ContestTypes {
  import opened Wrappers
  import opened Seqs
  import opened Dicts
  import opened Records

  /** A contest participant: its name, optional rank and vote count, whether
      it is the tracked target, and the record it was built from, if any. */
  datatype ContestItem = ContestItem(
    name: string,
    rank: Option<int>,
    votes: Option<int>,
    isTarget: bool,
    rawData: Option<Record>)

  /** A record whose contest fields have the types the dataclass declares:
      a text name, integer (or None) rank and votes, a bool target marker,
      each possibly absent. */
  predicate ContestShaped(d: Record) {
    (Get(d, "name").None? || Get(d, "name").value.Str?) &&
    (Get(d, "rank").None? || Get(d, "rank").value.Null? || Get(d, "rank").value.Int?) &&
    (Get(d, "votes").None? || Get(d, "votes").value.Null? || Get(d, "votes").value.Int?) &&
    (Get(d, "is_target").None? || Get(d, "is_target").value.Bool?)
  }

  /** `data.get(k)` for an integer-or-None field. */
  function OptionalInt(v: Option<Value>): (k: Option<int>)
    requires v.None? || v.value.Null? || v.value.Int?
    ensures k.None? <==> (v.None? || v == Some(Null))
    ensures k.Some? ==> v == Some(Int(k.value))
  {
    match v
    case None => None
    case Some(x) => if x.Null? then None else Some(x.n)
  }

  /** `d[k] = v` on a record. */
  function PutField(d: Record, k: string, v: Value): (r: Record)
    ensures Get(r, k) == Some(v)
    ensures forall k' :: k' != k ==> Get(r, k') == Get(d, k')
    ensures k in Keys(d) ==> Keys(r) == Keys(d)
    ensures k !in Keys(d) ==> Keys(r) == Keys(d) + [k]
  {
    PutKeepsDict(d, k, v);
    forall k' | k' != k
      ensures Get(Put(d, k, v), k') == Get(d, k')
    {
      PutOther(d, k, v, k');
    }
    Put(d, k, v)
  }

  /** `ContestItem.from_dict(data)`: missing name is "", missing rank and
      votes are None, missing target marker is False, and the record is
      kept as the raw data. */
  function FromDict(d: Record): (c: ContestItem)
    requires ContestShaped(d)
    ensures c.name == (if Get(d, "name").Some? then Get(d, "name").value.s else "")
    ensures c.rank.None? <==> (Get(d, "rank").None? || Get(d, "rank") == Some(Null))
    ensures c.rank.Some? ==> Get(d, "rank") == Some(Int(c.rank.value))
    ensures c.votes.None? <==> (Get(d, "votes").None? || Get(d, "votes") == Some(Null))
    ensures c.votes.Some? ==> Get(d, "votes") == Some(Int(c.votes.value))
    ensures c.isTarget <==> Get(d, "is_target") == Some(Bool(true))
    ensures c.rawData == Some(d)
  {
    ContestItem(
      match Get(d, "name") case None => "" case Some(v) => v.s,
      OptionalInt(Get(d, "rank")),
      OptionalInt(Get(d, "votes")),
      match Get(d, "is_target") case None => false case Some(v) => v.b,
      Some(d))
  }

  /** The raw-data loop of `to_dict`: every field of `raw` whose name is not
      yet in `base` is added, in `raw`'s order; fields already present keep
      their value. */
  function Merge(base: Record, raw: Record): (r: Record)
    ensures forall k :: Get(r, k) == (if k in Keys(base) then Get(base, k) else Get(raw, k))
    decreases |raw|
  {
    if |raw| == 0 then base
    else
      var rest := Rest(raw);
      var next := if raw[0].0 in Keys(base) then base else PutField(base, raw[0].0, raw[0].1);
      Merge(next, rest)
  }

  /** A record without its first field. */
  function Rest(raw: Record): (rest: Record)
    requires |raw| > 0
    ensures raw[0].0 !in Keys(rest)
    ensures forall k :: k != raw[0].0 ==> Get(raw, k) == Get(rest, k)
    ensures Get(raw, raw[0].0) == Some(raw[0].1)
  {
    assert Keys(raw[1..]) == Keys(raw)[1..];
    raw[1..]
  }

  /** The fields already in `base` keep their positions. */
  lemma {:induction false} MergeKeepsOrder(base: Record, raw: Record)
    ensures |Keys(base)| <= |Keys(Merge(base, raw))|
    ensures Keys(Merge(base, raw))[..|Keys(base)|] == Keys(base)
    decreases |raw|
  {
    if |raw| > 0 {
      var next := if raw[0].0 in Keys(base) then base else PutField(base, raw[0].0, raw[0].1);
      var kb, kn := Keys(base), Keys(next);
      assert |kb| <= |kn| && kn[..|kb|] == kb;
      MergeKeepsOrder(next, Rest(raw));
      assert Merge(base, raw) == Merge(next, Rest(raw));
      PrefixOfPrefix(kb, kn, Keys(Merge(next, Rest(raw))));
    }
  }

  lemma PrefixOfPrefix(a: seq<string>, b: seq<string>, c: seq<string>)
    requires |a| <= |b| <= |c| && b[..|a|] == a && c[..|b|] == b
    ensures c[..|a|] == a
  {
    assert c[..|a|] == c[..|b|][..|a|];
  }

  /** The value `to_dict` writes for field `k` from the typed fields
      alone: name and target marker always, rank and votes when set. */
  function TypedField(c: ContestItem, k: string): Option<Value> {
    if k == "name" then Some(Str(c.name))
    else if k == "is_target" then Some(Bool(c.isTarget))
    else if k == "rank" && c.rank.Some? then Some(Int(c.rank.value))
    else if k == "votes" && c.votes.Some? then Some(Int(c.votes.value))
    else None
  }

  /** The four contest field names are different strings. */
  lemma FieldNamesDistinct()
    ensures "name" != "is_target" && "name" != "rank" && "name" != "votes"
    ensures "is_target" != "rank" && "is_target" != "votes" && "rank" != "votes"
  {
    assert "name"[0] == 'n' && "is_target"[0] == 'i' && "rank"[0] == 'r' && "votes"[0] == 'v';
  }

  /** The dict `to_dict` starts from: name and target marker. */
  function Head(c: ContestItem): (r: Record)
    ensures Keys(r) == ["name", "is_target"]
    ensures forall k :: Get(r, k) == if k == "name" || k == "is_target" then TypedField(c, k) else None
  {
    FieldNamesDistinct();
    var r: Record := [("name", Str(c.name)), ("is_target", Bool(c.isTarget))];
    assert r[1..] == [("is_target", Bool(c.isTarget))];
    r
  }

  /** The dict `to_dict` builds before looking at the raw data: name,
      target marker, then rank and votes when set. */
  function TypedDict(c: ContestItem): Record {
    var base := Head(c);
    var withRank := if c.rank.Some? then PutField(base, "rank", Int(c.rank.value)) else base;
    if c.votes.Some? then PutField(withRank, "votes", Int(c.votes.value)) else withRank
  }

  /** Each field of the typed dict holds what the typed fields say. */
  lemma TypedDictGet(c: ContestItem, k: string)
    ensures Get(TypedDict(c), k) == TypedField(c, k)
  {
    FieldNamesDistinct();
    var base := Head(c);
    var withRank := if c.rank.Some? then PutField(base, "rank", Int(c.rank.value)) else base;
    if k != "rank" {
      assert Get(withRank, k) == Get(base, k);
    }
  }

  /** Writing a field never moves the fields already there. */
  lemma PutFieldKeepsPrefix(d: Record, k: string, v: Value)
    ensures |Keys(d)| <= |Keys(PutField(d, k, v))| && Keys(PutField(d, k, v))[..|Keys(d)|] == Keys(d)
  {
    if k !in Keys(d) {
      assert (Keys(d) + [k])[..|Keys(d)|] == Keys(d);
    }
  }

  /** The typed dict starts with the name and the target marker. */
  lemma TypedDictKeys(c: ContestItem)
    ensures |TypedDict(c)| >= 2 && Keys(TypedDict(c))[..2] == ["name", "is_target"]
  {
    var base := Head(c);
    var withRank := if c.rank.Some? then PutField(base, "rank", Int(c.rank.value)) else base;
    if c.rank.Some? {
      PutFieldKeepsPrefix(base, "rank", Int(c.rank.value));
    }
    if c.votes.Some? {
      PutFieldKeepsPrefix(withRank, "votes", Int(c.votes.value));
      PrefixOfPrefix(Keys(base), Keys(withRank), Keys(TypedDict(c)));
    }
  }

  /** The typed dict, field by field and in its key order. */
  lemma TypedDictFields(c: ContestItem)
    ensures |TypedDict(c)| >= 2 && Keys(TypedDict(c))[..2] == ["name", "is_target"]
    ensures forall k :: Get(TypedDict(c), k) == TypedField(c, k)
  {
    TypedDictKeys(c);
    forall k
      ensures Get(TypedDict(c), k) == TypedField(c, k)
    {
      TypedDictGet(c, k);
    }
  }

  /** The typed dict merged with raw data, field by field and in its key
      order. */
  lemma MergedFields(c: ContestItem, raw: Record)
    ensures |Merge(TypedDict(c), raw)| >= 2 && Keys(Merge(TypedDict(c), raw))[..2] == ["name", "is_target"]
    ensures forall k :: Get(Merge(TypedDict(c), raw), k) ==
              if TypedField(c, k).Some? then TypedField(c, k) else Get(raw, k)
  {
    var base := TypedDict(c);
    TypedDictFields(c);
    MergeKeepsOrder(base, raw);
    PrefixOfPrefix(["name", "is_target"], Keys(base), Keys(Merge(base, raw)));
    forall k
      ensures Get(Merge(base, raw), k) == if TypedField(c, k).Some? then TypedField(c, k) else Get(raw, k)
    {
      assert Get(base, k) == TypedField(c, k);
    }
  }

  /** `item.to_dict()`: name and target marker first, then rank and votes
      when set, then the raw data's fields not written already. */
  function ToDict(c: ContestItem): (r: Record)
    ensures |r| >= 2 && Keys(r)[..2] == ["name", "is_target"]
    ensures forall k :: Get(r, k) ==
              if TypedField(c, k).Some? then TypedField(c, k)
              else if c.rawData.Some? then Get(c.rawData.value, k)
              else None
  {
    match c.rawData
    case None =>
      TypedDictFields(c);
      TypedDict(c)
    case Some(raw) =>
      MergedFields(c, raw);
      Merge(TypedDict(c), raw)
  }

  /** `ToDictFromDict` for one field. */
  lemma ToDictFromDictAt(d: Record, k: string)
    requires ContestShaped(d)
    ensures Get(ToDict(FromDict(d)), k) ==
              if k == "name" then Some(Str(FromDict(d).name))
              else if k == "is_target" then Some(Bool(FromDict(d).isTarget))
              else Get(d, k)
  {
    FieldNamesDistinct();
    var c := FromDict(d);
    var e := ToDict(c);
    assert Get(e, k) == if TypedField(c, k).Some? then TypedField(c, k) else Get(d, k);
    if k == "rank" {
      assert TypedField(c, k).Some? <==> c.rank.Some?;
    } else if k == "votes" {
      assert TypedField(c, k).Some? <==> c.votes.Some?;
    } else if k != "name" && k != "is_target" {
      assert TypedField(c, k).None?;
    }
  }

  /** Converting a record to an item and back gives the same dict, up to
      key order, except that a missing name or target marker is filled in
      with its default. */
  lemma ToDictFromDict(d: Record)
    requires ContestShaped(d)
    ensures forall k :: Get(ToDict(FromDict(d)), k) ==
              if k == "name" then Some(Str(FromDict(d).name))
              else if k == "is_target" then Some(Bool(FromDict(d).isTarget))
              else Get(d, k)
    ensures Get(d, "name").Some? && Get(d, "is_target").Some? ==> SameDict(ToDict(FromDict(d)), d)
  {
    forall k
      ensures Get(ToDict(FromDict(d)), k) ==
                if k == "name" then Some(Str(FromDict(d).name))
                else if k == "is_target" then Some(Bool(FromDict(d).isTarget))
                else Get(d, k)
    {
      ToDictFromDictAt(d, k);
    }
  }

  /** An item built in code (no raw data) survives the trip through a dict:
      name, rank, votes and target marker come back unchanged. */
  lemma FromDictToDict(c: ContestItem)
    requires c.rawData.None?
    ensures ContestShaped(ToDict(c))
    ensures var c' := FromDict(ToDict(c));
            c'.name == c.name && c'.rank == c.rank && c'.votes == c.votes && c'.isTarget == c.isTarget
  {
    FieldNamesDistinct();
    var e := ToDict(c);
    assert Get(e, "name") == Some(Str(c.name));
    assert Get(e, "is_target") == Some(Bool(c.isTarget));
    assert Get(e, "rank") == TypedField(c, "rank");
    assert Get(e, "votes") == TypedField(c, "votes");
  }

  /** An item read from a record reads back the same from its dict form. */
  lemma FromDictIdempotent(d: Record)
    requires ContestShaped(d)
    ensures ContestShaped(ToDict(FromDict(d)))
    ensures var c := FromDict(d);
            var c' := FromDict(ToDict(c));
            c'.name == c.name && c'.rank == c.rank && c'.votes == c.votes && c'.isTarget == c.isTarget
  {
    var c := FromDict(d);
    var e := ToDict(c);
    FieldNamesDistinct();
    ToDictFromDictAt(d, "name");
    ToDictFromDictAt(d, "is_target");
    ToDictFromDictAt(d, "rank");
    ToDictFromDictAt(d, "votes");
    assert Get(e, "name") == Some(Str(c.name)) && Get(e, "is_target") == Some(Bool(c.isTarget));
    assert Get(e, "rank") == Get(d, "rank") && Get(e, "votes") == Get(d, "votes");
    assert ContestShaped(e);
  }
}

=== FILE: dict_contest_scraper.dfy ===
/** The older, dict-based contest scraper (scrapers/contest_scraper.py). It
    reads the same page as the typed scraper but produces plain records, and
    its display strings were saved with the wrong encoding: each emoji is
    the UTF-8 bytes of the intended one read back as Windows-1254. The
    display is modelled twice, as written and as intended. */
module DictContestScraper {
  import opened Wrappers
  import opened Text
  import opened Seqs
  import opened Dicts
  import opened Records
  import opened ContestTypes
  import opened Sorting
  import opened Encoding
  import CS = ContestScraper

  // ---------------------------------------------------------------------------
  // Reading the page

  /** `self.target_item and name.lower() == self.target_item.lower()`: the
      `and` yields its left operand when that is falsy, so the field holds
      None or "" when there is no target. */
  function TargetValue(target: Option<string>, name: string): (v: Value)
    ensures Truthy(v) <==> CS.IsTargetName(target, name)
  {
    match target
    case None => Null
    case Some(t) => if t == "" then Str("") else Bool(Lower(name) == Lower(t))
  }

  /** The record the older scraper builds for a contestant the typed
      scraper reads as `c`: the same rank, name and votes, and the raw
      target field. */
  function DictOf(c: ContestItem, target: Option<string>): (d: Record)
    ensures Keys(d) == ["rank", "name", "votes", "is_target"]
  {
    FieldNamesDistinct();
    GetFour("rank", Int(c.rank.GetOr(0)), "name", Str(c.name), "votes", Int(c.votes.GetOr(0)),
            "is_target", TargetValue(target, c.name));
    [("rank", Int(c.rank.GetOr(0))), ("name", Str(c.name)), ("votes", Int(c.votes.GetOr(0))),
     ("is_target", TargetValue(target, c.name))]
  }

  /** The fields of a scraped record. */
  lemma DictOfFields(c: ContestItem, target: Option<string>)
    ensures Get(DictOf(c, target), "rank") == Some(Int(c.rank.GetOr(0)))
    ensures Get(DictOf(c, target), "name") == Some(Str(c.name))
    ensures Get(DictOf(c, target), "votes") == Some(Int(c.votes.GetOr(0)))
    ensures Get(DictOf(c, target), "is_target") == Some(TargetValue(target, c.name))
  {
    FieldNamesDistinct();
    GetFour("rank", Int(c.rank.GetOr(0)), "name", Str(c.name), "votes", Int(c.votes.GetOr(0)),
            "is_target", TargetValue(target, c.name));
  }

  /** The records of the elements that parsed, in page order: each element
      gives the same rank, stripped name and votes as in the typed
      scraper. */
  function ParseAll(es: seq<Option<CS.Entry>>, target: Option<string>): (r: seq<Record>)
    ensures |r| == |CS.ParseAll(es, target)|
  {
    Map((c: ContestItem) => DictOf(c, target), CS.ParseAll(es, target))
  }

  /** A record and a typed item describing the same contestant: same name,
      rank and votes, and a target field whose truthiness is the item's
      target flag. */
  predicate Agrees(d: Record, c: ContestItem) {
    Get(d, "name") == Some(Str(c.name)) &&
    c.rank.Some? && Get(d, "rank") == Some(Int(c.rank.value)) &&
    c.votes.Some? && Get(d, "votes") == Some(Int(c.votes.value)) &&
    Get(d, "is_target").Some? && (Truthy(Get(d, "is_target").value) <==> c.isTarget)
  }

  /** The two scrapers read the same contestants off a page, one for one and
      in the same order, and the record's target field is truthy exactly
      when the typed item is marked. */
  lemma ParseAllAgrees(es: seq<Option<CS.Entry>>, target: Option<string>)
    ensures forall i :: 0 <= i < |ParseAll(es, target)| ==> Agrees(ParseAll(es, target)[i], CS.ParseAll(es, target)[i])
  {
    var cs := CS.ParseAll(es, target);
    CS.ParseAllMembers(es, target);
    forall i | 0 <= i < |cs|
      ensures Agrees(ParseAll(es, target)[i], cs[i])
    {
      assert cs[i] in cs;
      ItemAgrees(cs[i], target);
    }
  }

  /** A scraped item and its record agree. */
  lemma ItemAgrees(c: ContestItem, target: Option<string>)
    requires c.rank.Some? && c.votes.Some? && (c.isTarget <==> CS.IsTargetName(target, c.name))
    ensures Agrees(DictOf(c, target), c)
  {
    DictOfFields(c, target);
  }

  /** The sort key `itemgetter("rank")`; every scraped record has an int
      rank. */
  function RankOf(d: Record): int {
    var v := Get(d, "rank");
    if v.Some? && v.value.Int? then v.value.n else 0
  }

  /** `extract_data`: the parsed records sorted by rank, stably. */
  function Contestants(page: CS.Page, target: Option<string>): (r: seq<Record>)
    ensures SortedBy(r, RankOf)
    ensures page.NoResults? ==> r == []
    ensures page.Results? ==> multiset(r) == multiset(ParseAll(page.elements, target))
    ensures page.Results? ==> forall k :: WithKey(r, RankOf, k) == WithKey(ParseAll(page.elements, target), RankOf, k)
  {
    match page
    case NoResults => []
    case Results(es) =>
      forall k
        ensures WithKey(SortBy(ParseAll(es, target), RankOf), RankOf, k) == WithKey(ParseAll(es, target), RankOf, k)
      {
        SortByStable(ParseAll(es, target), RankOf, k);
      }
      SortBy(ParseAll(es, target), RankOf)
  }

  /** Both scrapers key a contestant alike. */
  lemma KeysAgree(c: ContestItem, target: Option<string>)
    ensures CS.DictKey(DictOf(c, target)) == Some(CS.ItemKey(c))
  {
    DictOfFields(c, target);
  }

  // ---------------------------------------------------------------------------
  // Display as written

  /** The emoji literals as they stand in the file. */
  const GoldAsWritten: string := "\U{011F}\U{0178}\U{00A5}\U{2021}"
  const SilverAsWritten: string := "\U{011F}\U{0178}\U{00A5}\U{02C6}"
  const BronzeAsWritten: string := "\U{011F}\U{0178}\U{00A5}\U{2030}"
  const BadgeAsWritten: string := "\U{011F}\U{0178}\U{2026}"
  const TargetMarkAsWritten: string := " \U{011F}\U{0178}\U{00AF}"

  /** `_get_rank_emoji` as written. */
  function RankEmojiAsWritten(rank: Value): string {
    if PyEq(rank, Int(1)) then GoldAsWritten
    else if PyEq(rank, Int(2)) then SilverAsWritten
    else if PyEq(rank, Int(3)) then BronzeAsWritten
    else BadgeAsWritten
  }

  /** `format_item` as written: `item["rank"]`, `item["name"]` and
      `item["votes"]` raise when missing (None here), and the marker
      follows the truthiness of `item.get("is_target")`. */
  function FormatAsWritten(d: Record): (r: Option<string>)
    ensures r.Some? <==> "rank" in Keys(d) && "name" in Keys(d) && "votes" in Keys(d)
  {
    var rank, name, votes := Get(d, "rank"), Get(d, "name"), Get(d, "votes");
    if rank.Some? && name.Some? && votes.Some? then
      Some(CS.Line(RankEmojiAsWritten(rank.value), Show(rank.value), Show(name.value), Show(votes.value),
                   if Marked(d) then TargetMarkAsWritten else ""))
    else None
  }

  /** The truthiness of `item.get("is_target")`. */
  predicate Marked(d: Record) {
    Get(d, "is_target").Some? && Truthy(Get(d, "is_target").value)
  }

  /** The literals are the intended emoji, encoded as UTF-8 and read back
      as Windows-1254 (the byte 0x8F of the badge and 0x8E of the target
      mark have no Windows-1254 character and are lost). */
  lemma MisreadGold()
    ensures GoldAsWritten == Misread(CS.Gold) && GoldAsWritten != CS.Gold
  {
    assert CS.Gold == ['\U{1F947}'];
    MisreadFour('\U{1F947}', 0xF0, 0x9F, 0xA5, 0x87);
    assert DecodeByte(0xF0) == "\U{011F}" && DecodeByte(0x9F) == "\U{0178}";
    assert DecodeByte(0xA5) == "\U{00A5}" && DecodeByte(0x87) == "\U{2021}";
  }

  lemma MisreadSilver()
    ensures SilverAsWritten == Misread(CS.Silver) && SilverAsWritten != CS.Silver
  {
    assert CS.Silver == ['\U{1F948}'];
    MisreadFour('\U{1F948}', 0xF0, 0x9F, 0xA5, 0x88);
    assert DecodeByte(0xF0) == "\U{011F}" && DecodeByte(0x9F) == "\U{0178}";
    assert DecodeByte(0xA5) == "\U{00A5}" && DecodeByte(0x88) == "\U{02C6}";
  }

  lemma MisreadBronze()
    ensures BronzeAsWritten == Misread(CS.Bronze) && BronzeAsWritten != CS.Bronze
  {
    assert CS.Bronze == ['\U{1F949}'];
    MisreadFour('\U{1F949}', 0xF0, 0x9F, 0xA5, 0x89);
    assert DecodeByte(0xF0) == "\U{011F}" && DecodeByte(0x9F) == "\U{0178}";
    assert DecodeByte(0xA5) == "\U{00A5}" && DecodeByte(0x89) == "\U{2030}";
  }

  lemma MisreadBadge()
    ensures BadgeAsWritten == Misread(CS.Badge) && BadgeAsWritten != CS.Badge
  {
    assert CS.Badge == ['\U{1F3C5}'];
    MisreadFour('\U{1F3C5}', 0xF0, 0x9F, 0x8F, 0x85);
    assert DecodeByte(0xF0) == "\U{011F}" && DecodeByte(0x9F) == "\U{0178}";
    assert DecodeByte(0x8F) == "" && DecodeByte(0x85) == "\U{2026}";
  }

  lemma MisreadTargetMark()
    ensures TargetMarkAsWritten == Misread(CS.TargetMark) && TargetMarkAsWritten != CS.TargetMark
  {
    assert CS.TargetMark == [' '] + ['\U{1F3AF}'];
    MisreadAscii(' ', ['\U{1F3AF}']);
    MisreadDart();
    assert TargetMarkAsWritten == [' '] + "\U{011F}\U{0178}\U{00AF}";
  }

  /** The dart of the target mark loses its third byte, 0x8E. */
  lemma MisreadDart()
    ensures Misread(['\U{1F3AF}']) == "\U{011F}\U{0178}\U{00AF}"
  {
    MisreadFour('\U{1F3AF}', 0xF0, 0x9F, 0x8E, 0xAF);
    assert DecodeByte(0xF0) == "\U{011F}" && DecodeByte(0x9F) == "\U{0178}";
    assert DecodeByte(0x8E) == "" && DecodeByte(0xAF) == "\U{00AF}";
  }

  /** Every line the file's `format_item` produces starts with a misread
      emoji instead of the intended one. */
  lemma FormatAsWrittenGarbled(d: Record)
    requires FormatAsWritten(d).Some?
    ensures FormatAsWritten(d) != FormatCorrected(d)
    ensures FormatAsWritten(d).value[0] == '\U{011F}'
  {
    var rank := Get(d, "rank").value;
    var name, votes := Show(Get(d, "name").value), Show(Get(d, "votes").value);
    var written, intended := RankEmojiAsWritten(rank), CS.RankEmoji(rank);
    EmojiHeads(rank);
    LineHead(written, Show(rank), name, votes, if Marked(d) then TargetMarkAsWritten else "");
    LineHead(intended, Show(rank), name, votes, if Marked(d) then CS.TargetMark else "");
  }

  /** Every misread emoji starts with the same letter, which no intended
      emoji starts with. */
  lemma EmojiHeads(rank: Value)
    ensures |RankEmojiAsWritten(rank)| > 0 && RankEmojiAsWritten(rank)[0] == '\U{011F}'
    ensures |CS.RankEmoji(rank)| > 0 && CS.RankEmoji(rank)[0] != '\U{011F}'
  {
    CS.EmojiDistinct();
  }

  /** A display line starts with its emoji. */
  lemma LineHead(emoji: string, rank: string, name: string, votes: string, marker: string)
    requires |emoji| > 0
    ensures CS.Line(emoji, rank, name, votes, marker)[0] == emoji[0]
  {
    assert CS.Line(emoji, rank, name, votes, marker) == emoji + (" " + rank + ". <b>" + name + "</b> (" + votes + " votes" + marker + ")");
  }

  // ---------------------------------------------------------------------------
  // Display as intended

  /** `format_item` with the intended emoji. */
  function FormatCorrected(d: Record): (r: Option<string>)
    ensures r.Some? <==> "rank" in Keys(d) && "name" in Keys(d) && "votes" in Keys(d)
  {
    var rank, name, votes := Get(d, "rank"), Get(d, "name"), Get(d, "votes");
    if rank.Some? && name.Some? && votes.Some? then
      Some(CS.Line(CS.RankEmoji(rank.value), Show(rank.value), Show(name.value), Show(votes.value),
                   if Marked(d) then CS.TargetMark else ""))
    else None
  }

  /** Corrected, the older scraper shows every contestant exactly as the
      typed scraper does. */
  lemma FormatCorrectedAgrees(e: CS.Entry, target: Option<string>)
    ensures FormatCorrected(DictOf(CS.ItemOf(e, target), target)) == Some(CS.FormatItem(CS.ItemOf(e, target)))
  {
    var c := CS.ItemOf(e, target);
    var d := DictOf(c, target);
    ItemAgrees(c, target);
    CorrectedFields(d, e.rank, c.name, e.votes);
    assert Marked(d) == c.isTarget;
  }

  /** `FormatCorrected` on a record with an int rank, a text name and an int
      vote count. */
  lemma CorrectedFields(d: Record, rank: int, name: string, votes: int)
    requires Get(d, "rank") == Some(Int(rank)) && Get(d, "name") == Some(Str(name))
    requires Get(d, "votes") == Some(Int(votes))
    ensures FormatCorrected(d) == Some(CS.Line(CS.RankEmoji(Int(rank)), IntToStr(rank), name, IntToStr(votes),
                                               if Marked(d) then CS.TargetMark else ""))
  {
  }
}

=== FILE: dicts.dfy ===
/** Python dicts as association lists. A dict's iteration order is the order
    in which its keys were first inserted, so the model keeps the pairs in a
    sequence rather than in a Dafny `map`. */
module Dicts {
  import opened Wrappers
  import opened Seqs

  type Dict<K, V> = seq<(K, V)>

  /** `list(d.keys())`. */
  function Keys<K, V>(d: Dict<K, V>): (ks: seq<K>)
    ensures |ks| == |d|
    ensures forall i :: 0 <= i < |d| ==> ks[i] == d[i].0
    decreases |d|
  {
    if |d| == 0 then [] else [d[0].0] + Keys(d[1..])
  }

  /** `list(d.values())`. */
  function Values<K, V>(d: Dict<K, V>): (vs: seq<V>)
    ensures |vs| == |d|
    ensures forall i :: 0 <= i < |d| ==> vs[i] == d[i].1
  {
    seq(|d|, i requires 0 <= i < |d| => d[i].1)
  }

  predicate Distinct<K(==)>(ks: seq<K>) {
    forall i, j :: 0 <= i < j < |ks| ==> ks[i] != ks[j]
  }

  /** A well-formed dict: no key twice. */
  predicate IsDict<K(==), V>(d: Dict<K, V>) {
    Distinct(Keys(d))
  }

  /** `d.get(k)`: the value stored under `k`, or None. */
  function Get<K(==), V>(d: Dict<K, V>, k: K): (r: Option<V>)
    ensures r.None? <==> k !in Keys(d)
    ensures r.Some? ==> (k, r.value) in d
    decreases |d|
  {
    if |d| == 0 then None
    else if d[0].0 == k then Some(d[0].1)
    else Get(d[1..], k)
  }

  /** In a well-formed dict every pair is what `get` finds under its key. */
  lemma {:induction false} GetAt<K, V>(d: Dict<K, V>, i: nat)
    requires IsDict(d) && i < |d|
    ensures Get(d, d[i].0) == Some(d[i].1)
    decreases i
  {
    if i > 0 {
      assert Keys(d[1..]) == Keys(d)[1..];
      GetAt(d[1..], i - 1);
    }
  }

  /** `d[k] = v`: an existing key keeps its position and takes the new value;
      a new key goes to the end. */
  function Put<K(==), V>(d: Dict<K, V>, k: K, v: V): (r: Dict<K, V>)
    ensures k in Keys(d) ==> Keys(r) == Keys(d)
    ensures k !in Keys(d) ==> Keys(r) == Keys(d) + [k]
    ensures Get(r, k) == Some(v)
    decreases |d|
  {
    if |d| == 0 then [(k, v)]
    else if d[0].0 == k then
      assert ([(k, v)] + d[1..])[1..] == d[1..];
      [(k, v)] + d[1..]
    else
      var rest := Put(d[1..], k, v);
      PutBehind(d, k, v, rest);
      [d[0]] + rest
  }

  /** The step of `Put` past a first entry with another key. */
  lemma PutBehind<K, V>(d: Dict<K, V>, k: K, v: V, rest: Dict<K, V>)
    requires |d| > 0 && d[0].0 != k
    requires k in Keys(d[1..]) ==> Keys(rest) == Keys(d[1..])
    requires k !in Keys(d[1..]) ==> Keys(rest) == Keys(d[1..]) + [k]
    requires Get(rest, k) == Some(v)
    ensures k in Keys(d) ==> Keys([d[0]] + rest) == Keys(d)
    ensures k !in Keys(d) ==> Keys([d[0]] + rest) == Keys(d) + [k]
    ensures Get([d[0]] + rest, k) == Some(v)
  {
    var r := [d[0]] + rest;
    assert r[1..] == rest;
    assert Keys(r) == [d[0].0] + Keys(rest) && Keys(d) == [d[0].0] + Keys(d[1..]);
  }

  /** Storing under one key leaves every other key's entry alone. */
  lemma {:induction false} PutOther<K, V>(d: Dict<K, V>, k: K, v: V, k': K)
    requires k' != k
    ensures Get(Put(d, k, v), k') == Get(d, k')
    decreases |d|
  {
    if |d| > 0 && d[0].0 != k {
      PutOther(d[1..], k, v, k');
      assert ([d[0]] + Put(d[1..], k, v))[1..] == Put(d[1..], k, v);
    } else if |d| > 0 {
      assert ([(k, v)] + d[1..])[1..] == d[1..];
    }
  }

  /** Every entry after storing is the stored pair or an entry from before. */
  lemma {:induction false} PutEntries<K, V>(d: Dict<K, V>, k: K, v: V)
    ensures forall i :: 0 <= i < |Put(d, k, v)| ==> Put(d, k, v)[i] == (k, v) || Put(d, k, v)[i] in d
    decreases |d|
  {
    if |d| > 0 && d[0].0 != k {
      PutEntries(d[1..], k, v);
    }
  }

  /** Keeping the entries whose key satisfies `q` keeps exactly those keys,
      in order. */
  lemma {:induction false} FilterKeys<K, V>(d: Dict<K, V>, p: ((K, V)) -> bool, q: K -> bool)
    requires forall i :: 0 <= i < |d| ==> p(d[i]) == q(d[i].0)
    ensures Keys(Filter(d, p)) == Filter(Keys(d), q)
    decreases |d|
  {
    if |d| > 0 {
      FilterKeys(d[1..], p, q);
      var head := if p(d[0]) then [d[0]] else [];
      assert Filter(d, p) == head + Filter(d[1..], p);
      KeysConcat(head, Filter(d[1..], p));
    }
  }

  lemma {:induction false} KeysConcat<K, V>(a: Dict<K, V>, b: Dict<K, V>)
    ensures Keys(a + b) == Keys(a) + Keys(b)
    decreases |a|
  {
    if |a| > 0 {
      assert (a + b)[1..] == a[1..] + b;
      KeysConcat(a[1..], b);
    } else {
      assert a + b == b;
    }
  }

  /** Storing under a key keeps a dict a dict. */
  lemma PutKeepsDict<K, V>(d: Dict<K, V>, k: K, v: V)
    requires IsDict(d)
    ensures IsDict(Put(d, k, v))
  {
  }

  /** Python dict equality: the same keys with the same values, in any order. */
  ghost predicate SameDict<K(!new), V>(a: Dict<K, V>, b: Dict<K, V>) {
    forall k :: Get(a, k) == Get(b, k)
  }
  /** Looking up the fields of a four-field dict display `{k0: v0, ..., k3: v3}`. */
  lemma GetFour<K, V>(k0: K, v0: V, k1: K, v1: V, k2: K, v2: V, k3: K, v3: V)
    requires k0 != k1 && k0 != k2 && k0 != k3 && k1 != k2 && k1 != k3 && k2 != k3
    ensures Keys([(k0, v0), (k1, v1), (k2, v2), (k3, v3)]) == [k0, k1, k2, k3]
    ensures IsDict([(k0, v0), (k1, v1), (k2, v2), (k3, v3)])
    ensures Get([(k0, v0), (k1, v1), (k2, v2), (k3, v3)], k0) == Some(v0)
    ensures Get([(k0, v0), (k1, v1), (k2, v2), (k3, v3)], k1) == Some(v1)
    ensures Get([(k0, v0), (k1, v1), (k2, v2), (k3, v3)], k2) == Some(v2)
    ensures Get([(k0, v0), (k1, v1), (k2, v2), (k3, v3)], k3) == Some(v3)
  {
    var d := [(k0, v0), (k1, v1), (k2, v2), (k3, v3)];
    var d1, d2, d3 := d[1..], d[2..], d[3..];
    assert d1[1..] == d2 && d2[1..] == d3 && d3[1..] == [];
    assert Get(d3, k3) == Some(v3);
    assert Get(d2, k3) == Get(d3, k3);
    assert Get(d2, k2) == Some(v2);
    assert Get(d1, k3) == Get(d2, k3);
    assert Get(d1, k2) == Get(d2, k2);
    assert Get(d1, k1) == Some(v1);
  }
}

=== FILE: encoding.dfy ===
/** Two character encodings, enough to explain text that was saved as UTF-8
    and read back as Windows-1254 (Turkish): UTF-8 encoding of a code
    point, and Windows-1254 decoding of bytes, where the bytes the code
    page leaves unassigned are dropped. */
module Encoding {

  /** A byte value. */
  type Byte = b: int | 0 <= b < 256

  /** The UTF-8 encoding of one character. */
  function Utf8(c: char): (bs: seq<Byte>)
    ensures 1 <= |bs| <= 4
    ensures c as int < 0x80 <==> |bs| == 1
  {
    var n := c as int;
    if n < 0x80 then [n]
    else if n < 0x800 then [0xC0 + n / 0x40, 0x80 + n % 0x40]
    else if n < 0x1_0000 then [0xE0 + n / 0x1000, 0x80 + (n / 0x40) % 0x40, 0x80 + n % 0x40]
    else [0xF0 + n / 0x4_0000, 0x80 + (n / 0x1000) % 0x40, 0x80 + (n / 0x40) % 0x40, 0x80 + n % 0x40]
  }

  /** The UTF-8 encoding of a string. */
  function Utf8String(s: string): seq<Byte>
    decreases |s|
  {
    if |s| == 0 then [] else Utf8(s[0]) + Utf8String(s[1..])
  }

  /** The character Windows-1254 assigns to a byte, if any: ASCII below
      0x80, Latin-1 above 0x9F except six Turkish letters, and a table of
      punctuation and letters in between. */
  function Cp1254(b: Byte): (c: char)
    requires Cp1254Assigned(b)
  {
    if b < 0x80 then b as char
    else if b >= 0xA0 then
      if b == 0xD0 then '\U{011E}'
      else if b == 0xDD then '\U{0130}'
      else if b == 0xDE then '\U{015E}'
      else if b == 0xF0 then '\U{011F}'
      else if b == 0xFD then '\U{0131}'
      else if b == 0xFE then '\U{015F}'
      else b as char
    else
      [ '\U{20AC}', ' ', '\U{201A}', '\U{0192}', '\U{201E}', '\U{2026}', '\U{2020}', '\U{2021}',
        '\U{02C6}', '\U{2030}', '\U{0160}', '\U{2039}', '\U{0152}', ' ', ' ', ' ',
        ' ', '\U{2018}', '\U{2019}', '\U{201C}', '\U{201D}', '\U{2022}', '\U{2013}', '\U{2014}',
        '\U{02DC}', '\U{2122}', '\U{0161}', '\U{203A}', '\U{0153}', ' ', ' ', '\U{0178}' ][b - 0x80]
  }

  /** Windows-1254 leaves 0x81, 0x8D, 0x8E, 0x8F, 0x90, 0x9D and 0x9E
      without a character. */
  predicate Cp1254Assigned(b: Byte) {
    b != 0x81 && b != 0x8D && b != 0x8E && b != 0x8F && b != 0x90 && b != 0x9D && b != 0x9E
  }

  /** Bytes read as Windows-1254, unassigned bytes dropped. */
  function Cp1254Decode(bs: seq<Byte>): (s: string)
    ensures |s| <= |bs|
    decreases |bs|
  {
    if |bs| == 0 then ""
    else DecodeByte(bs[0]) + Cp1254Decode(bs[1..])
  }

  /** One byte read as Windows-1254: its character, or nothing. */
  function DecodeByte(b: Byte): (s: string)
    ensures |s| <= 1
  {
    if Cp1254Assigned(b) then [Cp1254(b)] else []
  }

  /** Text written as UTF-8 and read back as Windows-1254. */
  function Misread(s: string): string {
    Cp1254Decode(Utf8String(s))
  }

  /** A character outside the Basic Multilingual Plane never survives the
      misreading: its first byte is 0xF0-0xF4 and decodes to a character
      inside that plane. */
  lemma MisreadChangesEmoji(c: char)
    requires c as int >= 0x1_0000
    ensures Misread([c]) != [c]
  {
    var bs := Utf8(c);
    assert Utf8String([c]) == bs + Utf8String([]);
    assert bs[0] == 0xF0 + c as int / 0x4_0000;
    assert 0xF0 <= bs[0] <= 0xF4;
    assert Cp1254Assigned(bs[0]);
    assert Misread([c])[0] == Cp1254(bs[0]);
    assert (Cp1254(bs[0]) as int) < 0x1_0000;
  }

  /** An ASCII character in front survives the misreading unchanged. */
  lemma MisreadAscii(c: char, s: string)
    requires (c as int) < 0x80
    ensures Misread([c] + s) == [c] + Misread(s)
  {
    assert ([c] + s)[1..] == s;
    var bs := Utf8String([c] + s);
    assert bs == [c as int] + Utf8String(s);
    assert bs[1..] == Utf8String(s);
    assert DecodeByte(c as int) == [c];
  }

  /** A character of four UTF-8 bytes is misread byte by byte. */
  lemma MisreadFour(c: char, b0: Byte, b1: Byte, b2: Byte, b3: Byte)
    requires Utf8(c) == [b0, b1, b2, b3]
    ensures Misread([c]) == DecodeByte(b0) + DecodeByte(b1) + DecodeByte(b2) + DecodeByte(b3)
  {
    assert Utf8String([c]) == Utf8(c) + Utf8String([]);
    var bs: seq<Byte> := [b0, b1, b2, b3];
    assert Utf8String([c]) == bs;
    assert bs[1..] == [b1, b2, b3] && bs[2..] == [b2, b3] && bs[3..] == [b3];
    assert Cp1254Decode([b3]) == DecodeByte(b3) + Cp1254Decode([]);
    assert Cp1254Decode([b2, b3]) == DecodeByte(b2) + Cp1254Decode([b3]);
    assert Cp1254Decode([b1, b2, b3]) == DecodeByte(b1) + Cp1254Decode([b2, b3]);
    assert Cp1254Decode(bs) == DecodeByte(b0) + Cp1254Decode([b1, b2, b3]);
  }
}

=== FILE: generic_formatter.dfy ===
/** The older generic formatter (`Formatter` in formatter.py): the same
    HTML alert as the contest formatter, but over `(old_item, new_item,
    changes)` triples, with a rankings window that grows to `max_items`
    around the target and competitors measured against the target's new
    rank. */
module GenericFormatter {
  import opened Wrappers
  import opened Text
  import opened Seqs
  import opened Dicts
  import opened Records
  import opened Types
  import opened Render

  /** The scraper's `format_item` and `target_item`, and `max_results`. */
  datatype Formatter = Formatter(fmt: Record -> string, target: Option<string>, maxResults: nat)

  /** The constructor's default `max_results`. */
  const DefaultMaxResults: nat := 5

  /** The `max_items` the rankings section asks the focused view for. */
  const RankingsWindow: nat := 5

  /** How many places on each side of the target the view always tries to
      show. */
  const Context: nat := 2

  /** `"name" in item and target in item["name"].lower()`. */
  predicate IsTarget(f: Formatter, r: Record) {
    HasTarget(f.target) && NameMatches(r, Lower(f.target.value))
  }

  predicate Readable(r: Record) {
    NameIsText(r) && RankIsNumber(r)
  }

  predicate AllReadable(items: seq<Record>) {
    forall i :: 0 <= i < |items| ==> Readable(items[i])
  }

  /** `.lower()` on the new item's name and the rank comparisons succeed. */
  predicate TriplesReadable(changed: seq<ChangeTriple>) {
    forall i :: 0 <= i < |changed| ==> RankIsNumber(changed[i].oldItem) && Readable(changed[i].newItem)
  }

  /** Position `j` lies in the slice `[b.0, b.1)`. */
  predicate Within(b: (int, int), j: int) {
    b.0 <= j < b.1
  }

  function TargetIndex(f: Formatter, items: seq<Record>): Option<nat> {
    FirstIndex(items, (r: Record) => IsTarget(f, r))
  }

  function Max(a: int, b: int): int {
    if a >= b then a else b
  }

  // ---------------------------------------------------------------------------
  // The focused rankings view

  /** The slice `_get_focused_rankings` returns, as (start, end): two places
      either side of the target, then, while the view is shorter than
      `maxItems`, more places above and then more below. */
  function FocusBounds(f: Formatter, items: seq<Record>, maxItems: nat): (b: (int, int))
    requires AllReadable(items)
    ensures 0 <= b.0 <= b.1 <= |items|
    ensures TargetIndex(f, items).None? ==> b == (0, Min(maxItems, |items|))
    ensures TargetIndex(f, items).Some? ==>
              var t := TargetIndex(f, items).value;
              b.0 <= t < b.1 &&
              (forall j :: 0 <= j < |items| && t - Context <= j <= t + Context ==> Within(b, j)) &&
              Min(maxItems, |items|) <= b.1 - b.0 <= Max(maxItems, 2 * Context + 1) &&
              (b.0 > 0 ==> b.1 <= t + Context + 1)
  {
    if !HasTarget(f.target) then (0, Min(maxItems, |items|))
    else
      match TargetIndex(f, items)
      case None => (0, Min(maxItems, |items|))
      case Some(t) =>
        var above := Min(2, t);
        var below := Min(2, |items| - t - 1);
        var total := above + 1 + below;
        if total < maxItems then
          var extraAbove := Min(maxItems - total, t - above);
          var above' := above + extraAbove;
          var total' := total + extraAbove;
          if total' < maxItems then
            var extraBelow := Min(maxItems - total', |items| - t - 1 - below);
            (t - above', t + below + extraBelow + 1)
          else (t - above', t + below + 1)
        else (t - above, t + below + 1)
  }

  /** `_get_focused_rankings(items, max_items)`. */
  function FocusedRankings(f: Formatter, items: seq<Record>, maxItems: nat): seq<Record>
    requires AllReadable(items)
  {
    var b := FocusBounds(f, items, maxItems);
    items[b.0..b.1]
  }

  /** The view shows the tracked contestant, or the top records when no
      record names it. */
  lemma FocusedRankingsShowTarget(f: Formatter, items: seq<Record>, maxItems: nat)
    requires AllReadable(items)
    ensures TargetIndex(f, items).None? ==> FocusedRankings(f, items, maxItems) == Take(items, maxItems)
    ensures TargetIndex(f, items).Some? ==> items[TargetIndex(f, items).value] in FocusedRankings(f, items, maxItems)
  {
    var b := FocusBounds(f, items, maxItems);
    if TargetIndex(f, items).Some? {
      var t := TargetIndex(f, items).value;
      assert FocusedRankings(f, items, maxItems)[t - b.0] == items[t];
    }
  }

  // ---------------------------------------------------------------------------
  // The focused changes

  predicate IsTargetChange(f: Formatter, c: ChangeTriple) {
    IsTarget(f, c.newItem)
  }

  /** A competitor that moved to or above the target's new rank: it now
      ranks at or above it and was either unranked before or ranked below
      it. */
  predicate Threatens(c: ChangeTriple, targetNew: Option<int>) {
    RankIsNumber(c.oldItem) && RankIsNumber(c.newItem) &&
    (var before, after := Rank(c.oldItem), Rank(c.newItem);
     TruthyNum(after) && TruthyNum(targetNew) && after.value <= targetNew.value &&
     (before.None? || (TruthyNum(before) && before.value > targetNew.value)))
  }

  predicate Competitor(f: Formatter, targetNew: Option<int>, c: ChangeTriple) {
    !IsTargetChange(f, c) && Threatens(c, targetNew)
  }

  /** The competitor test of the second loop, for a target now ranked
      `targetNew`. */
  function CompetitorTest(f: Formatter, targetNew: Option<int>): ChangeTriple -> bool {
    (c: ChangeTriple) => Competitor(f, targetNew, c)
  }

  /** `_get_focused_changes(changed_items)`: the target's change, then the
      competitors; nothing when the target did not change, and the target
      alone when it had no rank before. */
  function FocusedChanges(f: Formatter, changed: seq<ChangeTriple>): seq<ChangeTriple>
    requires TriplesReadable(changed)
  {
    if !HasTarget(f.target) then Take(changed, f.maxResults)
    else
      match FirstIndex(changed, (c: ChangeTriple) => IsTargetChange(f, c))
      case None => []
      case Some(i) =>
        var t := changed[i];
        if Rank(t.oldItem).None? then [t]
        else [t] + Filter(changed, CompetitorTest(f, Rank(t.newItem)))
  }

  /** With a target, the focused changes are empty when the target did not
      change; otherwise they start with the target's first change, hold no
      other change naming the target, and hold exactly those other changes
      that threaten the target's new rank, in their order and once each,
      unless the target had no rank before, when they hold the target
      alone. */
  lemma FocusedChangesSpec(f: Formatter, changed: seq<ChangeTriple>)
    requires TriplesReadable(changed)
    requires HasTarget(f.target)
    ensures var r := FocusedChanges(f, changed);
            (forall c :: c in r ==> c in changed) &&
            (|r| == 0 <==> forall i :: 0 <= i < |changed| ==> !IsTargetChange(f, changed[i])) &&
            (forall i :: 1 <= i < |r| ==> !IsTargetChange(f, r[i]))
    ensures var r := FocusedChanges(f, changed);
            |r| > 0 ==>
              IsTargetChange(f, r[0]) &&
              (exists i :: 0 <= i < |changed| && r[0] == changed[i] &&
                 forall j :: 0 <= j < i ==> !IsTargetChange(f, changed[j])) &&
              (Rank(r[0].oldItem).None? ==> |r| == 1) &&
              (Rank(r[0].oldItem).Some? ==>
                 forall c :: c in changed && !IsTargetChange(f, c) ==>
                   (c in r <==> Threatens(c, Rank(r[0].newItem))))
    ensures var r := FocusedChanges(f, changed);
            |r| > 0 && Rank(r[0].oldItem).Some? ==> Selects(r[1..], changed, CompetitorTest(f, Rank(r[0].newItem)))
  {
    var q := (c: ChangeTriple) => IsTargetChange(f, c);
    var r := FocusedChanges(f, changed);
    match FirstIndex(changed, q)
    case None =>
    case Some(i) =>
      var t := changed[i];
      assert q(t);
      if Rank(t.oldItem).Some? {
        var p := CompetitorTest(f, Rank(t.newItem));
        var rest := Filter(changed, p);
        assert r == [t] + rest;
        FilterMembers(changed, p);
        FilterSelects(changed, p);
        assert r[1..] == rest;
        forall c | c in r
          ensures c in changed
        {
          FilterIn(changed, p, c);
        }
        forall c | c in changed && !IsTargetChange(f, c)
          ensures c in r <==> Threatens(c, Rank(r[0].newItem))
        {
          FilterIn(changed, p, c);
        }
      }
  }

  // ---------------------------------------------------------------------------
  // Sections and the message

  /** The lines under one changed item: its bullet, then one line per
      changed field, in the changes' order. */
  function TripleEntry(f: Formatter, c: ChangeTriple): seq<string> {
    [Bullet + f.fmt(c.newItem)] +
    Map((e: (string, (string, string))) => FieldLine(e.0, e.1.0, e.1.1), c.changes)
  }

  /** The entries of some changes, one per change, in their order. */
  function Entries(f: Formatter, cs: seq<ChangeTriple>): (r: seq<seq<string>>)
    ensures |r| == |cs| && forall i :: 0 <= i < |cs| ==> r[i] == TripleEntry(f, cs[i])
  {
    Map((c: ChangeTriple) => TripleEntry(f, c), cs)
  }

  /** The lines of the changed section under its header: each shown change's
      entry in turn. */
  function ChangedLines(f: Formatter, shown: seq<ChangeTriple>): (ls: seq<string>)
    ensures |shown| == 0 ==> ls == []
  {
    Flatten(Entries(f, shown))
  }

  /** The changes the changed section lists. */
  function ShownChanges(f: Formatter, changed: seq<ChangeTriple>): seq<ChangeTriple>
    requires TriplesReadable(changed)
  {
    if HasTarget(f.target) then FocusedChanges(f, changed) else Take(changed, f.maxResults)
  }

  /** `_format_changed_items`: "" when nothing is worth showing. */
  function ChangedSection(f: Formatter, changed: seq<ChangeTriple>): (s: string)
    requires TriplesReadable(changed)
    ensures NotSentence(s)
    ensures s == "" <==> |ShownChanges(f, changed)| == 0
  {
    var shown := ShownChanges(f, changed);
    if |shown| == 0 then ""
    else
      var h := KeyChangesHeader(|shown|);
      HeadersTagged(0, |shown|);
      SectionHeader(h, ChangedLines(f, shown), "");
      Block([h] + ChangedLines(f, shown))
  }

  /** A non-empty changed section opens with the key-change header. */
  lemma ChangedSectionHeader(f: Formatter, changed: seq<ChangeTriple>)
    requires TriplesReadable(changed) && |ShownChanges(f, changed)| > 0
    ensures StartsWith(ChangedSection(f, changed), KeyChangesHeader(|ShownChanges(f, changed)|))
    ensures Contains(ChangedSection(f, changed), KeyChange)
  {
    var shown := ShownChanges(f, changed);
    HeadersTagged(0, |shown|);
    SectionHeader(KeyChangesHeader(|shown|), ChangedLines(f, shown), KeyChange);
  }

  /** A change's entry: its bullet line with the displayed new item, then
      one line per changed field, in the order of its changes. */
  lemma EntryLines(f: Formatter, c: ChangeTriple)
    ensures var e, fs := TripleEntry(f, c), c.changes;
            |e| == 1 + |fs| && e[0] == Bullet + f.fmt(c.newItem) &&
            forall k :: 0 <= k < |fs| ==> e[1 + k] == FieldLine(fs[k].0, fs[k].1.0, fs[k].1.1)
  {
  }

  /** The `j`-th shown change is listed right after the lines of the changes
      before it, as its entry (`EntryLines`). */
  lemma ChangedEntryAt(f: Formatter, shown: seq<ChangeTriple>, j: nat)
    requires j < |shown|
    ensures var ls, o, e := ChangedLines(f, shown), |ChangedLines(f, shown[..j])|, TripleEntry(f, shown[j]);
            o + |e| <= |ls| && ls[o..o + |e|] == e
  {
    var es := Entries(f, shown);
    assert Entries(f, shown[..j]) == es[..j];
    FlattenAt(es, j);
  }

  /** When the shown changes' lines are visible, a non-empty changed section
      splits into the key-change header counting them and their lines. */
  lemma ChangedSectionLines(f: Formatter, changed: seq<ChangeTriple>)
    requires TriplesReadable(changed)
    requires var shown := ShownChanges(f, changed);
             forall i :: 0 <= i < |shown| ==> AllVisible(TripleEntry(f, shown[i]))
    ensures var shown := ShownChanges(f, changed);
            |shown| > 0 ==>
              Split(ChangedSection(f, changed), '\n') == [KeyChangesHeader(|shown|)] + ChangedLines(f, shown)
  {
    var shown := ShownChanges(f, changed);
    if |shown| > 0 {
      FlattenVisible(Entries(f, shown));
      KeyChangesHeaderVisible(|shown|);
      HeaderAndLines(KeyChangesHeader(|shown|), ChangedLines(f, shown));
    }
  }

  /** `_format_current_rankings`. */
  function RankingsSection(f: Formatter, current: seq<Record>): (s: string)
    requires AllReadable(current)
    ensures NotSentence(s)
  {
    var n := |current|;
    if HasTarget(f.target) then
      var shown := FocusedRankings(f, current, RankingsWindow);
      var header := if |shown| < n then PartialRankingsHeader(|shown|, n) else RankingsHeader(n);
      var ls := Bullets(shown, f.fmt);
      HeadersTagged(|shown|, n);
      SectionHeader(header, ls, "");
      Block([header] + ls)
    else
      var shown := Take(current, f.maxResults);
      var ls := Bullets(shown, f.fmt) + (if |shown| < n then [More(n - |shown|)] else []);
      HeadersTagged(0, n);
      SectionHeader(RankingsHeader(n), ls, "");
      Block([RankingsHeader(n)] + ls)
  }

  /** Without a target the rankings section of an alert is the full
      rankings listing. */
  lemma RankingsWithoutTarget(f: Formatter, current: seq<Record>)
    requires AllReadable(current) && !HasTarget(f.target)
    ensures RankingsSection(f, current) == FullRankings(current, f.maxResults, f.fmt)
  {
    var shown := Take(current, f.maxResults);
    var n := |current|;
    assert |shown| < n <==> n > f.maxResults;
    assert ListLines(current, f.maxResults, f.fmt) == Bullets(shown, f.fmt) + (if |shown| < n then [More(n - |shown|)] else []);
    assert [RankingsHeader(n)] + Bullets(shown, f.fmt) + (if |shown| < n then [More(n - |shown|)] else [])
        == [RankingsHeader(n)] + ListLines(current, f.maxResults, f.fmt);
  }

  /** With a target the rankings section lists the whole focused view,
      under a header that says how many of all the records it shows, and
      never ends with a trailer. */
  lemma RankingsWithTarget(f: Formatter, current: seq<Record>)
    requires AllReadable(current) && HasTarget(f.target) && ShowsVisibly(current, f.fmt)
    ensures var shown := FocusedRankings(f, current, RankingsWindow);
            Split(RankingsSection(f, current), '\n') ==
              [if |shown| < |current| then PartialRankingsHeader(|shown|, |current|) else RankingsHeader(|current|)] +
              Bullets(shown, f.fmt)
  {
    var shown := FocusedRankings(f, current, RankingsWindow);
    var b := FocusBounds(f, current, RankingsWindow);
    forall i | 0 <= i < |shown|
      ensures Visible(f.fmt(shown[i]))
    {
      assert shown[i] == current[b.0 + i];
    }
    RankingsHeadersVisible(|shown|, |current|);
    var header := if |shown| < |current| then PartialRankingsHeader(|shown|, |current|) else RankingsHeader(|current|);
    BulletSectionLines(header, shown, f.fmt);
  }

  /** `format_changes_message(new_items, removed_items, changed_items,
      current_items)`. */
  function FormatChangesMessage(f: Formatter, added: seq<Record>, removed: seq<Record>,
                                changed: seq<ChangeTriple>, current: seq<Record>): string
    requires TriplesReadable(changed) && AllReadable(current)
  {
    Alert(|added|, |removed|, |changed|, |current|,
          NewSection(added, f.maxResults, f.fmt), RemovedSection(removed, f.maxResults, f.fmt),
          ChangedSection(f, changed), RankingsSection(f, current))
  }

  /** The message written out as `format_changes_message` builds it: the new,
      removed and changed sections when there are such items, then the
      rankings when there are current items and something changed, joined by
      blank lines, or the fixed sentence when no part is present. */
  lemma MessageParts(f: Formatter, added: seq<Record>, removed: seq<Record>,
                     changed: seq<ChangeTriple>, current: seq<Record>)
    requires TriplesReadable(changed) && AllReadable(current)
    ensures var parts := (if |added| > 0 then [NewSection(added, f.maxResults, f.fmt)] else []) +
                         (if |removed| > 0 then [RemovedSection(removed, f.maxResults, f.fmt)] else []) +
                         (if |changed| > 0 then [ChangedSection(f, changed)] else []) +
                         (if |current| > 0 && (|added| > 0 || |removed| > 0 || |changed| > 0)
                          then [RankingsSection(f, current)] else []);
            FormatChangesMessage(f, added, removed, changed, current) ==
              if |parts| == 0 then "No changes detected." else Join("\n\n", parts)
  {
    AlertParts(|added|, |removed|, |changed|, |current|,
               NewSection(added, f.maxResults, f.fmt), RemovedSection(removed, f.maxResults, f.fmt),
               ChangedSection(f, changed), RankingsSection(f, current));
  }

  /** "No changes detected." comes back exactly when there is nothing new,
      nothing removed and nothing changed. */
  lemma NoChangesIff(f: Formatter, added: seq<Record>, removed: seq<Record>,
                     changed: seq<ChangeTriple>, current: seq<Record>)
    requires TriplesReadable(changed) && AllReadable(current)
    ensures FormatChangesMessage(f, added, removed, changed, current) == NoChanges <==>
              |added| == 0 && |removed| == 0 && |changed| == 0
  {
    AlertNoChanges(|added|, |removed|, |changed|, |current|,
                   NewSection(added, f.maxResults, f.fmt), RemovedSection(removed, f.maxResults, f.fmt),
                   ChangedSection(f, changed), RankingsSection(f, current));
  }

  /** Something shown from the changes means there are changes. */
  lemma ShownNonEmpty(f: Formatter, changed: seq<ChangeTriple>)
    requires TriplesReadable(changed) && |ShownChanges(f, changed)| > 0
    ensures |changed| > 0
  {
    if HasTarget(f.target) {
      FocusedChangesSpec(f, changed);
      assert ShownChanges(f, changed)[0] in changed;
    }
  }

  /** A tracked target whose change is not among the changes empties the
      changed section, so the message then has no key-change header from
      it. */
  lemma TargetUnchangedHidesChanges(f: Formatter, changed: seq<ChangeTriple>)
    requires TriplesReadable(changed) && HasTarget(f.target)
    requires forall i :: 0 <= i < |changed| ==> !IsTargetChange(f, changed[i])
    ensures ChangedSection(f, changed) == ""
  {
    FocusedChangesSpec(f, changed);
  }

  /** The message holds the key-change header whenever some change
      survives the focusing. */
  lemma MessageAnnouncesKeyChanges(f: Formatter, added: seq<Record>, removed: seq<Record>,
                                   changed: seq<ChangeTriple>, current: seq<Record>)
    requires TriplesReadable(changed) && AllReadable(current) && |ShownChanges(f, changed)| > 0
    ensures var m := FormatChangesMessage(f, added, removed, changed, current);
            Contains(m, KeyChangesHeader(|ShownChanges(f, changed)|)) && Contains(m, KeyChange)
  {
    var h := KeyChangesHeader(|ShownChanges(f, changed)|);
    var nw, rm := NewSection(added, f.maxResults, f.fmt), RemovedSection(removed, f.maxResults, f.fmt);
    var ch, rk := ChangedSection(f, changed), RankingsSection(f, current);
    ShownNonEmpty(f, changed);
    ChangedSectionHeader(f, changed);
    StartsWithContains(ch, h);
    AlertContains(|added|, |removed|, |changed|, |current|, nw, rm, ch, rk, h);
    AlertContains(|added|, |removed|, |changed|, |current|, nw, rm, ch, rk, KeyChange);
  }

  /** The message announces the new and removed items with their full
      counts. */
  lemma MessageAnnouncesItems(f: Formatter, added: seq<Record>, removed: seq<Record>,
                              changed: seq<ChangeTriple>, current: seq<Record>)
    requires TriplesReadable(changed) && AllReadable(current)
    ensures |added| > 0 ==> Contains(FormatChangesMessage(f, added, removed, changed, current), NewHeader(|added|))
    ensures |removed| > 0 ==> Contains(FormatChangesMessage(f, added, removed, changed, current), RemovedHeader(|removed|))
  {
    var nw, rm := NewSection(added, f.maxResults, f.fmt), RemovedSection(removed, f.maxResults, f.fmt);
    var ch, rk := ChangedSection(f, changed), RankingsSection(f, current);
    StartsWithContains(nw, NewHeader(|added|));
    StartsWithContains(rm, RemovedHeader(|removed|));
    AlertContains(|added|, |removed|, |changed|, |current|, nw, rm, ch, rk, NewHeader(|added|));
    AlertContains(|added|, |removed|, |changed|, |current|, nw, rm, ch, rk, RemovedHeader(|removed|));
  }
}

=== FILE: records.dfy ===
/** Scraped records: Python dicts from field name to a scalar value. */
module Records {
  import opened Wrappers
  import opened Text
  import opened Dicts

  /** The scalar values a scraped record holds (`None`, bool, int, str). */
  datatype Value = Null | Bool(b: bool) | Int(n: int) | Str(s: string)

  /** Python `str(v)`. */
  function Show(v: Value): string {
    match v
    case Null => "None"
    case Bool(b) => if b then "True" else "False"
    case Int(n) => IntToStr(n)
    case Str(s) => s
  }

  /** Python truthiness `bool(v)`. */
  predicate Truthy(v: Value) {
    match v
    case Null => false
    case Bool(b) => b
    case Int(n) => n != 0
    case Str(s) => s != ""
  }

  /** A bool or int as the number Python computes with (True is 1). */
  predicate IsNumber(v: Value) {
    v.Bool? || v.Int?
  }

  function AsNumber(v: Value): int
    requires IsNumber(v)
  {
    if v.Bool? then (if v.b then 1 else 0) else v.n
  }

  /** Python `a == b` on scalars: bools and ints compare as numbers, strings
      by content, and values of different kinds are unequal. */
  predicate PyEq(a: Value, b: Value) {
    if IsNumber(a) && IsNumber(b) then AsNumber(a) == AsNumber(b) else a == b
  }

  /** `==` on scalars is an equivalence relation, but it identifies values
      that `str()` tells apart. */
  lemma PyEqFacts(a: Value, b: Value, c: Value)
    ensures PyEq(a, a)
    ensures PyEq(a, b) ==> PyEq(b, a)
    ensures PyEq(a, b) && PyEq(b, c) ==> PyEq(a, c)
    ensures PyEq(Int(1), Bool(true)) && Show(Int(1)) != Show(Bool(true))
  {
    assert Show(Int(1)) == "1";
  }

  /** A record: a dict with distinct field names. */
  type Record = d: Dict<string, Value> | IsDict(d)

  /** The record's `name`, when it has one, is a string, so that
      `item["name"].lower()` does not raise. */
  predicate NameIsText(r: Record) {
    Get(r, "name").None? || Get(r, "name").value.Str?
  }

  /** `"name" in item and target in item["name"].lower()`, for an already
      lower-cased `target`. A name that is not a string would make `.lower()`
      raise; the operations using this predicate require text names, so the
      `false` given for that case is never consulted. */
  predicate NameMatches(r: Record, target: string) {
    match Get(r, "name")
    case None => false
    case Some(v) => v.Str? && Contains(Lower(v.s), target)
  }

  /** Python truthiness of the scraper's optional `target_item`: neither None
      nor "". */
  predicate HasTarget(target: Option<string>) {
    target.Some? && target.value != ""
  }

  /** The record's `rank`, when present and not None, is a number, so that
      comparing it with another rank does not raise. */
  predicate RankIsNumber(r: Record) {
    Get(r, "rank").None? || Get(r, "rank").value.Null? || IsNumber(Get(r, "rank").value)
  }

  /** `item.get("rank")` as a number, None when absent or None. */
  function Rank(r: Record): (k: Option<int>)
    requires RankIsNumber(r)
    ensures k.None? <==> (Get(r, "rank").None? || Get(r, "rank") == Some(Null))
  {
    match Get(r, "rank")
    case None => None
    case Some(v) => if v.Null? then None else Some(AsNumber(v))
  }

  /** Python truthiness of an optional number: None and 0 are falsy. */
  predicate TruthyNum(k: Option<int>) {
    k.Some? && k.value != 0
  }
}

=== FILE: render.dfy ===
/** The text layout every formatter shares: a section is a header line and
    item lines, each appended with a trailing newline and the whole then
    `rstrip()`ped; a message is its sections joined by blank lines, or a
    fixed sentence when there are none. */
module Render {
  import opened Text
  import opened Seqs
  import opened Types

  /** The bullet in front of every listed item. */
  const Bullet: string := "\U{2022} "

  /** What a formatter returns when it has no section to show. */
  const NoChanges: string := "No changes detected."

  /** The separator between the sections of a message. */
  const PartSeparator: string := "\n\n"

  /** `'s' if count != 1 else ''`. */
  function Plural(n: int): string {
    if n != 1 then "s" else ""
  }

  /** The trailer that stands for `n` items left out. */
  function More(n: int): string {
    "... and " + IntToStr(n) + " more"
  }

  /** `message += f"{line}\n"` for every line in turn. */
  function Lines(ls: seq<string>): string
    decreases |ls|
  {
    if |ls| == 0 then "" else ls[0] + "\n" + Lines(ls[1..])
  }

  /** A section as the formatters return it: the lines, then `rstrip()`. */
  function Block(ls: seq<string>): string {
    RStrip(Lines(ls))
  }

  /** Appending every line with a newline is joining them and adding one
      final newline. */
  lemma {:induction false} LinesJoin(ls: seq<string>)
    requires |ls| > 0
    ensures Lines(ls) == Join("\n", ls) + "\n"
    decreases |ls|
  {
    if |ls| > 1 {
      LinesJoin(ls[1..]);
    }
  }

  /** A non-empty join ends with its last piece. */
  lemma {:induction false} JoinEndsWithLast(sep: string, parts: seq<string>)
    requires |parts| > 0
    ensures |parts[|parts| - 1]| <= |Join(sep, parts)|
    ensures Join(sep, parts)[|Join(sep, parts)| - |parts[|parts| - 1]|..] == parts[|parts| - 1]
    decreases |parts|
  {
    if |parts| > 1 {
      JoinEndsWithLast(sep, parts[1..]);
      var j := Join(sep, parts);
      var t := Join(sep, parts[1..]);
      assert j == (parts[0] + sep) + t;
      assert j[|j| - |t|..] == t;
    }
  }

  /** Every piece of a join sits somewhere inside it. */
  lemma {:induction false} JoinHasPart(sep: string, parts: seq<string>, i: nat)
    requires i < |parts|
    ensures exists a, c :: Join(sep, parts) == a + parts[i] + c
    decreases |parts|
  {
    if i == 0 {
      if |parts| == 1 {
        assert Join(sep, parts) == "" + parts[0] + "";
      } else {
        assert Join(sep, parts) == "" + parts[0] + (sep + Join(sep, parts[1..]));
      }
    } else {
      JoinHasPart(sep, parts[1..], i - 1);
      var a, c :| Join(sep, parts[1..]) == a + parts[1..][i - 1] + c;
      assert Join(sep, parts) == (parts[0] + sep + a) + parts[i] + c;
    }
  }

  /** A section keeps its header line intact whatever the item lines hold,
      as long as the header does not end in whitespace. */
  lemma BlockHeader(ls: seq<string>)
    requires |ls| > 0 && |ls[0]| > 0 && !IsSpace(ls[0][|ls[0]| - 1])
    ensures |ls[0]| <= |Block(ls)|
    ensures Block(ls)[..|ls[0]|] == ls[0]
  {
    assert Lines(ls) == ls[0] + ("\n" + Lines(ls[1..]));
    RStripKeepsPrefix(ls[0], "\n" + Lines(ls[1..]));
  }

  /** When no line holds a newline and the last one ends in visible text,
      the section is exactly its lines joined by newlines, and splitting it
      at newlines gives the lines back. */
  lemma BlockLines(ls: seq<string>)
    requires |ls| > 0
    requires forall i :: 0 <= i < |ls| ==> '\n' !in ls[i]
    requires |ls[|ls| - 1]| > 0 && !IsSpace(ls[|ls| - 1][|ls[|ls| - 1]| - 1])
    ensures Block(ls) == Join("\n", ls)
    ensures Split(Block(ls), '\n') == ls
  {
    LinesJoin(ls);
    var j := Join("\n", ls);
    JoinEndsWithLast("\n", ls);
    assert j[|j| - 1] == ls[|ls| - 1][|ls[|ls| - 1]| - 1];
    assert (j + "\n")[..|j|] == j;
    assert RStrip(j + "\n") == RStrip(j);
    SplitJoin(ls, '\n');
  }

  /** One bullet line per item: `f"• {format_item(item)}"`. */
  function Bullets<T>(items: seq<T>, fmt: T -> string): (r: seq<string>)
    ensures |r| == |items|
    ensures forall i :: 0 <= i < |items| ==> r[i] == Bullet + fmt(items[i])
  {
    Map((x: T) => Bullet + fmt(x), items)
  }

  /** The bullet lines of a capped list and the trailer: the first `max`
      items, one bullet each, and "... and N more" exactly when some were
      left out, N being the number left out. */
  function ListLines<T>(items: seq<T>, max: nat, fmt: T -> string): (r: seq<string>)
    ensures |r| == |Take(items, max)| + (if |items| > max then 1 else 0)
    ensures forall i :: 0 <= i < |Take(items, max)| ==> r[i] == Bullet + fmt(items[i])
    ensures |items| > max ==> r[|r| - 1] == More(|items| - max) && max + (|items| - max) == |items|
  {
    Bullets(Take(items, max), fmt) + (if |items| > max then [More(|items| - max)] else [])
  }

  // ---------------------------------------------------------------------------
  // The section headers of the HTML formatters

  function NewHeader(n: int): string {
    "<b>\U{1F195} " + IntToStr(n) + (" New Item" + Plural(n) + ":</b>")
  }

  function RemovedHeader(n: int): string {
    "<b>\U{274C} " + IntToStr(n) + (" Removed Item" + Plural(n) + ":</b>")
  }

  /** The phrase the site monitor looks for before alerting. */
  const KeyChange: string := "Key Change"

  function KeyChangesHeader(n: int): string {
    "<b>\U{1F504} " + IntToStr(n) + " " + KeyChange + Plural(n) + ":</b>"
  }

  function RankingsHeader(n: int): string {
    "<b>\U{1F4CA} Current Rankings (" + IntToStr(n) + "):</b>"
  }

  function PartialRankingsHeader(shown: int, n: int): string {
    "<b>\U{1F4CA} Current Rankings (showing " + IntToStr(shown) + " of " + IntToStr(n) + "):</b>"
  }

  /** The line under a changed item for one of its fields. */
  function FieldLine(field: string, oldValue: string, newValue: string): string {
    "    \U{2514} <b>" + field + ":</b> " + oldValue + Arrow + newValue
  }

  /** A section listing items: the header, then the capped list. */
  function ListSection<T>(header: string, items: seq<T>, max: nat, fmt: T -> string): (s: string)
    requires |header| > 0 && header[0] != NoChanges[0] && !IsSpace(header[|header| - 1])
    ensures StartsWith(s, header) && NotSentence(s)
  {
    var ls := ListLines(items, max, fmt);
    SectionHeader(header, ls, "");
    Block([header] + ls)
  }

  /** A line that comes through the layout intact: no newline inside and
      visible text at its end. */
  predicate Visible(line: string) {
    '\n' !in line && |line| > 0 && !IsSpace(line[|line| - 1])
  }

  /** Every item is displayed as a visible line. */
  predicate ShowsVisibly<T>(items: seq<T>, fmt: T -> string) {
    forall i :: 0 <= i < |items| ==> Visible(fmt(items[i]))
  }

  /** A section whose lines are all visible splits back into those lines. */
  lemma VisibleLines(ls: seq<string>)
    requires |ls| > 0 && forall i :: 0 <= i < |ls| ==> Visible(ls[i])
    ensures Split(Block(ls), '\n') == ls
  {
    BlockLines(ls);
  }

  /** The bullet line of a visibly displayed item is visible. */
  lemma BulletVisible(line: string)
    requires Visible(line)
    ensures Visible(Bullet + line)
  {
    assert (Bullet + line)[|Bullet + line| - 1] == line[|line| - 1];
  }

  /** A numeral is a single line. */
  lemma NumeralOneLine(n: int)
    ensures '\n' !in IntToStr(n)
  {
    NumeralSign(n);
    if n < 0 {
      assert IntToStr(n) == "-" + NatToStr(-n);
    }
  }

  /** The trailer is visible. */
  lemma MoreVisible(n: int)
    ensures Visible(More(n))
  {
    NumeralOneLine(n);
  }

  /** Every line is visible. */
  predicate AllVisible(ls: seq<string>) {
    forall i :: 0 <= i < |ls| ==> Visible(ls[i])
  }

  /** Pieces of visible lines flatten to visible lines. */
  lemma FlattenVisible(es: seq<seq<string>>)
    requires forall i :: 0 <= i < |es| ==> AllVisible(es[i])
    ensures AllVisible(Flatten(es))
  {
    forall l | 0 <= l < |Flatten(es)|
      ensures Visible(Flatten(es)[l])
    {
      FlattenIn(es, Flatten(es)[l]);
      var k :| 0 <= k < |es| && Flatten(es)[l] in es[k];
      assert AllVisible(es[k]);
    }
  }

  /** A section under a visible header whose other lines are all visible
      splits back into the header and those lines. */
  lemma HeaderAndLines(header: string, ls: seq<string>)
    requires Visible(header) && AllVisible(ls)
    ensures Split(Block([header] + ls), '\n') == [header] + ls
  {
    var all := [header] + ls;
    forall i | 0 <= i < |all|
      ensures Visible(all[i])
    {
      if i > 0 {
        assert all[i] == ls[i - 1];
      }
    }
    VisibleLines(all);
  }

  /** The lines of a section listing visibly displayed items: the header,
      one bullet per listed item, and the trailer when some were left out. */
  lemma ListSectionLines<T>(header: string, items: seq<T>, max: nat, fmt: T -> string)
    requires Visible(header) && header[0] != NoChanges[0] && ShowsVisibly(items, fmt)
    ensures Split(ListSection(header, items, max, fmt), '\n') == [header] + ListLines(items, max, fmt)
  {
    var ls := [header] + ListLines(items, max, fmt);
    forall i | 0 <= i < |ls|
      ensures Visible(ls[i])
    {
      if 1 <= i < 1 + |Take(items, max)| {
        BulletVisible(fmt(items[i - 1]));
      } else if i > 0 {
        MoreVisible(|items| - max);
      }
    }
    VisibleLines(ls);
  }

  /** The lines of a section listing visibly displayed items in full, with
      no trailer. */
  lemma BulletSectionLines<T>(header: string, items: seq<T>, fmt: T -> string)
    requires Visible(header) && ShowsVisibly(items, fmt)
    ensures Split(Block([header] + Bullets(items, fmt)), '\n') == [header] + Bullets(items, fmt)
  {
    var ls := [header] + Bullets(items, fmt);
    forall i | 0 <= i < |ls|
      ensures Visible(ls[i])
    {
      if i > 0 {
        BulletVisible(fmt(items[i - 1]));
      }
    }
    VisibleLines(ls);
  }

  /** A header that starts with a tag and ends with one: never whitespace at
      the end and never the first letter of the fixed sentence. */
  predicate Tagged(header: string) {
    |header| > 0 && header[0] == '<' && header[|header| - 1] == '>'
  }

  /** Every HTML header is tagged, and the key-change header holds the
      phrase the monitor looks for. */
  lemma HeadersTagged(shown: int, n: int)
    ensures Tagged(NewHeader(n)) && Tagged(RemovedHeader(n)) && Tagged(KeyChangesHeader(n))
    ensures Tagged(RankingsHeader(n)) && Tagged(PartialRankingsHeader(shown, n))
    ensures Contains(KeyChangesHeader(n), KeyChange)
  {
    var pre := "<b>\U{1F504} " + IntToStr(n) + " ";
    ContainsSelf(KeyChange);
    ContainsInMiddle(pre, KeyChange, Plural(n) + ":</b>", KeyChange);
    assert KeyChangesHeader(n) == pre + KeyChange + (Plural(n) + ":</b>");
  }

  /** A header of single-line pieces around a numeral, closed by a tag, is
      a visible line. */
  lemma TaggedLine(pre: string, n: int, post: string)
    requires '\n' !in pre && '\n' !in post && |post| > 0 && post[|post| - 1] == '>'
    ensures Visible(pre + IntToStr(n) + post)
  {
    NumeralOneLine(n);
    var s := pre + IntToStr(n) + post;
    assert s[|s| - 1] == post[|post| - 1];
  }

  /** The key-change header is a visible line. */
  lemma KeyChangesHeaderVisible(n: int)
    ensures Visible(KeyChangesHeader(n))
  {
    assert KeyChangesHeader(n) == "<b>\U{1F504} " + IntToStr(n) + (" " + KeyChange + Plural(n) + ":</b>");
    TaggedLine("<b>\U{1F504} ", n, " " + KeyChange + Plural(n) + ":</b>");
  }

  /** The headers of the new and removed sections are visible lines. */
  lemma ListHeadersVisible(n: int)
    ensures Visible(NewHeader(n)) && Visible(RemovedHeader(n))
  {
    TaggedLine("<b>\U{1F195} ", n, " New Item" + Plural(n) + ":</b>");
    TaggedLine("<b>\U{274C} ", n, " Removed Item" + Plural(n) + ":</b>");
  }

  /** The rankings headers are visible lines. */
  lemma RankingsHeadersVisible(shown: int, n: int)
    ensures Visible(RankingsHeader(n)) && Visible(PartialRankingsHeader(shown, n))
  {
    TaggedLine("<b>\U{1F4CA} Current Rankings (", n, "):</b>");
    NumeralOneLine(shown);
    TaggedLine("<b>\U{1F4CA} Current Rankings (showing " + IntToStr(shown) + " of ", n, "):</b>");
  }

  /** A section under a header that ends in visible text starts with that
      header, so it holds whatever the header holds and, when the header is
      tagged, cannot be mistaken for the fixed sentence. */
  lemma SectionHeader(header: string, ls: seq<string>, sub: string)
    requires |header| > 0 && !IsSpace(header[|header| - 1])
    ensures StartsWith(Block([header] + ls), header)
    ensures header[0] != NoChanges[0] ==> NotSentence(Block([header] + ls))
    ensures Contains(header, sub) ==> Contains(Block([header] + ls), sub)
  {
    var b := Block([header] + ls);
    BlockHeader([header] + ls);
    assert b == header + b[|header|..];
    if Contains(header, sub) {
      ContainsInMiddle("", header, b[|header|..], sub);
      assert "" + header + b[|header|..] == b;
    }
  }

  /** `_format_new_items(new_items)` of the HTML formatters: a header
      counting every new item, then the capped list. */
  function NewSection<T>(added: seq<T>, max: nat, fmt: T -> string): (s: string)
    ensures StartsWith(s, NewHeader(|added|)) && NotSentence(s)
  {
    HeadersTagged(0, |added|);
    ListSection(NewHeader(|added|), added, max, fmt)
  }

  /** `_format_removed_items(removed_items)` of the HTML formatters. */
  function RemovedSection<T>(removed: seq<T>, max: nat, fmt: T -> string): (s: string)
    ensures StartsWith(s, RemovedHeader(|removed|)) && NotSentence(s)
  {
    HeadersTagged(0, |removed|);
    ListSection(RemovedHeader(|removed|), removed, max, fmt)
  }

  /** The new and removed sections: the header with the full count, at
      most `max` items, and the trailer exactly when some are left out. */
  lemma ListedSectionsLines<T>(added: seq<T>, removed: seq<T>, max: nat, fmt: T -> string)
    requires ShowsVisibly(added, fmt) && ShowsVisibly(removed, fmt)
    ensures Split(NewSection(added, max, fmt), '\n') == [NewHeader(|added|)] + ListLines(added, max, fmt)
    ensures Split(RemovedSection(removed, max, fmt), '\n') == [RemovedHeader(|removed|)] + ListLines(removed, max, fmt)
  {
    ListHeadersVisible(|added|);
    ListHeadersVisible(|removed|);
    HeadersTagged(0, |added|);
    HeadersTagged(0, |removed|);
    ListSectionLines(NewHeader(|added|), added, max, fmt);
    ListSectionLines(RemovedHeader(|removed|), removed, max, fmt);
  }

  /** `format_full_rankings` of the HTML formatters. */
  function FullRankings<T>(current: seq<T>, max: nat, fmt: T -> string): string {
    Block([RankingsHeader(|current|)] + ListLines(current, max, fmt))
  }

  /** The full rankings: the header counting every record, at most `max`
      of them, and the trailer exactly when some are left out. */
  lemma FullRankingsLines<T>(current: seq<T>, max: nat, fmt: T -> string)
    requires ShowsVisibly(current, fmt)
    ensures Split(FullRankings(current, max, fmt), '\n') == [RankingsHeader(|current|)] + ListLines(current, max, fmt)
  {
    RankingsHeadersVisible(0, |current|);
    HeadersTagged(0, |current|);
    ListSectionLines(RankingsHeader(|current|), current, max, fmt);
  }

  /** `"\n\n".join(message_parts) if message_parts else "No changes detected."` */
  function Message(parts: seq<string>): string {
    if |parts| == 0 then NoChanges else Join(PartSeparator, parts)
  }

  /** A section that cannot be mistaken for the fixed sentence: empty, or
      starting with something other than its first letter. */
  predicate NotSentence(part: string) {
    part == "" || part[0] != NoChanges[0]
  }

  /** The fixed sentence comes back exactly when there is no section. */
  lemma MessageSentinel(parts: seq<string>)
    requires forall i :: 0 <= i < |parts| ==> NotSentence(parts[i])
    ensures Message(parts) == NoChanges <==> |parts| == 0
  {
    if |parts| > 0 {
      JoinStartsWithFirst(PartSeparator, parts);
      if |parts| > 1 {
        assert Join(PartSeparator, parts) == parts[0] + PartSeparator + Join(PartSeparator, parts[1..]);
        assert Join(PartSeparator, parts)[|parts[0]|] == '\n';
      }
    }
  }

  /** Text inside a section is inside the message. */
  lemma MessageContains(parts: seq<string>, i: nat, sub: string)
    requires i < |parts| && Contains(parts[i], sub)
    ensures Contains(Message(parts), sub)
  {
    JoinHasPart(PartSeparator, parts, i);
    var a, c :| Join(PartSeparator, parts) == a + parts[i] + c;
    ContainsInMiddle(a, parts[i], c, sub);
  }

  /** The sections whose flag is set, in their order: the
      `if cond: message_parts.append(section)` steps of a formatter. */
  function Present(ss: seq<(bool, string)>): seq<string>
    decreases |ss|
  {
    if |ss| == 0 then [] else (if ss[0].0 then [ss[0].1] else []) + Present(ss[1..])
  }

  /** Whether a section is to be included. */
  function Included(e: (bool, string)): bool {
    e.0
  }

  /** The present sections are the included ones in their order, each once:
      the k-th present section is the one at the k-th included position, and
      those positions strictly increase. */
  lemma PresentOrder(ss: seq<(bool, string)>)
    ensures var idx := Positions(ss, Included);
            |Present(ss)| == |idx| &&
            (forall k :: 0 <= k < |idx| ==> idx[k] < |ss| && Present(ss)[k] == ss[idx[k]].1) &&
            (forall j, k :: 0 <= j < k < |idx| ==> idx[j] < idx[k])
  {
    PresentPicks(ss);
    PositionsExact(ss, Included);
  }

  lemma {:induction false} PresentPicks(ss: seq<(bool, string)>)
    ensures var idx := Positions(ss, Included);
            |Present(ss)| == |idx| &&
            forall k :: 0 <= k < |idx| ==> idx[k] < |ss| && Present(ss)[k] == ss[idx[k]].1
    decreases |ss|
  {
    if |ss| > 0 {
      PresentPicks(ss[1..]);
      var t, p := Positions(ss[1..], Included), Present(ss[1..]);
      var idx := Positions(ss, Included);
      if ss[0].0 {
        assert idx == [0] + Shift(t) && Present(ss) == [ss[0].1] + p;
        forall k | 1 <= k < |idx|
          ensures idx[k] < |ss| && Present(ss)[k] == ss[idx[k]].1
        {
          assert idx[k] == t[k - 1] + 1 && Present(ss)[k] == p[k - 1];
        }
      } else {
        assert idx == Shift(t) && Present(ss) == p;
        forall k | 0 <= k < |idx|
          ensures idx[k] < |ss| && Present(ss)[k] == ss[idx[k]].1
        {
          assert idx[k] == t[k] + 1;
        }
      }
    }
  }

  /** `x` is the text of a flagged section. */
  ghost predicate Flagged(ss: seq<(bool, string)>, x: string) {
    exists k :: 0 <= k < |ss| && ss[k].0 && x == ss[k].1
  }

  /** Every present section is a flagged one, every flagged one is present,
      and nothing is present exactly when no flag is set. */
  lemma {:induction false} PresentMembers(ss: seq<(bool, string)>)
    ensures forall i :: 0 <= i < |Present(ss)| ==> Flagged(ss, Present(ss)[i])
    ensures forall k :: 0 <= k < |ss| && ss[k].0 ==> ss[k].1 in Present(ss)
    ensures |Present(ss)| == 0 <==> forall k :: 0 <= k < |ss| ==> !ss[k].0
    decreases |ss|
  {
    if |ss| > 0 {
      PresentMembers(ss[1..]);
      var head := if ss[0].0 then [ss[0].1] else [];
      assert Present(ss) == head + Present(ss[1..]);
      forall i | 0 <= i < |Present(ss)|
        ensures Flagged(ss, Present(ss)[i])
      {
        if i < |head| {
          assert ss[0].0 && Present(ss)[i] == ss[0].1;
        } else {
          assert Flagged(ss[1..], Present(ss[1..])[i - |head|]);
          var k :| 0 <= k < |ss[1..]| && ss[1..][k].0 && Present(ss[1..])[i - |head|] == ss[1..][k].1;
          assert ss[k + 1].0 && Present(ss)[i] == ss[k + 1].1;
        }
      }
      forall k | 0 <= k < |ss| && ss[k].0
        ensures ss[k].1 in Present(ss)
      {
        if k > 0 {
          assert ss[1..][k - 1] == ss[k];
        }
      }
      if forall k :: 0 <= k < |ss[1..]| ==> !ss[1..][k].0 {
        if !ss[0].0 {
          forall k | 0 <= k < |ss|
            ensures !ss[k].0
          {
            if k > 0 {
              assert ss[1..][k - 1] == ss[k];
            }
          }
        }
      }
    }
  }

  /** No flag is set. */
  predicate NoneFlagged(ss: seq<(bool, string)>) {
    forall k :: 0 <= k < |ss| ==> !ss[k].0
  }

  /** Four sections, the most any formatter has: no flag set means none of
      the four is set, and none reads like the fixed sentence when no one of
      the four does. */
  lemma FourSections(ss: seq<(bool, string)>)
    requires |ss| == 4
    ensures NoneFlagged(ss) <==> !ss[0].0 && !ss[1].0 && !ss[2].0 && !ss[3].0
    ensures NotSentence(ss[0].1) && NotSentence(ss[1].1) && NotSentence(ss[2].1) && NotSentence(ss[3].1) ==>
              forall k :: 0 <= k < |ss| ==> NotSentence(ss[k].1)
  {
    if !ss[0].0 && !ss[1].0 && !ss[2].0 && !ss[3].0 {
      forall k | 0 <= k < |ss|
        ensures !ss[k].0
      {
        assert k == 0 || k == 1 || k == 2 || k == 3;
      }
    }
    if NotSentence(ss[0].1) && NotSentence(ss[1].1) && NotSentence(ss[2].1) && NotSentence(ss[3].1) {
      forall k | 0 <= k < |ss|
        ensures NotSentence(ss[k].1)
      {
        assert k == 0 || k == 1 || k == 2 || k == 3;
      }
    }
  }

  /** A message built from flagged sections none of which reads like the
      fixed sentence is that sentence exactly when no flag is set. */
  lemma PresentNoChanges(ss: seq<(bool, string)>)
    requires forall k :: 0 <= k < |ss| ==> NotSentence(ss[k].1)
    ensures Message(Present(ss)) == NoChanges <==> NoneFlagged(ss)
  {
    PresentNotSentences(ss);
    PresentEmpty(ss);
    MessageSentinel(Present(ss));
  }

  lemma PresentEmpty(ss: seq<(bool, string)>)
    ensures |Present(ss)| == 0 <==> NoneFlagged(ss)
  {
    PresentMembers(ss);
  }

  /** Keeping some sections keeps them all unlike the fixed sentence. */
  lemma {:induction false} PresentNotSentences(ss: seq<(bool, string)>)
    requires forall k :: 0 <= k < |ss| ==> NotSentence(ss[k].1)
    ensures forall i :: 0 <= i < |Present(ss)| ==> NotSentence(Present(ss)[i])
    decreases |ss|
  {
    if |ss| > 0 {
      var tail := ss[1..];
      forall k | 0 <= k < |tail|
        ensures NotSentence(tail[k].1)
      {
        assert tail[k] == ss[k + 1];
      }
      PresentNotSentences(tail);
      var head := if ss[0].0 then [ss[0].1] else [];
      assert Present(ss) == head + Present(tail);
    }
  }

  /** Text inside a flagged section is inside the message. */
  lemma PresentContains(ss: seq<(bool, string)>, k: nat, sub: string)
    requires k < |ss| && ss[k].0 && Contains(ss[k].1, sub)
    ensures Contains(Message(Present(ss)), sub)
  {
    PresentMembers(ss);
    var ps := Present(ss);
    var i :| 0 <= i < |ps| && ps[i] == ss[k].1;
    MessageContains(ps, i, sub);
  }

  /** Three sections under their flags, written out in order. */
  lemma ThreeParts(a: bool, b: bool, c: bool, nw: string, rm: string, ch: string)
    ensures Message(Present([(a, nw), (b, rm), (c, ch)])) ==
            Message((if a then [nw] else []) + (if b then [rm] else []) + (if c then [ch] else []))
  {
    var ss := [(a, nw), (b, rm), (c, ch)];
    var p := seq(3, k requires 0 <= k < 3 => if ss[k].0 then [ss[k].1] else []);
    assert ss[2..][1..] == [];
    assert Present(ss[2..]) == p[2];
    assert ss[1..][1..] == ss[2..];
    assert Present(ss[1..]) == p[1] + p[2];
    assert Present(ss) == p[0] + (p[1] + p[2]);
    assert p[0] + (p[1] + p[2]) == p[0] + p[1] + p[2];
  }

  // ---------------------------------------------------------------------------
  // The four-section alert of the HTML formatters

  /** The sections of an HTML alert with the conditions under which
      `format_changes_message` appends them: the new, removed and changed
      sections when there are such items, the rankings when there are
      current items and anything at all changed. */
  function AlertSections(nAdded: nat, nRemoved: nat, nChanged: nat, nCurrent: nat,
                         nw: string, rm: string, ch: string, rk: string): seq<(bool, string)> {
    [(nAdded > 0, nw), (nRemoved > 0, rm), (nChanged > 0, ch),
     (nCurrent > 0 && (nAdded > 0 || nRemoved > 0 || nChanged > 0), rk)]
  }

  /** The alert: the included sections joined by blank lines, or the fixed
      sentence. */
  function Alert(nAdded: nat, nRemoved: nat, nChanged: nat, nCurrent: nat,
                 nw: string, rm: string, ch: string, rk: string): string {
    Message(Present(AlertSections(nAdded, nRemoved, nChanged, nCurrent, nw, rm, ch, rk)))
  }

  /** When no section reads like the fixed sentence, the alert is that
      sentence exactly when nothing was added, removed or changed; the
      rankings never stand alone. */
  lemma AlertNoChanges(nAdded: nat, nRemoved: nat, nChanged: nat, nCurrent: nat,
                       nw: string, rm: string, ch: string, rk: string)
    requires NotSentence(nw) && NotSentence(rm) && NotSentence(ch) && NotSentence(rk)
    ensures Alert(nAdded, nRemoved, nChanged, nCurrent, nw, rm, ch, rk) == NoChanges <==>
              nAdded == 0 && nRemoved == 0 && nChanged == 0
  {
    var ss := AlertSections(nAdded, nRemoved, nChanged, nCurrent, nw, rm, ch, rk);
    FourSections(ss);
    PresentNoChanges(ss);
  }

  /** The alert written out: the new, removed and changed sections, each
      when it has items, then the rankings when there are current items and
      something changed, joined by blank lines. */
  lemma AlertParts(nAdded: nat, nRemoved: nat, nChanged: nat, nCurrent: nat,
                   nw: string, rm: string, ch: string, rk: string)
    ensures Alert(nAdded, nRemoved, nChanged, nCurrent, nw, rm, ch, rk) ==
            Message((if nAdded > 0 then [nw] else []) + (if nRemoved > 0 then [rm] else []) +
                    (if nChanged > 0 then [ch] else []) +
                    (if nCurrent > 0 && (nAdded > 0 || nRemoved > 0 || nChanged > 0) then [rk] else []))
  {
    var ss := AlertSections(nAdded, nRemoved, nChanged, nCurrent, nw, rm, ch, rk);
    var p := seq(4, k requires 0 <= k < 4 => if ss[k].0 then [ss[k].1] else []);
    assert ss[3..][1..] == [];
    assert Present(ss[3..]) == p[3];
    assert ss[2..][1..] == ss[3..];
    assert Present(ss[2..]) == p[2] + p[3];
    assert ss[1..][1..] == ss[2..];
    assert Present(ss[1..]) == p[1] + (p[2] + p[3]);
    assert Present(ss) == p[0] + (p[1] + (p[2] + p[3]));
    assert p[0] + (p[1] + (p[2] + p[3])) == p[0] + p[1] + p[2] + p[3];
  }

  /** Text inside an included section is inside the alert. */
  lemma AlertContains(nAdded: nat, nRemoved: nat, nChanged: nat, nCurrent: nat,
                      nw: string, rm: string, ch: string, rk: string, sub: string)
    ensures (nAdded > 0 && Contains(nw, sub)) || (nRemoved > 0 && Contains(rm, sub)) ||
            (nChanged > 0 && Contains(ch, sub)) ==>
              Contains(Alert(nAdded, nRemoved, nChanged, nCurrent, nw, rm, ch, rk), sub)
  {
    var ss := AlertSections(nAdded, nRemoved, nChanged, nCurrent, nw, rm, ch, rk);
    if nAdded > 0 && Contains(nw, sub) {
      PresentContains(ss, 0, sub);
    } else if nRemoved > 0 && Contains(rm, sub) {
      PresentContains(ss, 1, sub);
    } else if nChanged > 0 && Contains(ch, sub) {
      PresentContains(ss, 2, sub);
    }
  }
}

=== FILE: seqs.dfy ===
/** Sequence operations behind the core's list handling: prefix slices
    (`s[:n]`), list comprehensions with a condition, "first element such
    that" searches and flattening. */
module Seqs {
  import opened Wrappers

  /** Python `min(a, b)`. */
  function Min(a: int, b: int): int {
    if a <= b then a else b
  }

  /** Python `s[:n]` for a non-negative `n`. */
  function Take<T>(s: seq<T>, n: nat): (r: seq<T>)
    ensures |r| == if n < |s| then n else |s|
    ensures r == s[..|r|]
  {
    if n < |s| then s[..n] else s
  }

  /** Python `[x for x in s if p(x)]`. */
  function Filter<T>(s: seq<T>, p: T -> bool): (r: seq<T>)
    ensures |r| <= |s|
    decreases |s|
  {
    if |s| == 0 then []
    else (if p(s[0]) then [s[0]] else []) + Filter(s[1..], p)
  }

  /** The filter keeps exactly the elements satisfying `p`: every survivor
      comes from `s` and satisfies `p`, and every element of `s` satisfying
      `p` survives. */
  lemma {:induction false} FilterMembers<T>(s: seq<T>, p: T -> bool)
    ensures forall i :: 0 <= i < |Filter(s, p)| ==> Filter(s, p)[i] in s && p(Filter(s, p)[i])
    ensures forall i :: 0 <= i < |s| && p(s[i]) ==> s[i] in Filter(s, p)
    decreases |s|
  {
    if |s| > 0 {
      FilterMembers(s[1..], p);
      var head := if p(s[0]) then [s[0]] else [];
      assert Filter(s, p) == head + Filter(s[1..], p);
      forall i | 0 <= i < |s| && p(s[i])
        ensures s[i] in Filter(s, p)
      {
        if i > 0 {
          assert s[i] == s[1..][i - 1];
        }
      }
    }
  }

  /** Membership in a filtered list: in the list and satisfying `p`. */
  lemma FilterIn<T>(s: seq<T>, p: T -> bool, x: T)
    ensures x in Filter(s, p) <==> x in s && p(x)
  {
    FilterMembers(s, p);
    if x in Filter(s, p) {
      var i :| 0 <= i < |Filter(s, p)| && Filter(s, p)[i] == x;
    }
  }

  /** Filtering distributes over concatenation: the kept elements keep their
      relative order. */
  lemma {:induction false} FilterConcat<T>(a: seq<T>, b: seq<T>, p: T -> bool)
    ensures Filter(a + b, p) == Filter(a, p) + Filter(b, p)
    decreases |a|
  {
    if |a| > 0 {
      assert (a + b)[0] == a[0];
      assert (a + b)[1..] == a[1..] + b;
      FilterConcat(a[1..], b, p);
    } else {
      assert a + b == b;
    }
  }

  /** Filtering around one element. */
  lemma FilterAround<T>(a: seq<T>, x: T, b: seq<T>, p: T -> bool)
    ensures Filter(a + [x] + b, p) == Filter(a, p) + (if p(x) then [x] else []) + Filter(b, p)
  {
    FilterConcat(a + [x], b, p);
    FilterConcat(a, [x], p);
  }

  /** Filters with predicates that agree on the elements agree. */
  lemma {:induction false} FilterCongruence<T>(s: seq<T>, p: T -> bool, q: T -> bool)
    requires forall i :: 0 <= i < |s| ==> p(s[i]) == q(s[i])
    ensures Filter(s, p) == Filter(s, q)
    decreases |s|
  {
    if |s| > 0 {
      FilterCongruence(s[1..], p, q);
    }
  }

  /** A filter keeps the survivors in their original order. */
  lemma {:induction false} FilterOrder<T>(s: seq<T>, p: T -> bool, i: nat, j: nat)
    requires i < j < |Filter(s, p)|
    ensures exists a, b :: 0 <= a < b < |s| && s[a] == Filter(s, p)[i] && s[b] == Filter(s, p)[j]
    decreases |s|
  {
    var f := Filter(s, p);
    var rest := Filter(s[1..], p);
    assert f == (if p(s[0]) then [s[0]] else []) + rest;
    FilterMembers(s[1..], p);
    if p(s[0]) && i == 0 {
      assert rest[j - 1] in s[1..];
      var b :| 0 <= b < |s| - 1 && s[1..][b] == rest[j - 1];
      assert s[0] == f[i] && s[b + 1] == f[j];
    } else if p(s[0]) {
      FilterOrder(s[1..], p, i - 1, j - 1);
      var a, b :| 0 <= a < b < |s| - 1 && s[1..][a] == rest[i - 1] && s[1..][b] == rest[j - 1];
      assert s[a + 1] == f[i] && s[b + 1] == f[j];
    } else {
      FilterOrder(s[1..], p, i, j);
      var a, b :| 0 <= a < b < |s| - 1 && s[1..][a] == rest[i] && s[1..][b] == rest[j];
      assert s[a + 1] == f[i] && s[b + 1] == f[j];
    }
  }

  /** Every position moved one place on. */
  function Shift(idx: seq<nat>): (r: seq<nat>)
    ensures |r| == |idx| && forall k :: 0 <= k < |idx| ==> r[k] == idx[k] + 1
  {
    seq(|idx|, k requires 0 <= k < |idx| => idx[k] + 1)
  }

  /** The positions of the elements of `s` that satisfy `p`. */
  function Positions<T>(s: seq<T>, p: T -> bool): seq<nat>
    decreases |s|
  {
    if |s| == 0 then []
    else (if p(s[0]) then [0] else []) + Shift(Positions(s[1..], p))
  }

  /** The positions are strictly increasing and are exactly the positions
      of `s` whose elements satisfy `p`. */
  lemma PositionsExact<T>(s: seq<T>, p: T -> bool)
    ensures forall k :: 0 <= k < |Positions(s, p)| ==> Positions(s, p)[k] < |s| && p(s[Positions(s, p)[k]])
    ensures forall i :: 0 <= i < |s| && p(s[i]) ==> i in Positions(s, p)
    ensures forall k, l :: 0 <= k < l < |Positions(s, p)| ==> Positions(s, p)[k] < Positions(s, p)[l]
  {
    PositionsSound(s, p);
    PositionsComplete(s, p);
    PositionsIncreasing(s, p);
  }

  lemma {:induction false} PositionsSound<T>(s: seq<T>, p: T -> bool)
    ensures forall k :: 0 <= k < |Positions(s, p)| ==> Positions(s, p)[k] < |s| && p(s[Positions(s, p)[k]])
    decreases |s|
  {
    if |s| > 0 {
      var rest := Positions(s[1..], p);
      PositionsSound(s[1..], p);
      var head: seq<nat> := if p(s[0]) then [0] else [];
      var idx := Positions(s, p);
      assert idx == head + Shift(rest);
      forall k | 0 <= k < |idx|
        ensures idx[k] < |s| && p(s[idx[k]])
      {
        if k >= |head| {
          assert idx[k] == rest[k - |head|] + 1;
          assert s[idx[k]] == s[1..][rest[k - |head|]];
        }
      }
    }
  }

  lemma {:induction false} PositionsComplete<T>(s: seq<T>, p: T -> bool)
    ensures forall i :: 0 <= i < |s| && p(s[i]) ==> i in Positions(s, p)
    decreases |s|
  {
    if |s| > 0 {
      var rest := Positions(s[1..], p);
      PositionsComplete(s[1..], p);
      var head: seq<nat> := if p(s[0]) then [0] else [];
      var idx := Positions(s, p);
      assert idx == head + Shift(rest);
      forall i | 0 <= i < |s| && p(s[i])
        ensures i in idx
      {
        if i > 0 {
          assert s[1..][i - 1] == s[i];
          assert i - 1 in rest;
          var k :| 0 <= k < |rest| && rest[k] == i - 1;
          assert idx[|head| + k] == i;
        }
      }
    }
  }

  lemma {:induction false} PositionsIncreasing<T>(s: seq<T>, p: T -> bool)
    ensures forall k, l :: 0 <= k < l < |Positions(s, p)| ==> Positions(s, p)[k] < Positions(s, p)[l]
    decreases |s|
  {
    if |s| > 0 {
      var rest := Positions(s[1..], p);
      PositionsIncreasing(s[1..], p);
      var head: seq<nat> := if p(s[0]) then [0] else [];
      var idx := Positions(s, p);
      assert idx == head + Shift(rest);
      forall k, l | 0 <= k < l < |idx|
        ensures idx[k] < idx[l]
      {
        assert idx[l] == rest[l - |head|] + 1;
        if k >= |head| {
          assert idx[k] == rest[k - |head|] + 1;
        }
      }
    }
  }

  /** Two tests that agree position by position pick the same positions. */
  lemma {:induction false} PositionsAgree<S, T>(s: seq<S>, p: S -> bool, t: seq<T>, q: T -> bool)
    requires |s| == |t| && forall i :: 0 <= i < |s| ==> p(s[i]) == q(t[i])
    ensures Positions(s, p) == Positions(t, q)
    decreases |s|
  {
    if |s| > 0 {
      assert p(s[0]) == q(t[0]);
      forall i | 0 <= i < |s[1..]|
        ensures p(s[1..][i]) == q(t[1..][i])
      {
        assert s[1..][i] == s[i + 1] && t[1..][i] == t[i + 1];
      }
      PositionsAgree(s[1..], p, t[1..], q);
    }
  }

  /** `r` lists the elements of `s` at the positions where `p` holds, in
      the order of those positions. */
  ghost predicate Selects<T>(r: seq<T>, s: seq<T>, p: T -> bool) {
    var idx := Positions(s, p);
    |r| == |idx| && forall k :: 0 <= k < |r| ==> idx[k] < |s| && r[k] == s[idx[k]]
  }

  /** A filter is the selection of the positions where its predicate holds:
      its survivors keep their order and each appears once per position. */
  lemma {:induction false} FilterSelects<T>(s: seq<T>, p: T -> bool)
    ensures Selects(Filter(s, p), s, p)
    decreases |s|
  {
    if |s| > 0 {
      FilterSelects(s[1..], p);
      var f, rest := Filter(s, p), Filter(s[1..], p);
      var idx, ridx := Positions(s, p), Positions(s[1..], p);
      var h := if p(s[0]) then 1 else 0;
      assert f == (if p(s[0]) then [s[0]] else []) + rest;
      assert idx == (if p(s[0]) then [0] else []) + Shift(ridx);
      forall k | 0 <= k < |f|
        ensures idx[k] < |s| && f[k] == s[idx[k]]
      {
        if k >= h {
          assert f[k] == rest[k - h] && idx[k] == ridx[k - h] + 1;
          assert s[1..][ridx[k - h]] == s[idx[k]];
        }
      }
    }
  }

  /** Filtering twice with the same predicate is filtering once. */
  lemma {:induction false} FilterIdempotent<T>(s: seq<T>, p: T -> bool)
    ensures Filter(Filter(s, p), p) == Filter(s, p)
  {
    FilterMembers(s, p);
    FilterKeepsAll(Filter(s, p), p);
  }

  /** A filter that rejects nothing is the identity. */
  lemma {:induction false} FilterKeepsAll<T>(s: seq<T>, p: T -> bool)
    requires forall i :: 0 <= i < |s| ==> p(s[i])
    ensures Filter(s, p) == s
    decreases |s|
  {
    if |s| > 0 {
      FilterKeepsAll(s[1..], p);
      assert [s[0]] + s[1..] == s;
    }
  }

  /** A filter that keeps nothing is empty. */
  lemma {:induction false} FilterKeepsNone<T>(s: seq<T>, p: T -> bool)
    requires forall i :: 0 <= i < |s| ==> !p(s[i])
    ensures Filter(s, p) == []
    decreases |s|
  {
    if |s| > 0 {
      FilterKeepsNone(s[1..], p);
    }
  }

  /** The position of the first element satisfying `p` (the index a Python
      `for i, x in enumerate(s): if p(x): ...; break` loop stops at). */
  function FirstIndex<T>(s: seq<T>, p: T -> bool): (r: Option<nat>)
    ensures r.Some? ==> r.value < |s| && p(s[r.value])
    ensures r.Some? ==> forall j :: 0 <= j < r.value ==> !p(s[j])
    ensures r.None? ==> forall j :: 0 <= j < |s| ==> !p(s[j])
    decreases |s|
  {
    if |s| == 0 then None
    else if p(s[0]) then Some(0)
    else match FirstIndex(s[1..], p)
      case None => None
      case Some(i) => Some(i + 1)
  }

  /** The concatenation of a list of lists. */
  function Flatten<T>(ss: seq<seq<T>>): seq<T>
    decreases |ss|
  {
    if |ss| == 0 then [] else ss[0] + Flatten(ss[1..])
  }

  /** Flattening distributes over concatenation. */
  lemma {:induction false} FlattenAppend<T>(a: seq<seq<T>>, b: seq<seq<T>>)
    ensures Flatten(a + b) == Flatten(a) + Flatten(b)
    decreases |a|
  {
    if |a| == 0 {
      assert a + b == b;
    } else {
      assert (a + b)[1..] == a[1..] + b;
      FlattenAppend(a[1..], b);
    }
  }

  /** The `j`-th piece sits in the flattening right after the pieces before
      it. */
  lemma FlattenAt<T>(ss: seq<seq<T>>, j: nat)
    requires j < |ss|
    ensures var o := |Flatten(ss[..j])|;
            o + |ss[j]| <= |Flatten(ss)| && Flatten(ss)[o..o + |ss[j]|] == ss[j]
  {
    assert ss == ss[..j] + ss[j..];
    FlattenAppend(ss[..j], ss[j..]);
    assert ss[j..][1..] == ss[j + 1..];
  }

  /** The same, read through anything appended after the flattening. */
  lemma FlattenAtThen<T>(ss: seq<seq<T>>, j: nat, t: seq<T>)
    requires j < |ss|
    ensures var o := |Flatten(ss[..j])|;
            o + |ss[j]| <= |Flatten(ss) + t| &&
            forall i :: 0 <= i < |ss[j]| ==> (Flatten(ss) + t)[o + i] == ss[j][i]
  {
    FlattenAt(ss, j);
    var o := |Flatten(ss[..j])|;
    forall i | 0 <= i < |ss[j]|
      ensures (Flatten(ss) + t)[o + i] == ss[j][i]
    {
      assert Flatten(ss)[o..o + |ss[j]|][i] == ss[j][i];
    }
  }

  /** Everything in a flattening comes from one of its pieces. */
  lemma {:induction false} FlattenIn<T>(ss: seq<seq<T>>, x: T)
    requires x in Flatten(ss)
    ensures exists i :: 0 <= i < |ss| && x in ss[i]
    decreases |ss|
  {
    if x !in ss[0] {
      FlattenIn(ss[1..], x);
      var i :| 0 <= i < |ss[1..]| && x in ss[1..][i];
      assert x in ss[i + 1];
    }
  }

  /** `f` applied to every element, in order. */
  function Map<T, U>(f: T -> U, s: seq<T>): (r: seq<U>)
    ensures |r| == |s|
    ensures forall i :: 0 <= i < |s| ==> r[i] == f(s[i])
  {
    seq(|s|, i requires 0 <= i < |s| => f(s[i]))
  }

  lemma MapCons<T, U>(f: T -> U, x: T, s: seq<T>)
    ensures Map(f, [x] + s) == [f(x)] + Map(f, s)
  {
    var r, q := Map(f, [x] + s), [f(x)] + Map(f, s);
    forall i | 0 <= i < |r|
      ensures r[i] == q[i]
    {
      if i > 0 {
        assert ([x] + s)[i] == s[i - 1];
      }
    }
  }

  lemma MapTake<T, U>(f: T -> U, s: seq<T>, n: nat)
    ensures Map(f, Take(s, n)) == Take(Map(f, s), n)
  {
  }
}

=== FILE: simple_formatter.dfy ===
/** The plain-text formatter for basic scrapers (`SimpleFormatter` in
    example/simple_formatter.py): new, removed and changed sections with
    no markup, no target tracking and no rankings. */
module SimpleFormatter {
  import opened Text
  import opened Seqs
  import opened Records
  import opened Types
  import opened Render

  /** The scraper's `format_item` and `max_results`. */
  datatype Formatter = Formatter(fmt: Record -> string, maxResults: nat)

  /** The base formatter's default `max_results`. */
  const DefaultMaxResults: nat := 10

  function NewHeader(n: int): string {
    "\U{1F195} " + IntToStr(n) + " New Item" + Plural(n) + ":"
  }

  function RemovedHeader(n: int): string {
    "\U{274C} " + IntToStr(n) + " Removed Item" + Plural(n) + ":"
  }

  function ChangedHeader(n: int): string {
    "\U{1F504} " + IntToStr(n) + " Changed Item" + Plural(n) + ":"
  }

  /** A plain header: it starts with its emoji and ends with a colon. */
  predicate Plain(header: string) {
    |header| > 0 && header[0] != NoChanges[0] && header[|header| - 1] == ':'
  }

  lemma HeadersPlain(n: int)
    ensures Plain(NewHeader(n)) && Plain(RemovedHeader(n)) && Plain(ChangedHeader(n))
  {
  }

  /** The plain headers are visible lines. */
  lemma PlainHeadersVisible(n: int)
    ensures Visible(NewHeader(n)) && Visible(RemovedHeader(n)) && Visible(ChangedHeader(n))
  {
    HeadersPlain(n);
    NumeralOneLine(n);
  }

  /** The line under a changed item for one of its fields. */
  function PlainFieldLine(field: string, oldValue: string, newValue: string): string {
    "    \U{2514} " + field + ": " + oldValue + Arrow + newValue
  }

  function TripleEntry(f: Formatter, c: ChangeTriple): seq<string> {
    [Bullet + f.fmt(c.newItem)] +
    Map((e: (string, (string, string))) => PlainFieldLine(e.0, e.1.0, e.1.1), c.changes)
  }

  /** The entries of some changes, one per change, in their order. */
  function Entries(f: Formatter, cs: seq<ChangeTriple>): (r: seq<seq<string>>)
    ensures |r| == |cs| && forall i :: 0 <= i < |cs| ==> r[i] == TripleEntry(f, cs[i])
  {
    Map((c: ChangeTriple) => TripleEntry(f, c), cs)
  }

  /** The lines under the changed header: the first `max_results` changes,
      each followed by its field lines, then the trailer exactly when some
      were left out. */
  function ChangedLines(f: Formatter, changed: seq<ChangeTriple>): (ls: seq<string>)
    ensures |changed| > f.maxResults ==> |ls| > 0 && ls[|ls| - 1] == More(|changed| - f.maxResults)
    ensures |changed| <= f.maxResults ==> ls == Flatten(Entries(f, changed))
  {
    Flatten(Entries(f, Take(changed, f.maxResults))) +
    (if |changed| > f.maxResults then [More(|changed| - f.maxResults)] else [])
  }

  /** Past `max_results`, the lines are those of the first `max_results`
      changes followed by the trailer counting the others. */
  lemma ChangedLinesTruncated(f: Formatter, changed: seq<ChangeTriple>)
    requires |changed| > f.maxResults
    ensures ChangedLines(f, changed) == ChangedLines(f, changed[..f.maxResults]) + [More(|changed| - f.maxResults)]
  {
  }

  /** The `j`-th change, for `j` below `max_results`, is listed right after
      the lines of the changes before it, as its entry (`EntryLines`: its
      bullet line, then one line per changed field in order). */
  lemma ChangedEntryAt(f: Formatter, changed: seq<ChangeTriple>, j: nat)
    requires j < |changed| && j < f.maxResults
    ensures var ls, o, e := ChangedLines(f, changed), |ChangedLines(f, changed[..j])|, TripleEntry(f, changed[j]);
            o + |e| <= |ls| && ls[o..o + |e|] == e
  {
    var es := Entries(f, Take(changed, f.maxResults));
    var t := if |changed| > f.maxResults then [More(|changed| - f.maxResults)] else [];
    ChangedPrefix(f, changed, j);
    FlattenAt(es, j);
    var o := |Flatten(es[..j])|;
    assert (Flatten(es) + t)[o..o + |es[j]|] == Flatten(es)[o..o + |es[j]|];
  }

  /** The lines of the changes before the `j`-th, and the whole, in terms
      of the entries of the listed changes. */
  lemma ChangedPrefix(f: Formatter, changed: seq<ChangeTriple>, j: nat)
    requires j < |changed| && j < f.maxResults
    ensures var es := Entries(f, Take(changed, f.maxResults));
            j < |es| && es[j] == TripleEntry(f, changed[j]) &&
            ChangedLines(f, changed[..j]) == Flatten(es[..j]) &&
            ChangedLines(f, changed) ==
              Flatten(es) + (if |changed| > f.maxResults then [More(|changed| - f.maxResults)] else [])
  {
    var es := Entries(f, Take(changed, f.maxResults));
    assert Entries(f, changed[..j]) == es[..j];
  }

  /** A change's entry: its bullet line, then its field lines in order. */
  lemma EntryLines(f: Formatter, c: ChangeTriple)
    ensures var e := TripleEntry(f, c);
            |e| == 1 + |c.changes| && e[0] == Bullet + f.fmt(c.newItem) &&
            forall k :: 0 <= k < |c.changes| ==>
              e[1 + k] == PlainFieldLine(c.changes[k].0, c.changes[k].1.0, c.changes[k].1.1)
  {
  }

  function NewSection(f: Formatter, added: seq<Record>): (s: string)
    ensures StartsWith(s, NewHeader(|added|)) && NotSentence(s)
  {
    HeadersPlain(|added|);
    ListSection(NewHeader(|added|), added, f.maxResults, f.fmt)
  }

  function RemovedSection(f: Formatter, removed: seq<Record>): (s: string)
    ensures StartsWith(s, RemovedHeader(|removed|)) && NotSentence(s)
  {
    HeadersPlain(|removed|);
    ListSection(RemovedHeader(|removed|), removed, f.maxResults, f.fmt)
  }

  /** The new and removed sections: the header with the full count, at
      most `max_results` items, and the trailer exactly when some are left
      out. */
  lemma ListedSectionsLines(f: Formatter, added: seq<Record>, removed: seq<Record>)
    requires ShowsVisibly(added, f.fmt) && ShowsVisibly(removed, f.fmt)
    ensures Split(NewSection(f, added), '\n') == [NewHeader(|added|)] + ListLines(added, f.maxResults, f.fmt)
    ensures Split(RemovedSection(f, removed), '\n') == [RemovedHeader(|removed|)] + ListLines(removed, f.maxResults, f.fmt)
  {
    PlainHeadersVisible(|added|);
    PlainHeadersVisible(|removed|);
    ListSectionLines(NewHeader(|added|), added, f.maxResults, f.fmt);
    ListSectionLines(RemovedHeader(|removed|), removed, f.maxResults, f.fmt);
  }

  /** `_format_changed_items`: unlike the HTML formatters, the header
      counts every change, shown or not. */
  function ChangedSection(f: Formatter, changed: seq<ChangeTriple>): (s: string)
    ensures StartsWith(s, ChangedHeader(|changed|)) && NotSentence(s)
  {
    HeadersPlain(|changed|);
    SectionHeader(ChangedHeader(|changed|), ChangedLines(f, changed), "");
    Block([ChangedHeader(|changed|)] + ChangedLines(f, changed))
  }

  /** When every change's lines are visible, the changed section splits
      into the header with the full count and the lines under it. */
  lemma ChangedSectionLines(f: Formatter, changed: seq<ChangeTriple>)
    requires forall i :: 0 <= i < |changed| ==> AllVisible(TripleEntry(f, changed[i]))
    ensures Split(ChangedSection(f, changed), '\n') == [ChangedHeader(|changed|)] + ChangedLines(f, changed)
  {
    PlainHeadersVisible(|changed|);
    MoreVisible(|changed| - f.maxResults);
    FlattenVisible(Entries(f, Take(changed, f.maxResults)));
    HeaderAndLines(ChangedHeader(|changed|), ChangedLines(f, changed));
  }

  /** The sections with the conditions under which they are appended. */
  function Sections(f: Formatter, added: seq<Record>, removed: seq<Record>,
                    changed: seq<ChangeTriple>): seq<(bool, string)> {
    [(|added| > 0, NewSection(f, added)),
     (|removed| > 0, RemovedSection(f, removed)),
     (|changed| > 0, ChangedSection(f, changed))]
  }

  /** `format_changes_message(new_items, removed_items, changed_items,
      current_items)`: the current items are accepted and ignored. */
  function FormatChangesMessage(f: Formatter, added: seq<Record>, removed: seq<Record>,
                                changed: seq<ChangeTriple>, current: seq<Record>): string {
    Message(Present(Sections(f, added, removed, changed)))
  }

  /** The message written out as `format_changes_message` builds it: the new,
      removed and changed sections when there are such items, joined by blank
      lines, or the fixed sentence when no part is present. */
  lemma MessageParts(f: Formatter, added: seq<Record>, removed: seq<Record>,
                     changed: seq<ChangeTriple>, current: seq<Record>)
    ensures var parts := (if |added| > 0 then [NewSection(f, added)] else []) +
                         (if |removed| > 0 then [RemovedSection(f, removed)] else []) +
                         (if |changed| > 0 then [ChangedSection(f, changed)] else []);
            FormatChangesMessage(f, added, removed, changed, current) ==
              if |parts| == 0 then "No changes detected." else Join("\n\n", parts)
  {
    ThreeParts(|added| > 0, |removed| > 0, |changed| > 0,
               NewSection(f, added), RemovedSection(f, removed), ChangedSection(f, changed));
  }

  /** "No changes detected." comes back exactly when there is nothing new,
      nothing removed and nothing changed. */
  lemma NoChangesIff(f: Formatter, added: seq<Record>, removed: seq<Record>,
                     changed: seq<ChangeTriple>, current: seq<Record>)
    ensures FormatChangesMessage(f, added, removed, changed, current) == NoChanges <==>
              |added| == 0 && |removed| == 0 && |changed| == 0
  {
    var ss := Sections(f, added, removed, changed);
    forall k | 0 <= k < |ss|
      ensures NotSentence(ss[k].1)
    {
      assert k == 0 || k == 1 || k == 2;
    }
    PresentNoChanges(ss);
    if |added| == 0 && |removed| == 0 && |changed| == 0 {
      forall k | 0 <= k < |ss|
        ensures !ss[k].0
      {
        assert k == 0 || k == 1 || k == 2;
      }
    } else {
      assert ss[0].0 || ss[1].0 || ss[2].0;
    }
  }

  /** The current items never change the message. */
  lemma CurrentIgnored(f: Formatter, added: seq<Record>, removed: seq<Record>,
                       changed: seq<ChangeTriple>, current: seq<Record>, current': seq<Record>)
    ensures FormatChangesMessage(f, added, removed, changed, current) ==
            FormatChangesMessage(f, added, removed, changed, current')
  {
  }

  /** Text inside a present section is inside the message. */
  lemma SectionsContain(a: bool, b: bool, c: bool, nw: string, rm: string, ch: string, sub: string)
    requires (a && Contains(nw, sub)) || (b && Contains(rm, sub)) || (c && Contains(ch, sub))
    ensures Contains(Message(Present([(a, nw), (b, rm), (c, ch)])), sub)
  {
    var ss := [(a, nw), (b, rm), (c, ch)];
    if a && Contains(nw, sub) {
      PresentContains(ss, 0, sub);
    } else if b && Contains(rm, sub) {
      PresentContains(ss, 1, sub);
    } else {
      PresentContains(ss, 2, sub);
    }
  }

  /** Each non-empty list is announced with its full count, however many of
      its items the section shows. */
  lemma MessageAnnounces(f: Formatter, added: seq<Record>, removed: seq<Record>,
                         changed: seq<ChangeTriple>, current: seq<Record>)
    ensures var m := FormatChangesMessage(f, added, removed, changed, current);
            (|added| > 0 ==> Contains(m, NewHeader(|added|))) &&
            (|removed| > 0 ==> Contains(m, RemovedHeader(|removed|))) &&
            (|changed| > 0 ==> Contains(m, ChangedHeader(|changed|)))
  {
    var nw, rm, ch := NewSection(f, added), RemovedSection(f, removed), ChangedSection(f, changed);
    var a, b, c := |added| > 0, |removed| > 0, |changed| > 0;
    StartsWithContains(nw, NewHeader(|added|));
    StartsWithContains(rm, RemovedHeader(|removed|));
    StartsWithContains(ch, ChangedHeader(|changed|));
    if a {
      SectionsContain(a, b, c, nw, rm, ch, NewHeader(|added|));
    }
    if b {
      SectionsContain(a, b, c, nw, rm, ch, RemovedHeader(|removed|));
    }
    if c {
      SectionsContain(a, b, c, nw, rm, ch, ChangedHeader(|changed|));
    }
  }
}

=== FILE: simple_scraper.dfy ===
/** The example scrapers (scrapers/simple_scraper.py): `SimpleScraper`,
    which records the content of every element a CSS selector matches, and
    `ProductScraper`, which records product titles and prices with a
    whole-page fallback. The browser is a parameter: the matched elements
    with their text and attributes, or the product elements with their
    title and price text. */
module SimpleScraper {
  import opened Wrappers
  import opened Text
  import opened Seqs
  import opened Dicts
  import opened Records

  // ---------------------------------------------------------------------------
  // SimpleScraper

  /** A matched element: its visible text and its attributes. */
  datatype Element = Element(text: string, attributes: Dict<string, string>)

  /** The content read from an element: the stripped text when the
      attribute is "text", otherwise `get_attribute`, None when absent. */
  function Content(e: Element, attribute: string): Option<string> {
    if attribute == "text" then Some(Strip(e.text)) else Get(e.attributes, attribute)
  }

  /** The field names of a SimpleScraper record. */
  lemma SimpleFieldsDistinct()
    ensures "id" != "content" && "id" != "selector" && "id" != "position"
    ensures "content" != "selector" && "content" != "position" && "selector" != "position"
  {
    assert "id"[0] == 'i' && "content"[0] == 'c' && "selector"[0] == 's' && "position"[0] == 'p';
  }

  /** The record for the element at position `i` with content `content`. */
  function SimpleItem(selector: string, i: nat, content: string): Record {
    SimpleFieldsDistinct();
    var id, c, sel, pos := Str("item_" + IntToStr(i)), Str(content), Str(selector), Int(i);
    GetFour("id", id, "content", c, "selector", sel, "position", pos);
    [("id", id), ("content", c), ("selector", sel), ("position", pos)]
  }

  /** The fields of an extracted record. */
  lemma SimpleItemFields(selector: string, i: nat, content: string)
    ensures Get(SimpleItem(selector, i, content), "id") == Some(Str("item_" + IntToStr(i)))
    ensures Get(SimpleItem(selector, i, content), "content") == Some(Str(content))
    ensures Get(SimpleItem(selector, i, content), "selector") == Some(Str(selector))
    ensures Get(SimpleItem(selector, i, content), "position") == Some(Int(i))
  {
    SimpleFieldsDistinct();
    var id, c, sel, pos := Str("item_" + IntToStr(i)), Str(content), Str(selector), Int(i);
    GetFour("id", id, "content", c, "selector", sel, "position", pos);
  }

  /** Each element's position and content. */
  function Contents(els: seq<Element>, attribute: string): (r: seq<(nat, Option<string>)>)
    ensures |r| == |els|
    ensures forall i :: 0 <= i < |els| ==> r[i] == (i, Content(els[i], attribute))
  {
    seq(|els|, i requires 0 <= i < |els| => (i, Content(els[i], attribute)))
  }

  /** `if content:` — present and non-empty. */
  predicate Kept(p: (nat, Option<string>)) {
    p.1.Some? && p.1.value != ""
  }

  /** `SimpleScraper.extract_data`: one record per element with non-empty
      content, in page order, numbered by the element's position among all
      matches. */
  function Extract(selector: string, attribute: string, els: seq<Element>): (r: seq<Record>)
    ensures |r| <= |els|
  {
    Map((p: (nat, Option<string>)) => SimpleItem(selector, p.0, p.1.GetOr("")), Filter(Contents(els, attribute), Kept))
  }

  /** The `j`-th record is the one for the `j`-th kept element. */
  lemma ExtractAt(selector: string, attribute: string, els: seq<Element>, j: nat)
    requires j < |Extract(selector, attribute, els)|
    ensures var q := Filter(Contents(els, attribute), Kept)[j];
            Extract(selector, attribute, els)[j] == SimpleItem(selector, q.0, q.1.GetOr(""))
  {
  }

  /** The content of element `i` is kept: present and non-empty. */
  predicate HasContent(els: seq<Element>, attribute: string, i: int) {
    0 <= i < |els| && Content(els[i], attribute).Some? && Content(els[i], attribute).value != ""
  }

  /** `HasContent` as a test on one element. */
  function ContentTest(attribute: string): Element -> bool {
    (e: Element) => Content(e, attribute).Some? && Content(e, attribute).value != ""
  }

  /** The records follow the elements with content in page order: the `j`-th
      record is the one for the `j`-th such element, numbered by its
      position among all matches, and those positions strictly increase. */
  lemma ExtractPositions(selector: string, attribute: string, els: seq<Element>)
    ensures var idx := Positions(els, ContentTest(attribute));
            var r := Extract(selector, attribute, els);
            |r| == |idx| &&
            (forall j :: 0 <= j < |idx| ==>
               HasContent(els, attribute, idx[j]) &&
               r[j] == SimpleItem(selector, idx[j], Content(els[idx[j]], attribute).value)) &&
            (forall j, k :: 0 <= j < k < |idx| ==> idx[j] < idx[k])
  {
    var s := Contents(els, attribute);
    PositionsAgree(s, Kept, els, ContentTest(attribute));
    FilterSelects(s, Kept);
    PositionsExact(els, ContentTest(attribute));
  }

  /** `d` is the record of some element with content. */
  ghost predicate FromElement(selector: string, attribute: string, els: seq<Element>, d: Record) {
    exists i :: HasContent(els, attribute, i) && d == SimpleItem(selector, i, Content(els[i], attribute).value)
  }

  /** The records are exactly the elements with content: each record is
      the one for an element whose content is non-empty, and every such
      element has its record. */
  lemma ExtractSpec(selector: string, attribute: string, els: seq<Element>)
    ensures forall d :: d in Extract(selector, attribute, els) ==> FromElement(selector, attribute, els, d)
    ensures forall i :: HasContent(els, attribute, i) ==>
              SimpleItem(selector, i, Content(els[i], attribute).value) in Extract(selector, attribute, els)
  {
    var s := Contents(els, attribute);
    var f := Filter(s, Kept);
    var r := Extract(selector, attribute, els);
    FilterMembers(s, Kept);
    forall d | d in r
      ensures FromElement(selector, attribute, els, d)
    {
      var j :| 0 <= j < |r| && r[j] == d;
      assert f[j] in s && Kept(f[j]);
      var k :| 0 <= k < |s| && s[k] == f[j];
      ExtractAt(selector, attribute, els, j);
      assert f[j] == (k, Content(els[k], attribute));
      assert HasContent(els, attribute, k);
    }
    forall i | HasContent(els, attribute, i)
      ensures SimpleItem(selector, i, Content(els[i], attribute).value) in r
    {
      assert Kept(s[i]);
      var j :| 0 <= j < |f| && f[j] == s[i];
      ExtractAt(selector, attribute, els, j);
    }
  }

  /** `SimpleScraper.get_item_key`: "<selector>_<position>"; a missing field
      raises (None). */
  function SimpleKey(d: Record): (k: Option<string>)
    ensures k.Some? <==> "selector" in Keys(d) && "position" in Keys(d)
  {
    var selector, position := Get(d, "selector"), Get(d, "position");
    if selector.Some? && position.Some? then Some(Show(selector.value) + "_" + Show(position.value)) else None
  }

  /** Two numbers with the same key suffix after the same prefix are equal. */
  lemma SuffixInjective(prefix: string, m: int, n: int)
    requires prefix + IntToStr(m) == prefix + IntToStr(n)
    ensures m == n
  {
    assert (prefix + IntToStr(m))[|prefix|..] == IntToStr(m);
    assert (prefix + IntToStr(n))[|prefix|..] == IntToStr(n);
    IntToStrInjective(m, n);
  }

  /** The key of an extracted record names its selector and position. */
  lemma SimpleKeyOf(selector: string, i: nat, content: string)
    ensures SimpleKey(SimpleItem(selector, i, content)) == Some((selector + "_") + IntToStr(i))
  {
    SimpleItemFields(selector, i, content);
  }

  /** The records of one page have pairwise different keys, because their
      positions increase along the list. */
  lemma ExtractKeysDistinct(selector: string, attribute: string, els: seq<Element>, j: nat, k: nat)
    requires j < k < |Extract(selector, attribute, els)|
    ensures SimpleKey(Extract(selector, attribute, els)[j]).Some?
    ensures SimpleKey(Extract(selector, attribute, els)[j]) != SimpleKey(Extract(selector, attribute, els)[k])
  {
    var f := Filter(Contents(els, attribute), Kept);
    ContentsOrder(els, attribute, j, k);
    ExtractAt(selector, attribute, els, j);
    ExtractAt(selector, attribute, els, k);
    SimpleKeysDiffer(selector, f[j].0, f[j].1.GetOr(""), f[k].0, f[k].1.GetOr(""));
  }

  /** Kept elements keep increasing positions. */
  lemma ContentsOrder(els: seq<Element>, attribute: string, j: nat, k: nat)
    requires j < k < |Filter(Contents(els, attribute), Kept)|
    ensures Filter(Contents(els, attribute), Kept)[j].0 < Filter(Contents(els, attribute), Kept)[k].0
  {
    FilterOrder(Contents(els, attribute), Kept, j, k);
  }

  /** Records at different positions have different keys. */
  lemma SimpleKeysDiffer(selector: string, a: nat, ca: string, b: nat, cb: string)
    requires a != b
    ensures SimpleKey(SimpleItem(selector, a, ca)).Some?
    ensures SimpleKey(SimpleItem(selector, a, ca)) != SimpleKey(SimpleItem(selector, b, cb))
  {
    SimpleKeyOf(selector, a, ca);
    SimpleKeyOf(selector, b, cb);
    if (selector + "_") + IntToStr(a) == (selector + "_") + IntToStr(b) {
      SuffixInjective(selector + "_", a, b);
    }
  }

  /** The longest content `format_item` shows in full. */
  const MaxContent: nat := 100

  /** `content[:97] + "..."` when longer than 100 characters. */
  function Truncate(s: string): (r: string)
    ensures |r| <= MaxContent
    ensures |s| <= MaxContent ==> r == s
    ensures |s| > MaxContent ==> |r| == MaxContent && r[..MaxContent - 3] == s[..MaxContent - 3] && EndsWith(r, "...")
  {
    if |s| > MaxContent then s[..MaxContent - 3] + "..." else s
  }

  /** Shortening is done once: a shortened content is shown as it is. */
  lemma TruncateIdempotent(s: string)
    ensures Truncate(Truncate(s)) == Truncate(s)
    ensures StartsWith(s, Truncate(s)) || (|s| > MaxContent && StartsWith(s, Truncate(s)[..MaxContent - 3]))
  {
  }

  /** `SimpleScraper.format_item`: "Position <position>: <content>". The
      content must be a string (`len` raises otherwise); a missing field
      raises too. */
  function SimpleFormat(d: Record): (r: Option<string>)
    ensures r.Some? <==> "position" in Keys(d) && Get(d, "content").Some? && Get(d, "content").value.Str?
  {
    var content, position := Get(d, "content"), Get(d, "position");
    if content.Some? && content.value.Str? && position.Some? then
      Some("Position " + Show(position.value) + ": " + Truncate(content.value.s))
    else None
  }

  /** An extracted record shows its position and its content, shortened to
      at most 100 characters. */
  lemma SimpleFormatItem(selector: string, i: nat, content: string)
    ensures SimpleFormat(SimpleItem(selector, i, content)) == Some("Position " + IntToStr(i) + ": " + Truncate(content))
    ensures StartsWith(SimpleFormat(SimpleItem(selector, i, content)).value, "Position " + IntToStr(i) + ": ")
    ensures |SimpleFormat(SimpleItem(selector, i, content)).value| <= |"Position " + IntToStr(i) + ": "| + MaxContent
  {
    var pre := "Position " + IntToStr(i) + ": ";
    SimpleItemFields(selector, i, content);
    assert (pre + Truncate(content))[..|pre|] == pre;
  }

  // ---------------------------------------------------------------------------
  // ProductScraper

  /** The product page: the product elements, each giving its title and
      price text or failing (a missing sub-element); or a page where the
      product search itself failed, of which only the body text is read. */
  datatype ProductPage = Listing(products: seq<Option<(string, string)>>) | Unreadable(body: string)

  /** The field names of a product record. */
  lemma ProductFieldsDistinct()
    ensures "id" != "title" && "id" != "price" && "id" != "position" && "id" != "content"
    ensures "title" != "price" && "title" != "position" && "title" != "content"
    ensures "price" != "position" && "content" != "position"
  {
    assert "id"[0] == 'i' && "title"[0] == 't' && "content"[0] == 'c';
    assert "price"[1] == 'r' && "position"[1] == 'o';
  }

  /** The record of the product element at position `i`. */
  function Product(i: nat, title: string, price: string): Record {
    ProductFieldsDistinct();
    var id, t, p, pos := Str("product_" + IntToStr(i)), Str(Strip(title)), Str(Strip(price)), Int(i);
    GetFour("id", id, "title", t, "price", p, "position", pos);
    [("id", id), ("title", t), ("price", p), ("position", pos)]
  }

  /** The fields of a product record. */
  lemma ProductFields(i: nat, title: string, price: string)
    ensures Get(Product(i, title, price), "id") == Some(Str("product_" + IntToStr(i)))
    ensures Get(Product(i, title, price), "title") == Some(Str(Strip(title)))
    ensures Get(Product(i, title, price), "price") == Some(Str(Strip(price)))
    ensures Get(Product(i, title, price), "position") == Some(Int(i))
  {
    ProductFieldsDistinct();
    var id, t, p, pos := Str("product_" + IntToStr(i)), Str(Strip(title)), Str(Strip(price)), Int(i);
    GetFour("id", id, "title", t, "price", p, "position", pos);
  }

  /** How many characters of the page body the fallback keeps. */
  const BodyPrefix: nat := 500

  /** The single record of the fallback: the first 500 characters of the
      page text. */
  function PageContent(body: string): Record {
    ProductFieldsDistinct();
    var id, t, c, pos := Str("page_content"), Str("Page Content"), Str(Take(body, BodyPrefix)), Int(0);
    GetFour("id", id, "title", t, "content", c, "position", pos);
    [("id", id), ("title", t), ("content", c), ("position", pos)]
  }

  /** The fields of the fallback record; it has no price. */
  lemma PageContentFields(body: string)
    ensures Get(PageContent(body), "id") == Some(Str("page_content"))
    ensures Get(PageContent(body), "title") == Some(Str("Page Content"))
    ensures Get(PageContent(body), "content") == Some(Str(Take(body, BodyPrefix)))
    ensures Get(PageContent(body), "position") == Some(Int(0))
    ensures Get(PageContent(body), "price").None?
  {
    ProductFieldsDistinct();
    var id, t, c, pos := Str("page_content"), Str("Page Content"), Str(Take(body, BodyPrefix)), Int(0);
    GetFour("id", id, "title", t, "content", c, "position", pos);
    assert Keys(PageContent(body)) == ["id", "title", "content", "position"];
  }

  /** Each product element's position and title/price, when it has both. */
  function Numbered(ps: seq<Option<(string, string)>>): (r: seq<(nat, Option<(string, string)>)>)
    ensures |r| == |ps|
    ensures forall i :: 0 <= i < |ps| ==> r[i] == (i, ps[i])
  {
    seq(|ps|, i requires 0 <= i < |ps| => (i, ps[i]))
  }

  /** The product element parsed. */
  predicate Parsed(p: (nat, Option<(string, string)>)) {
    p.1.Some?
  }

  /** `ProductScraper.extract_data`: a record per product element that has
      both a title and a price, numbered by its position among all product
      elements; when the product search fails, the single page-content
      record. */
  function Products(page: ProductPage): (r: seq<Record>)
    ensures page.Unreadable? ==> r == [PageContent(page.body)]
    ensures page.Listing? ==> |r| <= |page.products|
  {
    match page
    case Unreadable(body) => [PageContent(body)]
    case Listing(ps) =>
      Map((p: (nat, Option<(string, string)>)) => Product(p.0, p.1.GetOr(("", "")).0, p.1.GetOr(("", "")).1),
          Filter(Numbered(ps), Parsed))
  }

  /** `ProductScraper.get_item_key`: the "id" field; a missing field raises. */
  function ProductKey(d: Record): (k: Option<Value>)
    ensures k.Some? <==> "id" in Keys(d)
  {
    Get(d, "id")
  }

  /** The `j`-th product record is the one for the `j`-th parsed element. */
  lemma ProductAt(ps: seq<Option<(string, string)>>, j: nat)
    requires j < |Products(Listing(ps))|
    ensures var q := Filter(Numbered(ps), Parsed)[j];
            Products(Listing(ps))[j] == Product(q.0, q.1.GetOr(("", "")).0, q.1.GetOr(("", "")).1)
  {
  }

  /** A product element with both a title and a price. */
  function HasProduct(o: Option<(string, string)>): bool {
    o.Some?
  }

  /** The listing's records follow its parsed product elements in page
      order: the `j`-th record is the one for the `j`-th parsed element,
      numbered by its position among all product elements, and those
      positions strictly increase. */
  lemma ProductsPositions(ps: seq<Option<(string, string)>>)
    ensures var idx := Positions(ps, HasProduct);
            var r := Products(Listing(ps));
            |r| == |idx| &&
            (forall j :: 0 <= j < |idx| ==>
               idx[j] < |ps| && ps[idx[j]].Some? &&
               r[j] == Product(idx[j], ps[idx[j]].value.0, ps[idx[j]].value.1)) &&
            (forall j, k :: 0 <= j < k < |idx| ==> idx[j] < idx[k])
  {
    var s := Numbered(ps);
    PositionsAgree(s, Parsed, ps, HasProduct);
    FilterSelects(s, Parsed);
    PositionsExact(ps, HasProduct);
  }

  /** `d` is the record of some parsed product element. */
  ghost predicate FromProduct(ps: seq<Option<(string, string)>>, d: Record) {
    exists i :: 0 <= i < |ps| && ps[i].Some? && d == Product(i, ps[i].value.0, ps[i].value.1)
  }

  /** The listing's records are exactly its parsed products: a product
      element missing its title or price is skipped, every other has its
      record. */
  lemma ProductsSpec(ps: seq<Option<(string, string)>>)
    ensures forall d :: d in Products(Listing(ps)) ==> FromProduct(ps, d)
    ensures forall i :: 0 <= i < |ps| && ps[i].Some? ==> Product(i, ps[i].value.0, ps[i].value.1) in Products(Listing(ps))
  {
    var r := Products(Listing(ps));
    forall d | d in r
      ensures FromProduct(ps, d)
    {
      var j :| 0 <= j < |r| && r[j] == d;
      ProductSound(ps, j);
    }
    forall i | 0 <= i < |ps| && ps[i].Some?
      ensures Product(i, ps[i].value.0, ps[i].value.1) in r
    {
      ProductComplete(ps, i);
    }
  }

  lemma ProductSound(ps: seq<Option<(string, string)>>, j: nat)
    requires j < |Products(Listing(ps))|
    ensures FromProduct(ps, Products(Listing(ps))[j])
  {
    NumberedAt(ps, j);
    ProductAt(ps, j);
    var k := Filter(Numbered(ps), Parsed)[j].0;
    assert ps[k].Some? && Products(Listing(ps))[j] == Product(k, ps[k].value.0, ps[k].value.1);
  }

  /** The `j`-th parsed product is the element at its recorded position. */
  lemma NumberedAt(ps: seq<Option<(string, string)>>, j: nat)
    requires j < |Filter(Numbered(ps), Parsed)|
    ensures var q := Filter(Numbered(ps), Parsed)[j];
            q.0 < |ps| && q.1 == ps[q.0] && q.1.Some?
  {
    var s := Numbered(ps);
    var f := Filter(s, Parsed);
    FilterMembers(s, Parsed);
    assert f[j] in s && Parsed(f[j]);
  }

  lemma ProductComplete(ps: seq<Option<(string, string)>>, i: nat)
    requires i < |ps| && ps[i].Some?
    ensures Product(i, ps[i].value.0, ps[i].value.1) in Products(Listing(ps))
  {
    var s := Numbered(ps);
    var f := Filter(s, Parsed);
    FilterMembers(s, Parsed);
    assert Parsed(s[i]);
    var j :| 0 <= j < |f| && f[j] == s[i];
    ProductAt(ps, j);
  }

  /** Product records of one listing have pairwise different ids. */
  lemma ProductKeysDistinct(ps: seq<Option<(string, string)>>, j: nat, k: nat)
    requires j < k < |Products(Listing(ps))|
    ensures ProductKey(Products(Listing(ps))[j]).Some?
    ensures ProductKey(Products(Listing(ps))[j]) != ProductKey(Products(Listing(ps))[k])
  {
    var f := Filter(Numbered(ps), Parsed);
    NumberedOrder(ps, j, k);
    ProductAt(ps, j);
    ProductAt(ps, k);
    ProductIdsDiffer(f[j].0, f[j].1.GetOr(("", "")).0, f[j].1.GetOr(("", "")).1,
                     f[k].0, f[k].1.GetOr(("", "")).0, f[k].1.GetOr(("", "")).1);
  }

  /** Parsed products keep increasing positions. */
  lemma NumberedOrder(ps: seq<Option<(string, string)>>, j: nat, k: nat)
    requires j < k < |Filter(Numbered(ps), Parsed)|
    ensures Filter(Numbered(ps), Parsed)[j].0 < Filter(Numbered(ps), Parsed)[k].0
  {
    var s := Numbered(ps);
    FilterOrder(s, Parsed, j, k);
  }

  /** Products at different positions have different ids. */
  lemma ProductIdsDiffer(a: nat, ta: string, pa: string, b: nat, tb: string, pb: string)
    requires a != b
    ensures ProductKey(Product(a, ta, pa)).Some?
    ensures ProductKey(Product(a, ta, pa)) != ProductKey(Product(b, tb, pb))
  {
    ProductFields(a, ta, pa);
    ProductFields(b, tb, pb);
    if "product_" + IntToStr(a) == "product_" + IntToStr(b) {
      SuffixInjective("product_", a, b);
    }
  }

  /** `ProductScraper.format_item`: "<title> - <price>" when both are
      present, otherwise the title, else the content, else `str(item)`
      (given as `repr`, the dict's printed form). */
  function ProductFormat(d: Record, repr: string): (r: string)
    ensures "title" in Keys(d) && "price" in Keys(d) ==> r == Show(Get(d, "title").value) + " - " + Show(Get(d, "price").value)
    ensures "price" !in Keys(d) && "title" in Keys(d) ==> r == Show(Get(d, "title").value)
    ensures "title" !in Keys(d) && "content" in Keys(d) ==> r == Show(Get(d, "content").value)
    ensures "title" !in Keys(d) && "content" !in Keys(d) ==> r == repr
  {
    var title, price, content := Get(d, "title"), Get(d, "price"), Get(d, "content");
    if title.Some? && price.Some? then Show(title.value) + " - " + Show(price.value)
    else if title.Some? then Show(title.value)
    else if content.Some? then Show(content.value)
    else repr
  }

  /** A scraped product shows as its stripped title and price; the fallback
      record shows as "Page Content". */
  lemma ProductFormatScraped(i: nat, title: string, price: string, body: string, repr: string)
    ensures ProductFormat(Product(i, title, price), repr) == Strip(title) + " - " + Strip(price)
    ensures ProductFormat(PageContent(body), repr) == "Page Content"
  {
    ProductFields(i, title, price);
    PageContentFields(body);
  }
}

=== FILE: site_monitor.dfy ===
/** The monitoring loop (`SiteMonitor` in site_monitor.py) as pure
    transitions over the contents of its data file. The scrape, the clock,
    the formatter and the Telegram sender are parameters; reading and
    writing the file is replaced by the `Stored` value it holds. */
module SiteMonitor {
  import opened Wrappers
  import opened Text
  import opened Records
  import opened Types
  import opened ChangeFinder
  import Render
  import ContestFormatter

  /** What reading the data file yields. */
  datatype Stored =
    | Missing       // no file: FileNotFoundError
    | Unparsable    // not JSON: JSONDecodeError
    | Scalar        // JSON that is neither a list nor an object
    | Legacy(items: seq<Record>)    // the old format, a bare list of items
    | History(current: Option<seq<Record>>, previous: Option<seq<Record>>,
              timestamp: Option<string>, previousTimestamp: Option<string>)
      // the object format; None is an absent (or null) key

  /** `format_changes_message(new, removed, changed, current)`; None when
      it raises. */
  type Renderer = (seq<Record>, seq<Record>, seq<ItemChange<Record>>, seq<Record>) -> Option<string>

  /** The monitor's `telegram_sender`. With `enable_telegram=False` the
      attribute is never set (Disabled), so sending raises AttributeError;
      with missing credentials it is None (NotConfigured); a configured
      sender maps a message to whether `send_message` returned (true) or
      raised (false). */
  datatype Telegram = Disabled | NotConfigured | Configured(send: string -> bool)

  datatype Delivery = Skipped | Delivered | Failed

  /** The monitor's collaborators: the scraper's `get_item_key` (None when
      it raises), the formatter and the Telegram sender. */
  datatype Config = Config(key: Record -> Option<string>, render: Renderer, telegram: Telegram)

  /** What one run produced: the message it notified with (if any), what
      became of the notification, and the data file afterwards. */
  datatype Run = Run(alert: Option<string>, delivery: Option<Delivery>, stored: Stored)

  // ---------------------------------------------------------------------------
  // The data file

  /** The object that `save_current_data` starts from: a legacy list is
      migrated to `{"current": list}`, and a missing or unparsable file
      counts as `{}`. */
  function Existing(s: Stored): Stored
    requires !s.Scalar?
  {
    match s
    case Legacy(items) => History(Some(items), None, None, None)
    case History(_, _, _, _) => s
    case _ => History(None, None, None, None)
  }

  /** `load_previous_data()`: None when the call raises. */
  function Load(s: Stored): (r: Option<seq<Record>>)
    ensures r.None? <==> s.Scalar?
    ensures r.Some? ==> r == Some(Existing(s).current.GetOr([]))
  {
    match s
    case Missing => Some([])
    case Unparsable => Some([])
    case Scalar => None
    case Legacy(items) => Some(items)
    case History(current, _, _, _) => Some(current.GetOr([]))
  }

  /** `save_current_data(items)` at time `now`. A file it cannot read as an
      object leaves it untouched (the error is logged); otherwise the old
      current becomes the previous snapshot and the old timestamp the
      previous timestamp. */
  function Save(s: Stored, items: seq<Record>, now: string): (r: Stored)
    ensures s.Scalar? ==> r == s
    ensures !s.Scalar? ==> r.History? && Load(r) == Some(items) && r.previous == Load(s)
    ensures !s.Scalar? && r.History? ==> r.timestamp == Some(now) && r.previousTimestamp == (if s.History? then s.timestamp else None)
  {
    if s.Scalar? then s
    else
      var existing := Existing(s);
      History(Some(items), Some(existing.current.GetOr([])), Some(now), existing.timestamp)
  }

  /** Only one generation of history survives two saves. */
  lemma OneGeneration(s: Stored, a: seq<Record>, b: seq<Record>, t1: string, t2: string)
    requires !s.Scalar?
    ensures Save(Save(s, a, t1), b, t2) == History(Some(b), Some(a), Some(t2), Some(t1))
  {
  }

  // ---------------------------------------------------------------------------
  // Detection and notification

  /** `new_items or removed_items or changed_items`. */
  predicate AnyChange(d: Diff) {
    |d.added| > 0 || |d.removed| > 0 || |d.changed| > 0
  }

  /** `find_changes(current, previous)` with the scraper's key; None when
      the key raises on some record. */
  function Changes(c: Config, current: seq<Record>, previous: seq<Record>): Option<Diff> {
    FindChangesOrRaise(current, previous, c.key)
  }

  function Rendered(c: Config, current: seq<Record>, d: Diff): Option<string> {
    c.render(d.added, d.removed, d.changed, current)
  }

  /** How the detection step ends: it raised (in `get_item_key` or in the
      formatter), found nothing to send, or has a message to send. */
  datatype Outcome = Raised | Quiet | Alert(message: string)

  /** The gate shared by `monitor` and `check_current_status`: the key
      raises on a record of either snapshot, or the formatter raises on a
      non-empty diff, or else the rendered message is sent when something
      changed and it mentions a key change. */
  function Gate(c: Config, current: seq<Record>, previous: seq<Record>): (g: Outcome)
    ensures g.Raised? <==>
              Unkeyed(current, c.key) || Unkeyed(previous, c.key) ||
              (AnyChange(Changes(c, current, previous).value) &&
               Rendered(c, current, Changes(c, current, previous).value).None?)
    ensures g.Alert? <==>
              Changes(c, current, previous).Some? && AnyChange(Changes(c, current, previous).value) &&
              Rendered(c, current, Changes(c, current, previous).value).Some? &&
              Contains(Rendered(c, current, Changes(c, current, previous).value).value, Render.KeyChange)
    ensures g.Alert? ==> Some(g.message) == Rendered(c, current, Changes(c, current, previous).value)
  {
    match Changes(c, current, previous)
    case None => Raised
    case Some(d) =>
      if AnyChange(d) then
        match Rendered(c, current, d)
        case None => Raised
        case Some(message) =>
          if |message| > 0 && Contains(message, Render.KeyChange) then Alert(message) else Quiet
      else Quiet
  }

  /** `send_telegram_alert(message)`: None when it raises, which only the
      missing attribute does; a failing sender is caught and logged, and
      without a sender it only logs. */
  function SendAlert(t: Telegram, message: string): (r: Option<Delivery>)
    ensures r.None? <==> t.Disabled?
    ensures r == Some(Skipped) <==> t.NotConfigured?
    ensures r == Some(Delivered) <==> t.Configured? && t.send(message)
  {
    match t
    case Disabled => None
    case NotConfigured => Some(Skipped)
    case Configured(send) => Some(if send(message) then Delivered else Failed)
  }

  /** The alert of a run and its delivery; None when detection or sending
      raises. */
  function Notify(c: Config, current: seq<Record>, previous: seq<Record>): Option<(Option<string>, Option<Delivery>)> {
    match Gate(c, current, previous)
    case Raised => None
    case Quiet => Some((None, None))
    case Alert(message) =>
      match SendAlert(c.telegram, message)
      case None => None
      case Some(delivery) => Some((Some(message), Some(delivery)))
  }

  /** A run raises after loading exactly when detection raises, or when
      there is an alert and the sender was never set up. */
  predicate RunRaises(c: Config, current: seq<Record>, previous: seq<Record>) {
    Gate(c, current, previous).Raised? || (c.telegram.Disabled? && Gate(c, current, previous).Alert?)
  }

  /** The message a run notifies with. */
  function Sent(g: Outcome): Option<string> {
    if g.Alert? then Some(g.message) else None
  }

  /** `monitor()`: `scraped` is None when the scrape raises. A raising
      scrape, load, key, formatter or send ends the run before anything is
      saved; otherwise the current snapshot is saved whether or not a
      notification went out. */
  function Monitor(c: Config, scraped: Option<seq<Record>>, s: Stored, now: string): (r: Option<Run>)
    ensures r.None? <==> scraped.None? || s.Scalar? || RunRaises(c, scraped.value, Load(s).value)
    ensures scraped.Some? && !s.Scalar? && (Unkeyed(scraped.value, c.key) || Unkeyed(Load(s).value, c.key)) ==> r.None?
    ensures r.Some? ==> Load(r.value.stored) == scraped && r.value.stored.History? && r.value.stored.previous == Load(s)
    ensures r.Some? ==> r.value.alert == Sent(Gate(c, scraped.value, Load(s).value))
    ensures r.Some? ==> (r.value.delivery.Some? <==> r.value.alert.Some?)
  {
    if scraped.None? then None
    else
      match Load(s)
      case None => None
      case Some(previous) =>
        match Notify(c, scraped.value, previous)
        case None => None
        case Some((alert, delivery)) => Some(Run(alert, delivery, Save(s, scraped.value, now)))
  }

  /** `check_current_status()`: the same detection and gate, no save. */
  function CheckCurrentStatus(c: Config, scraped: Option<seq<Record>>, s: Stored): (r: Option<Run>)
    ensures r.None? <==> scraped.None? || s.Scalar? || RunRaises(c, scraped.value, Load(s).value)
    ensures r.Some? ==> r.value.stored == s
  {
    if scraped.None? then None
    else
      match Load(s)
      case None => None
      case Some(previous) =>
        match Notify(c, scraped.value, previous)
        case None => None
        case Some((alert, delivery)) => Some(Run(alert, delivery, s))
  }

  /** A status check notifies exactly as a monitor run would, and a
      monitor run that fails to deliver still saves. */
  lemma CheckMatchesMonitor(c: Config, scraped: Option<seq<Record>>, s: Stored, now: string)
    ensures CheckCurrentStatus(c, scraped, s).Some? <==> Monitor(c, scraped, s, now).Some?
    ensures Monitor(c, scraped, s, now).Some? ==>
              CheckCurrentStatus(c, scraped, s).value.alert == Monitor(c, scraped, s, now).value.alert &&
              CheckCurrentStatus(c, scraped, s).value.delivery == Monitor(c, scraped, s, now).value.delivery &&
              Monitor(c, scraped, s, now).value.stored == Save(s, scraped.value, now)
  {
  }

  /** A run whose diff is non-empty and whose rendered message mentions a
      key change notifies with exactly that message. */
  lemma MonitorAlerts(c: Config, current: seq<Record>, s: Stored, now: string, message: string)
    requires !s.Scalar? && !c.telegram.Disabled? && Changes(c, current, Load(s).value).Some?
    requires AnyChange(Changes(c, current, Load(s).value).value)
    requires Rendered(c, current, Changes(c, current, Load(s).value).value) == Some(message)
    requires Contains(message, Render.KeyChange)
    ensures Monitor(c, Some(current), s, now).value.alert == Some(message)
  {
  }

  /** What is saved, and what is alerted, does not depend on the Telegram
      sender, as long as sending does not raise: a failed delivery still
      saves. */
  lemma SaveIgnoresTelegram(c: Config, t: Telegram, scraped: Option<seq<Record>>, s: Stored, now: string)
    requires Monitor(c, scraped, s, now).Some?
    ensures Monitor(c.(telegram := t), scraped, s, now).Some? <==>
              !(t.Disabled? && Monitor(c, scraped, s, now).value.alert.Some?)
    ensures Monitor(c.(telegram := t), scraped, s, now).Some? ==>
              Monitor(c.(telegram := t), scraped, s, now).value.stored == Monitor(c, scraped, s, now).value.stored &&
              Monitor(c.(telegram := t), scraped, s, now).value.alert == Monitor(c, scraped, s, now).value.alert
  {
  }

  /** A monitor built with Telegram disabled raises on its first alert,
      before the snapshot is saved: the data file keeps its old contents,
      so the same changes are detected again on the next run. */
  lemma DisabledAlertSavesNothing(c: Config, current: seq<Record>, s: Stored, now: string)
    requires !s.Scalar? && c.telegram.Disabled?
    requires Gate(c, current, Load(s).value).Alert?
    ensures Monitor(c, Some(current), s, now).None?
    ensures Monitor(c.(telegram := NotConfigured), Some(current), s, now).value.stored == Save(s, current, now)
  {
  }

  // ---------------------------------------------------------------------------
  // Replay

  /** `replay_last_changes()`: the message for the change between the
      saved previous and current snapshots, or None for a file without
      history, with an empty side, or with nothing changed. Every raised
      error (a missing file, bad JSON, a non-object, a record without a
      key, a formatter that raises) also gives None. */
  function Replay(c: Config, s: Stored): (r: Option<string>)
    ensures !s.History? ==> r.None?
    ensures s.History? && (Unkeyed(s.current.GetOr([]), c.key) || Unkeyed(s.previous.GetOr([]), c.key)) ==> r.None?
    ensures r.Some? <==>
              s.History? && |s.current.GetOr([])| > 0 && |s.previous.GetOr([])| > 0 &&
              Changes(c, s.current.GetOr([]), s.previous.GetOr([])).Some? &&
              AnyChange(Changes(c, s.current.GetOr([]), s.previous.GetOr([])).value) &&
              Rendered(c, s.current.GetOr([]), Changes(c, s.current.GetOr([]), s.previous.GetOr([])).value).Some?
    ensures r.Some? ==>
              r == Rendered(c, s.current.GetOr([]), Changes(c, s.current.GetOr([]), s.previous.GetOr([])).value)
  {
    match s
    case History(current, previous, _, _) =>
      var cur, prev := current.GetOr([]), previous.GetOr([]);
      if |cur| == 0 || |prev| == 0 then None
      else
        var d := Changes(c, cur, prev);
        if d.Some? && AnyChange(d.value) then Rendered(c, cur, d.value) else None
    case _ => None
  }

  /** Replaying right after a completed monitor run renders that run's
      changes: when both snapshots were non-empty, the replay is the
      message the run rendered, and in particular the one it notified
      with. */
  lemma ReplayAfterMonitor(c: Config, current: seq<Record>, s: Stored, now: string)
    requires !s.Scalar? && |current| > 0 && |Load(s).value| > 0
    requires Monitor(c, Some(current), s, now).Some?
    ensures Changes(c, current, Load(s).value).Some?
    ensures var d := Changes(c, current, Load(s).value).value;
            Replay(c, Monitor(c, Some(current), s, now).value.stored) ==
              (if AnyChange(d) then Rendered(c, current, d) else None)
    ensures Monitor(c, Some(current), s, now).value.alert.Some? ==>
              Replay(c, Monitor(c, Some(current), s, now).value.stored) == Monitor(c, Some(current), s, now).value.alert
  {
    var r := Monitor(c, Some(current), s, now).value;
    assert r.stored == History(Some(current), Load(s), Some(now), Existing(s).timestamp);
  }

  // ---------------------------------------------------------------------------
  // The contest monitor

  /** The contest formatter as the monitor's renderer. Its message is only
      modelled for snapshots and changes it can read (text names, numeric
      ranks); anything else counts as raising here. */
  function ContestRenderer(f: ContestFormatter.Formatter): Renderer {
    (added: seq<Record>, removed: seq<Record>, changed: seq<ItemChange<Record>>, current: seq<Record>) =>
      if ContestFormatter.AllReadable(current) && ContestFormatter.FocusReadable(f, changed, current) then
        Some(ContestFormatter.FormatChangesMessage(f, added, removed, changed, current))
      else None
  }

  lemma ContestRendererApplies(f: ContestFormatter.Formatter, c: Config, current: seq<Record>, d: Diff)
    requires c.render == ContestRenderer(f) && ContestFormatter.AllReadable(current)
    requires ContestFormatter.FocusReadable(f, d.changed, current)
    ensures Rendered(c, current, d) == Some(ContestFormatter.FormatChangesMessage(f, d.added, d.removed, d.changed, current))
  {
  }

  /** A non-empty focused view of the changes means something changed and
      the contest message announces a key change. */
  lemma ContestKeyChange(f: ContestFormatter.Formatter, current: seq<Record>, d: Diff)
    requires ContestFormatter.AllReadable(current) && ContestFormatter.FocusReadable(f, d.changed, current)
    requires |ContestFormatter.ShownChanges(f, d.changed, current)| > 0
    ensures AnyChange(d)
    ensures Contains(ContestFormatter.FormatChangesMessage(f, d.added, d.removed, d.changed, current), Render.KeyChange)
  {
    ContestFormatter.ShownNonEmpty(f, d.changed, current);
    ContestFormatter.MessageAnnouncesKeyChanges(f, d.added, d.removed, d.changed, current);
  }

  /** With the contest formatter, a run notifies whenever the focused view
      of the changes is non-empty. */
  lemma ContestNotifiesShownChanges(f: ContestFormatter.Formatter, key: Record -> Option<string>, t: Telegram,
                                    current: seq<Record>, s: Stored, now: string)
    requires !s.Scalar? && !t.Disabled? && ContestFormatter.AllReadable(current)
    requires FindChangesOrRaise(current, Load(s).value, key).Some?
    requires ContestFormatter.FocusReadable(f, FindChangesOrRaise(current, Load(s).value, key).value.changed, current)
    requires |ContestFormatter.ShownChanges(f, FindChangesOrRaise(current, Load(s).value, key).value.changed, current)| > 0
    ensures Monitor(Config(key, ContestRenderer(f), t), Some(current), s, now).value.alert.Some?
  {
    var d := FindChangesOrRaise(current, Load(s).value, key).value;
    var c := Config(key, ContestRenderer(f), t);
    ContestKeyChange(f, current, d);
    ContestRendererApplies(f, c, current, d);
    MonitorAlerts(c, current, s, now, ContestFormatter.FormatChangesMessage(f, d.added, d.removed, d.changed, current));
  }
}

=== FILE: sorting.dfy ===
/** Python's `list.sort(key=...)` on an integer key: a stable sort. It is
    modelled as insertion sort, which is stable, and specified by what
    stability means: the result is ordered by key, and the elements that
    share a key keep their original relative order. */
module Sorting {
  import opened Seqs

  /** Ordered by `key`, smallest first. */
  predicate SortedBy<T>(s: seq<T>, key: T -> int) {
    forall i, j :: 0 <= i < j < |s| ==> key(s[i]) <= key(s[j])
  }

  /** The elements of `s` with key `k`, in their order in `s`. */
  function WithKey<T>(s: seq<T>, key: T -> int, k: int): seq<T> {
    Filter(s, HasKey(key, k))
  }

  /** The test "has key `k`". */
  function HasKey<T>(key: T -> int, k: int): T -> bool {
    (x: T) => key(x) == k
  }

  /** The position before which `x` goes in the ordered `s`: after every
      element whose key is at most `x`'s. */
  function InsertAt<T>(s: seq<T>, key: T -> int, x: T): (i: nat)
    requires SortedBy(s, key)
    ensures i <= |s|
    ensures forall j :: 0 <= j < i ==> key(s[j]) <= key(x)
    ensures forall j :: i <= j < |s| ==> key(s[j]) > key(x)
    decreases |s|
  {
    if |s| == 0 || key(s[|s| - 1]) <= key(x) then |s|
    else InsertAt(s[..|s| - 1], key, x)
  }

  /** `x` put into the ordered `s` after its equals. */
  function Insert<T>(s: seq<T>, key: T -> int, x: T): (r: seq<T>)
    requires SortedBy(s, key)
    ensures SortedBy(r, key)
    ensures multiset(r) == multiset(s) + multiset{x}
  {
    var i := InsertAt(s, key, x);
    InsertBetween(s, key, x, i);
    s[..i] + [x] + s[i..]
  }

  /** Putting `x` between the elements keyed at most and above it keeps
      the order and adds exactly `x`. */
  lemma InsertBetween<T>(s: seq<T>, key: T -> int, x: T, i: nat)
    requires SortedBy(s, key) && i <= |s|
    requires forall j :: 0 <= j < i ==> key(s[j]) <= key(x)
    requires forall j :: i <= j < |s| ==> key(s[j]) > key(x)
    ensures SortedBy(s[..i] + [x] + s[i..], key)
    ensures multiset(s[..i] + [x] + s[i..]) == multiset(s) + multiset{x}
  {
    var r := s[..i] + [x] + s[i..];
    forall a, b | 0 <= a < b < |r|
      ensures key(r[a]) <= key(r[b])
    {
      if b < i {
        assert r[a] == s[a] && r[b] == s[b];
      } else if b == i {
        assert r[a] == s[a] && r[b] == x;
      } else if a < i {
        assert r[a] == s[a] && r[b] == s[b - 1];
      } else if a == i {
        assert r[a] == x && r[b] == s[b - 1];
      } else {
        assert r[a] == s[a - 1] && r[b] == s[b - 1];
      }
    }
    calc {
      multiset(r);
      multiset(s[..i]) + multiset{x} + multiset(s[i..]);
      { assert s == s[..i] + s[i..]; }
      multiset(s) + multiset{x};
    }
  }

  /** `sorted(s, key=key)`. */
  function SortBy<T>(s: seq<T>, key: T -> int): (r: seq<T>)
    ensures SortedBy(r, key)
    ensures multiset(r) == multiset(s)
    decreases |s|
  {
    if |s| == 0 then []
    else
      assert s == s[..|s| - 1] + [s[|s| - 1]];
      Insert(SortBy(s[..|s| - 1], key), key, s[|s| - 1])
  }

  /** Inserting `x` appends it to the run of its key and leaves every
      other run alone. */
  lemma InsertRuns<T>(s: seq<T>, key: T -> int, x: T, k: int)
    requires SortedBy(s, key)
    ensures WithKey(Insert(s, key, x), key, k) == WithKey(s, key, k) + (if key(x) == k then [x] else [])
  {
    var i := InsertAt(s, key, x);
    var p := HasKey(key, k);
    var a, b := s[..i], s[i..];
    assert s == a + b;
    FilterConcat(a, b, p);
    FilterAround(a, x, b, p);
    if key(x) == k {
      FilterKeepsNone(b, p);
    }
  }

  /** One insertion keeps a run that already agreed with the input's. */
  lemma StableStep<T>(sorted: seq<T>, pre: seq<T>, key: T -> int, x: T, k: int)
    requires SortedBy(sorted, key) && WithKey(sorted, key, k) == WithKey(pre, key, k)
    ensures WithKey(Insert(sorted, key, x), key, k) == WithKey(pre + [x], key, k)
  {
    InsertRuns(sorted, key, x, k);
    FilterConcat(pre, [x], HasKey(key, k));
  }

  /** The sort is stable: for every key, the elements with that key appear
      in the result in the same order as in the input. */
  lemma {:induction false} SortByStable<T>(s: seq<T>, key: T -> int, k: int)
    ensures WithKey(SortBy(s, key), key, k) == WithKey(s, key, k)
    decreases |s|
  {
    if |s| > 0 {
      var pre := s[..|s| - 1];
      SortByStable(pre, key, k);
      StableStep(SortBy(pre, key), pre, key, s[|s| - 1], k);
      assert s == pre + [s[|s| - 1]];
    }
  }

  /** An input already in order comes back unchanged. */
  lemma {:induction false} SortBySorted<T>(s: seq<T>, key: T -> int)
    requires SortedBy(s, key)
    ensures SortBy(s, key) == s
    decreases |s|
  {
    if |s| > 0 {
      var pre, x := s[..|s| - 1], s[|s| - 1];
      assert SortedBy(pre, key);
      SortBySorted(pre, key);
      AppendAtEnd(pre, key, x);
      assert pre + [x] == s;
    }
  }

  /** An element keyed at least as high as all of `s` goes at the end. */
  lemma AppendAtEnd<T>(s: seq<T>, key: T -> int, x: T)
    requires SortedBy(s, key) && forall j :: 0 <= j < |s| ==> key(s[j]) <= key(x)
    ensures Insert(s, key, x) == s + [x]
  {
    var i := InsertAt(s, key, x);
    assert i == |s|;
    assert s[..i] == s && s[i..] == [];
  }
}

=== FILE: text.dfy ===
/** Python string operations the core relies on: ASCII `str.lower`,
    `s.replace(a, b)`, the substring test `sub in s`, `str(int)`,
    `sep.join(parts)`, `s.split(c)`, `s.rstrip()` and `s.strip()`. */
module Text {

  /** `c.lower()` restricted to ASCII: only 'A'..'Z' change. */
  function LowerChar(c: char): char {
    if 'A' <= c <= 'Z' then (c as int + 32) as char else c
  }

  function Lower(s: string): (r: string)
    ensures |r| == |s|
    ensures forall i :: 0 <= i < |s| ==> r[i] == LowerChar(s[i])
  {
    seq(|s|, i requires 0 <= i < |s| => LowerChar(s[i]))
  }

  /** Lower-casing twice is lower-casing once. */
  lemma LowerIdempotent(s: string)
    ensures Lower(Lower(s)) == Lower(s)
  {
  }

  /** `s.replace(a, b)` for single characters. */
  function ReplaceChar(s: string, a: char, b: char): (r: string)
    ensures |r| == |s|
    ensures forall i :: 0 <= i < |s| ==> r[i] == (if s[i] == a then b else s[i])
  {
    seq(|s|, i requires 0 <= i < |s| => if s[i] == a then b else s[i])
  }

  /** Replacing `a` by `b` is undone by replacing `b` by `a`, provided `b`
      did not occur to begin with. */
  lemma ReplaceCharBack(s: string, a: char, b: char)
    requires b !in s
    ensures ReplaceChar(ReplaceChar(s, a, b), b, a) == s
  {
  }

  /** `s.endswith(suffix)`. */
  predicate EndsWith(s: string, suffix: string) {
    |suffix| <= |s| && s[|s| - |suffix|..] == suffix
  }

  /** `s.startswith(prefix)`. */
  predicate StartsWith(s: string, prefix: string) {
    |prefix| <= |s| && s[..|prefix|] == prefix
  }

  // ---------------------------------------------------------------------------
  // Substrings: Python's `sub in s`

  /** `sub` occurs in `s` starting at position `i`. */
  predicate OccursAt(s: string, sub: string, i: int) {
    0 <= i && i + |sub| <= |s| && s[i..i + |sub|] == sub
  }

  /** `sub in s`, computed by scanning start positions left to right. */
  predicate Contains(s: string, sub: string)
    decreases |s|
  {
    (|sub| <= |s| && s[..|sub|] == sub) || (|s| > 0 && Contains(s[1..], sub))
  }

  /** The scan finds `sub` exactly when it occurs at some position. */
  lemma {:induction false} ContainsIff(s: string, sub: string)
    ensures Contains(s, sub) <==> exists i :: OccursAt(s, sub, i)
    decreases |s|
  {
    if |sub| <= |s| && s[..|sub|] == sub {
      assert OccursAt(s, sub, 0);
    } else if |s| > 0 {
      ContainsIff(s[1..], sub);
      if Contains(s[1..], sub) {
        var i :| OccursAt(s[1..], sub, i);
        assert s[1..][i..i + |sub|] == s[i + 1..i + 1 + |sub|];
        assert OccursAt(s, sub, i + 1);
      } else {
        forall i | OccursAt(s, sub, i)
          ensures false
        {
          if i > 0 {
            assert s[1..][i - 1..i - 1 + |sub|] == s[i..i + |sub|];
            assert OccursAt(s[1..], sub, i - 1);
          }
        }
      }
    }
  }

  /** A string occurring in the middle of a concatenation is found in it. */
  lemma ContainsInMiddle(a: string, b: string, c: string, sub: string)
    requires Contains(b, sub)
    ensures Contains(a + b + c, sub)
  {
    ContainsIff(b, sub);
    var i :| OccursAt(b, sub, i);
    assert (a + b + c)[|a| + i..|a| + i + |sub|] == b[i..i + |sub|];
    assert OccursAt(a + b + c, sub, |a| + i);
    ContainsIff(a + b + c, sub);
  }

  /** Every string contains itself. */
  lemma ContainsSelf(s: string)
    ensures Contains(s, s)
  {
  }

  /** A string contains its prefixes. */
  lemma StartsWithContains(s: string, prefix: string)
    requires StartsWith(s, prefix)
    ensures Contains(s, prefix)
  {
  }

  // ---------------------------------------------------------------------------
  // Decimal numerals: Python's `str(n)` for an int

  function DigitChar(d: nat): char
    requires d < 10
  {
    "0123456789"[d]
  }

  function DigitValue(c: char): nat {
    if '0' <= c <= '9' then c as int - '0' as int else 0
  }

  function NatToStr(n: nat): (r: string)
    ensures |r| > 0
    ensures forall i :: 0 <= i < |r| ==> '0' <= r[i] <= '9'
    decreases n
  {
    if n < 10 then [DigitChar(n)] else NatToStr(n / 10) + [DigitChar(n % 10)]
  }

  /** `str(n)` for a Python int: a minus sign for negatives, then the digits. */
  function IntToStr(n: int): string {
    if n < 0 then "-" + NatToStr(-n) else NatToStr(n)
  }

  /** Reads a string of decimal digits back as a number (`int(s)`). */
  function ParseDigits(s: string): nat
    decreases |s|
  {
    if |s| == 0 then 0 else ParseDigits(s[..|s| - 1]) * 10 + DigitValue(s[|s| - 1])
  }

  /** The numeral of `n` reads back as `n`: a header's count is recoverable. */
  lemma {:induction false} NatToStrRoundTrip(n: nat)
    ensures ParseDigits(NatToStr(n)) == n
    decreases n
  {
    if n >= 10 {
      NatToStrRoundTrip(n / 10);
      var s := NatToStr(n / 10) + [DigitChar(n % 10)];
      assert s[..|s| - 1] == NatToStr(n / 10);
    }
  }

  /** Distinct numbers have distinct numerals. */
  lemma IntToStrInjective(m: int, n: int)
    requires IntToStr(m) == IntToStr(n)
    ensures m == n
  {
    NumeralSign(m);
    NumeralSign(n);
    if m < 0 {
      NatToStrInjective(-m, -n);
    } else {
      NatToStrInjective(m, n);
    }
  }

  lemma NatToStrInjective(a: nat, b: nat)
    requires NatToStr(a) == NatToStr(b)
    ensures a == b
  {
    NatToStrRoundTrip(a);
    NatToStrRoundTrip(b);
  }

  /** A numeral starts with '-' exactly for negative numbers. */
  lemma NumeralSign(n: int)
    ensures IntToStr(n)[0] == '-' <==> n < 0
    ensures n < 0 ==> IntToStr(n)[1..] == NatToStr(-n)
    ensures n >= 0 ==> IntToStr(n) == NatToStr(n)
  {
    if n >= 0 {
      assert '0' <= NatToStr(n)[0] <= '9';
    }
  }

  // ---------------------------------------------------------------------------
  // Joining and splitting

  /** `sep.join(parts)`. */
  function Join(sep: string, parts: seq<string>): string
    decreases |parts|
  {
    if |parts| == 0 then ""
    else if |parts| == 1 then parts[0]
    else parts[0] + sep + Join(sep, parts[1..])
  }

  /** `s.split(c)` for a single separator character: always at least one piece. */
  function Split(s: string, c: char): (r: seq<string>)
    ensures |r| >= 1
    decreases |s|
  {
    if |s| == 0 then [""]
    else
      var rest := Split(s[1..], c);
      if s[0] == c then [""] + rest else [[s[0]] + rest[0]] + rest[1..]
  }

  lemma {:induction false} SplitNoSeparator(p: string, c: char)
    requires c !in p
    ensures Split(p, c) == [p]
    decreases |p|
  {
    if |p| > 0 {
      SplitNoSeparator(p[1..], c);
      assert [p[0]] + p[1..] == p;
    }
  }

  lemma {:induction false} SplitAfterPiece(p: string, c: char, t: string)
    requires c !in p
    ensures Split(p + [c] + t, c) == [p] + Split(t, c)
    decreases |p|
  {
    if |p| == 0 {
      assert p + [c] + t == [c] + t;
      assert ([c] + t)[1..] == t;
    } else {
      var s := p + [c] + t;
      assert s[1..] == p[1..] + [c] + t;
      SplitAfterPiece(p[1..], c, t);
      assert [p[0]] + p[1..] == p;
    }
  }

  /** Splitting a join on its one-character separator gives the pieces back,
      provided no piece contains the separator. */
  lemma {:induction false} SplitJoin(parts: seq<string>, c: char)
    requires |parts| > 0
    requires forall i :: 0 <= i < |parts| ==> c !in parts[i]
    ensures Split(Join([c], parts), c) == parts
    decreases |parts|
  {
    if |parts| == 1 {
      SplitNoSeparator(parts[0], c);
    } else {
      SplitJoin(parts[1..], c);
      SplitAfterPiece(parts[0], c, Join([c], parts[1..]));
      assert [parts[0]] + parts[1..] == parts;
    }
  }

  /** A non-empty join starts with its first piece. */
  lemma JoinStartsWithFirst(sep: string, parts: seq<string>)
    requires |parts| > 0
    ensures |parts[0]| <= |Join(sep, parts)|
    ensures Join(sep, parts)[..|parts[0]|] == parts[0]
  {
    if |parts| > 1 {
      assert Join(sep, parts) == parts[0] + (sep + Join(sep, parts[1..]));
    }
  }

  // ---------------------------------------------------------------------------
  // Trailing whitespace: Python's `s.rstrip()`

  /** ASCII whitespace as `str.isspace` sees it: space, tab, the line and
      page breaks, and the four separators 0x1C-0x1F. */
  predicate IsSpace(c: char) {
    c == ' ' || c == '\t' || c == '\n' || c == '\r' || c == '\U{000B}' || c == '\U{000C}' ||
    ('\U{001C}' <= c <= '\U{001F}')
  }

  /** `s.rstrip()`: the longest prefix of `s` that does not end in whitespace. */
  function RStrip(s: string): (r: string)
    ensures |r| <= |s| && s[..|r|] == r
    ensures |r| == 0 || !IsSpace(r[|r| - 1])
    ensures forall i :: |r| <= i < |s| ==> IsSpace(s[i])
    decreases |s|
  {
    if |s| > 0 && IsSpace(s[|s| - 1]) then RStrip(s[..|s| - 1]) else s
  }

  /** Stripping only touches the tail: a prefix that ends in a non-space
      character survives, so a block's header line is kept intact. */
  lemma RStripKeepsPrefix(a: string, b: string)
    requires |a| > 0 && !IsSpace(a[|a| - 1])
    ensures |a| <= |RStrip(a + b)|
    ensures RStrip(a + b)[..|a|] == a
  {
    var r := RStrip(a + b);
    assert (a + b)[|a| - 1] == a[|a| - 1];
    assert (a + b)[..|r|][..|a|] == a;
  }
  /** `s.lstrip()`: the longest suffix of `s` that does not start with
      whitespace. */
  function LStrip(s: string): (r: string)
    ensures |r| <= |s| && s[|s| - |r|..] == r
    ensures |r| == 0 || !IsSpace(r[0])
    ensures forall i :: 0 <= i < |s| - |r| ==> IsSpace(s[i])
    decreases |s|
  {
    if |s| > 0 && IsSpace(s[0]) then LStrip(s[1..]) else s
  }

  /** `s.strip()`: whitespace removed from both ends. */
  function Strip(s: string): (r: string)
    ensures |r| <= |s|
    ensures |r| == 0 || (!IsSpace(r[0]) && !IsSpace(r[|r| - 1]))
  {
    LStrip(RStrip(s))
  }
}

=== FILE: types.dfy ===
/** The change descriptors shared by the change finder and the formatters. */
module Types {
  import opened Wrappers
  import opened Text
  import opened Seqs
  import opened Dicts
  import opened Records

  /** One field of one record that changed, both values already rendered by
      `str()`. */
  datatype FieldChange = FieldChange(fieldName: string, oldValue: string, newValue: string)

  /** The " → " between an old and a new value. */
  const Arrow: string := " \U{2192} "

  /** `str(change)`: "field_name: old_value → new_value". */
  function Describe(c: FieldChange): string {
    c.fieldName + ": " + c.oldValue + Arrow + c.newValue
  }

  /** One record whose key persisted across two snapshots but whose content
      differed, with its field changes keyed by field name. */
  datatype ItemChange<T> = ItemChange(oldItem: T, newItem: T, changes: Dict<string, FieldChange>)

  /** `item_change.has_change(f)`. */
  predicate HasChange<T>(ic: ItemChange<T>, f: string) {
    f in Keys(ic.changes)
  }

  /** `item_change.get_change(f)`: the change recorded under `f`, present
      exactly when `has_change(f)` holds. */
  function GetChange<T>(ic: ItemChange<T>, f: string): (r: Option<FieldChange>)
    ensures r.Some? <==> HasChange(ic, f)
    ensures r.Some? ==> (f, r.value) in ic.changes
  {
    Get(ic.changes, f)
  }

  /** The indentation `format_changes` uses by default. */
  const DefaultIndent: string := "    "

  /** The lines `format_changes` joins: one indented description per change,
      in the dict's order. */
  function ChangeLines<T>(ic: ItemChange<T>, indent: string): seq<string> {
    Map((c: FieldChange) => indent + Describe(c), Values(ic.changes))
  }

  /** `item_change.format_changes(indent)`. */
  function FormatChanges<T>(ic: ItemChange<T>, indent: string): string {
    Join("\n", ChangeLines(ic, indent))
  }

  /** No newline inside a change's parts. */
  predicate SingleLine(c: FieldChange) {
    '\n' !in c.fieldName && '\n' !in c.oldValue && '\n' !in c.newValue
  }

  /** `format_changes` gives one line per change, each the indented `str()`
      of that change, in the dict's order; no changes give "". */
  lemma FormatChangesLines<T>(ic: ItemChange<T>, indent: string)
    requires '\n' !in indent
    requires forall i :: 0 <= i < |ic.changes| ==> SingleLine(ic.changes[i].1)
    ensures |ic.changes| == 0 ==> FormatChanges(ic, indent) == ""
    ensures |ic.changes| > 0 ==> Split(FormatChanges(ic, indent), '\n') == ChangeLines(ic, indent)
    ensures |ChangeLines(ic, indent)| == |ic.changes|
    ensures forall i :: 0 <= i < |ic.changes| ==>
              ChangeLines(ic, indent)[i] == indent + Describe(ic.changes[i].1)
  {
    var lines := ChangeLines(ic, indent);
    if |ic.changes| > 0 {
      forall i | 0 <= i < |lines|
        ensures '\n' !in lines[i]
      {
        var c := ic.changes[i].1;
        assert lines[i] == indent + (c.fieldName + ": " + c.oldValue + Arrow + c.newValue);
        assert '\n' !in ": " && '\n' !in Arrow;
      }
      SplitJoin(lines, '\n');
    }
  }

  /** The `(old_item, new_item, changes)` triple the older formatters take,
      with each change an `(old_value, new_value)` pair. */
  datatype ChangeTriple = ChangeTriple(oldItem: Record, newItem: Record, changes: Dict<string, (string, string)>)
}

=== FILE: wrappers.dfy ===
/** The Option datatype used throughout the model for Python's `None`-or-value
    results and for operations that raise (None stands for "raises"). */
module Wrappers {

  datatype Option<+T> = None | Some(value: T) {

    /** The wrapped value, or `default` when there is none (Python `x or default`
        for values whose only falsy form is None). */
    function GetOr(default: T): T {
      match this
      case Some(v) => v
      case None => default
    }
  }
}
